=== FILE: README.md ===
# apw build engine — a Dafny model

apw runs the nodes of a dependency graph in dependency order. The live engine
has three parts, which share a small adjacency toolkit:

- **Arch** (`lib/arch.js`) is the graph store. It keeps nodes, a `parents`
  table and a `children` table that mirror each other, a reentrant lock
  counter, and the plans registered on it. Every edge change is pushed into
  each registered plan that holds an endpoint.
- **Plan** (`lib/plan.js`) is the job state machine of one build request. It
  keeps its own copy of the links, rooted at a synthetic root node, and three
  job lists: queued (`jobs`), `activeJobs` and `doneJobs`.
- **Workers** (`lib/workers.js`) dispatches jobs across plans. It keeps a
  round-robin cursor over the plans, a global set of jobs in flight, a worker
  cap, and two finish-listener maps: job to plans and plan to jobs.
- `lib/util.js` provides the list and map surgery. `lib/asserts.js` provides
  the guard checks that act as preconditions.

The model is functional. Each object is an immutable `datatype`, and each
method is a pure function from the old state to the new one. A thrown error
becomes an `Err` result, except on the paths named under "Left out": there
the model goes on where the source would throw.

Running a node's action is replaced by an abstract transition,
`Workers.Finish(w, archNodes, id, ok)`: the job's promise settles with
success or failure. The lists are `seq<Id>` and the tables are
`map<Id, seq<Id>>`. Three recursions in the source have no visited guard:
`_gatherIDs`, `injectSubArch` and `_removeTree`. Each carries a `fuel`
parameter, and the arch hands it one more than its number of nodes.

Modules and files:

| module | file | models |
|---|---|---|
| `Util` | `util.dfy` | `lib/util.js` |
| `Asserts` | `asserts.dfy` | `lib/asserts.js` |
| `Plan` | `plan.dfy` | plan construction, the job lists, readiness, subgraph injection |
| `PlanEdit` | `plan_edit.dfy` | plan `unlink`, `removeNode`, `removeTree`, `onJobDone`, `onJobFail` |
| `PlanLinks`, `PlanBuild`, `PlanLeaves`, `PlanEditProps`, `PlanRemove`, `PlanFinish` | `plan_*.dfy` | properties of the plan |
| `PlanNew`, `PlanQueue` | `plan_new.dfy`, `plan_queue.dfy` | what the plan constructor links and queues |
| `Arch` | `arch.dfy` | `lib/arch.js` |
| `ArchProps`, `ArchRemove` | `arch_props.dfy`, `arch_remove.dfy` | properties of the arch |
| `Workers` | `workers.dfy` | the bookkeeping of `lib/workers.js` |
| `WorkersShift`, `WorkersProps`, `WorkersFinish` | `workers_*.dfy` | properties of the dispatcher |

The invariants proved to be preserved:

- **Arch and plan tables.** `parents` and `children` are mutually
  consistent, and no list repeats an id (`Util.Consistent`).
- **Plan job lists.** The three lists are duplicate-free and pairwise
  disjoint (`Plan.JobsOk`).
- **Lock counters.** They never go below zero; they are `nat`, and `unlock`
  at zero is a no-op.
- **Workers.** `Workers.Valid` covers:
  - the two listener maps are exact inverses;
  - every listener is a registered plan that has the job active;
  - `plansOrder` lists each registered plan exactly once;
  - the jobs in flight never exceed the running workers, which never exceed
    the cap.

## Model

| member | source | states |
|---|---|---|
| Util.ToArray | lib/util.js:7-9 | An array argument is returned unchanged; a single id becomes a one-element array holding it. |
| Util.ArrayToObject | lib/util.js:17-27 | The keys of the object built from an array are exactly the array's elements, each once. |
| Util.AddKeys | lib/util.js:21-24 | The insertion loop keeps the existing keys as a prefix and adds exactly the new elements, without repeats. |
| Util.IndexOf | lib/util.js:49 | `indexOf` gives -1 exactly for an absent element; otherwise it gives the position of the first occurrence. |
| Util.RemoveFirst | lib/util.js:48-51 | The guarded splice leaves a list without `x` unchanged and otherwise shortens it by one. On a duplicate-free list, `x` is then gone and every other element keeps its membership. |
| Util.SpliceIndexOf | lib/util.js:84 | The unguarded splice removes the first `x` when present. When `x` is absent, it drops the last element of a non-empty list. |
| Util.Unlink | lib/util.js:46-56 | `id` leaves both lists, at most once each. A list without `id` is unchanged, and every other id keeps its membership. |
| Util.RemoveFromNeighbours | lib/util.js:80-87 | The table keeps its keys, and lists not named in `ids` are untouched. When every named list holds `id`, each loses exactly its first `id`. |
| Util.RemoveNode | lib/util.js:65-71 | Both tables lose exactly the key `id`. |
| Util.RemoveNodeConsistent | lib/util.js:65-87 | On consistent tables: every remaining list equals its old value with `id` taken out, `id` is listed nowhere, and the tables stay consistent. |
| Util.NeighboursRemoved | lib/util.js:80-87 | When `ids` names every list holding `id`, the neighbour walk takes `id` out of exactly those lists. This is the consistency that keeps the splice at line 84 away from index -1. |
| Util.RemoveEverywhere | lib/util.js:65-71 | Taking `id` out of every list and deleting its entries keeps consistent tables consistent. |
| Util.HasLink | lib/util.js:98-110 | False for an absent node or an empty id list; otherwise true exactly when every given id is in the link list. |
| Util.AllIn | lib/util.js:105-107 | The loop of `hasLink` finds no missing id exactly when every id from position `i` on is in the list. |
| Util.IsArrayInObject | lib/util.js:119-125 | True exactly when every element of the array is a key of the object. |
| Util.AddArrayToObject | lib/util.js:134-139 | Every element becomes a key, existing keys stay, and no other key appears. |
| Util.RemoveFirstKeeps | lib/util.js:48-51 | An id other than `x` survives the guarded splice exactly when it was there. |
| Asserts.HasId | lib/asserts.js:18-20 | Fails exactly when the id is not a node, and reports that id. |
| Asserts.AbsentId | lib/asserts.js:29-31 | Fails exactly when the id is already a node, and reports that id. |
| Asserts.HasIds | lib/asserts.js:91-93 | With an arch, fails exactly when some id is not a node, and reports an absent id. Without an arch, never fails. |
| Asserts.TwoLinks | lib/asserts.js:40-55 | `twoLinksInArch` and `twoLinksInPlan` pass exactly when the id has both a parents and a children entry. |
| Asserts.OneOfTwoInPlan | lib/asserts.js:78-82 | Fails exactly when neither id has both entries. |
| Asserts.NoIdLoop | lib/asserts.js:113-116 | Fails exactly when `id` is in the given parents or the given children. |
| Asserts.NoCrossLoop | lib/asserts.js:125-131 | With both lists given, fails exactly when they share an id, and reports a shared id. |
| Asserts.FirstShared | lib/asserts.js:127-129 | The `forEach` fails exactly when some parent is also a child. |
| Asserts.PlanDone | lib/asserts.js:139-147 | Passes exactly when the plan is unlocked and neither table holds more than one key; a locked plan fails first. |
| Asserts.PlanFail | lib/asserts.js:155-157 | Fails exactly when the plan is locked. |
| Asserts.PlanLinksOk | lib/asserts.js:165-176 | Passes exactly when the key sets of the two plan tables coincide. |
| Asserts.NotJob | lib/asserts.js:185-188 | Fails exactly when the id is an active or a done job. |
| Arch.Empty | lib/arch.js:17-23 | A new arch is valid, has no nodes or plans, and is unlocked. |
| Arch.Lock | lib/arch.js:41-49 | The arch counter and every plan's counter go up by one, and nothing else changes. |
| Arch.Unlock | lib/arch.js:56-64 | The counter goes down by one when positive and stays at zero otherwise; only the counters change. |
| ArchProps.LockUnlock | lib/arch.js:41-64 | `unlock` after `lock` gives back the arch, plans included. |
| Arch.GetNode | lib/arch.js:89-112 | A stored node is returned as it is; an unknown id yields a default node with that id and no rule. |
| Arch.HasParents | lib/arch.js:219-224 | Fails exactly for an unknown id. Otherwise true exactly when a non-empty list of ids was given and every one is a parent. |
| Arch.HasChildren | lib/arch.js:233-238 | The same, against the children list. |
| Arch.GetParents | lib/arch.js:259-264 | Fails exactly for an unknown id; otherwise the result holds exactly the node's parents. |
| Arch.GetChildren | lib/arch.js:246-251 | Fails exactly for an unknown id; otherwise the result holds exactly the node's children. |
| Arch.FindRoots | lib/arch.js:429-433 | The roots are ids of the parents table. |
| ArchProps.FindRootsExact | lib/arch.js:429-433 | On a valid arch, the roots are exactly the nodes that no node lists as a child. |
| ArchProps.HasLinkMirror | lib/arch.js:315-334 | On a valid arch, `q` is a parent of `c` exactly when `c` is a child of `q`. |
| Arch.LinkEdge | lib/arch.js:321-334 | After one turn of `_link`, the parents tables differ by exactly the edge `parent -> child`. When the edge is new, so do the children tables. Nodes and the plan keys are kept. |
| Arch.LinkPlans | lib/arch.js:331-334 | Every plan holding either endpoint links the pair, and the set of plans is unchanged. |
| Arch.LinkInPlan | lib/arch.js:331-334 | A plan holding neither endpoint is untouched. A plan holding one keeps every edge and its job lists apart from the queue. |
| Arch.Link | lib/arch.js:295-307 | Succeeds exactly when both arguments are given and every id is a node; a missing child list is reported. Only the link tables and the plans change. |
| ArchProps.LinkExact | lib/arch.js:295-334 | On a valid arch, a successful `link` keeps it valid and adds exactly the edges from every given parent to every given child, in both tables. |
| ArchProps.LinkTwice | lib/arch.js:295-334 | Linking the same ids a second time changes nothing, plans included. |
| ArchProps.LinkEdgeValid | lib/arch.js:321-334 | One turn of `_link` between two nodes keeps the arch valid and adds exactly that edge. |
| ArchProps.LinkUnderEdges | lib/arch.js:315-336 | The `parents.forEach` adds exactly the edges from each parent to the child. |
| ArchProps.LinkAllEdges | lib/arch.js:302-304 | The `children.forEach` adds exactly the edges from each parent to each child. |
| ArchProps.LinkEdgeReachesPlans | lib/arch.js:331-334 | A new edge reaches every plan holding the parent, unless an endpoint is done there. |
| ArchProps.LinkPlans | lib/arch.js:295-334 | `link` keeps every plan valid. |
| Arch.AddChildren | lib/arch.js:273-275 | Succeeds exactly when the children are given and they and `id` are all nodes. |
| Arch.AddParents | lib/arch.js:284-286 | Succeeds exactly when the parents are given and they and `id` are all nodes. |
| Arch.AddNode | lib/arch.js:123-139 | An existing id is refused. Otherwise it succeeds exactly when every given parent and child is a node or the new id itself. The node is then stored, and the plans, counter and lock are kept. |
| ArchProps.AddNodeValid | lib/arch.js:123-139 | A successful `addNode` keeps the arch and its plans valid. With only parents given, the new node's parents are exactly those; with only children, its children are exactly those. |
| ArchProps.WithNode | lib/arch.js:127-133 | Storing the node and empty entries keeps the arch valid. Entries made earlier are kept as they were. |
| Arch.RemoveNode | lib/arch.js:188-200 | The id leaves the nodes and both tables; every plan keeps its key and no longer holds the id. |
| Arch.RemoveInPlan | lib/arch.js:194-197 | A plan holding the id drops it, and a plan without it is untouched. The job lists other than the queue are kept. |
| ArchProps.RemoveNodeExact | lib/arch.js:188-200 | On a valid arch, `removeNode` takes the id out of every remaining list and changes nothing else in them; the arch stays valid. |
| ArchProps.RemoveNodePlans | lib/arch.js:194-197 | Removing an id other than the plan root keeps every plan valid. |
| Arch.ReplaceNode | lib/arch.js:167-180 | An unknown id is refused. Without links given, only the stored node changes; with links, the node ends up stored. |
| ArchProps.ReplaceNodeValid | lib/arch.js:167-180 | A successful `replaceNode` keeps the arch valid, and its plans when the node is not the plan root. With only parents given, the node's parents are exactly those; with only children, its children. |
| Arch.SetNode | lib/arch.js:152-156 | The node ends up stored. For a known id without links, that is the only change. |
| Arch.Unlink | lib/arch.js:345-360 | Succeeds exactly when both ids are nodes with entries in both tables, and reports the first unknown id. The table keys, the nodes and the plan keys are kept. |
| Arch.UnlinkInPlan | lib/arch.js:354-357 | A plan not holding both ids is untouched; one holding both keeps its job lists apart from the queue. |
| ArchProps.UnlinkExact | lib/arch.js:345-360 | On a valid arch, `unlink` of two nodes succeeds, removes exactly the entries between them in both tables, and keeps the arch valid. |
| ArchProps.UnlinkTwice | lib/arch.js:345-360 | A second `unlink` of the same pair leaves the tables as the first left them. |
| ArchProps.UnlinkPlans | lib/arch.js:354-357 | Every plan stays valid, and a valid plan holding both ids is unlinked exactly as its own `unlink` does. |
| ArchProps.UnlinkRegistered | lib/arch.js:345-360 | The plans stay registered under their ids. |
| Arch.RemoveTree | lib/arch.js:371-384 | An unknown id is refused. On success, the id is gone and no node or table entry is added. |
| Arch.RemoveSubLive | lib/arch.js:386-396 | `_removeTree` as written never adds a node or an entry. |
| Arch.RemoveEachLive | lib/arch.js:375-378 | The loop over the live children list never adds a node or an entry. |
| Arch.RemoveTreeFixed | lib/arch.js:371-384 | The corrected form succeeds exactly for a node with a children entry; the id is then gone and nothing is added. |
| Arch.RemoveSubFixed | lib/arch.js:386-396 | The corrected `_removeTree` always succeeds, adds nothing, and keeps the node and parents keys equal. |
| Arch.RemoveEachFixed | lib/arch.js:388-392 | The loop over the snapshot always succeeds and adds nothing. |
| ArchRemove.RemoveTreeLeavesSibling | lib/arch.js:371-396 | As written, `removeTree(x)` of a node with two leaf children removes `x` and the first child. It leaves the second in the arch with no parent. |
| ArchRemove.RemoveTreeFixedTwoLeaves | lib/arch.js:371-396 | Corrected, the same `removeTree(x)` removes `x` and both children. |
| ArchRemove.RemoveTreeFixedForced | lib/arch.js:371-396 | The corrected forced `removeTree` succeeds and removes the node and every one of its children. |
| ArchRemove.RemoveSubFixedGone | lib/arch.js:386-396 | The corrected `_removeTree` removes an id that is forced or has one parent. An unforced id with several parents is left untouched. |
| ArchRemove.RemoveTreeFixedValid | lib/arch.js:371-396 | The corrected `removeTree` keeps the arch valid. |
| Arch.CreatePlan | lib/arch.js:405-422 | Succeeds exactly when targets are given and all are nodes. A new plan is registered under the counter, the counter moves on, and other plans are kept. |
| ArchProps.CreatePlanValid | lib/arch.js:405-422 | `createPlan` keeps the arch and every plan valid. |
| ArchProps.CreatePlanShape | lib/arch.js:405-415 | The new plan lists every target under the plan root. Each of its edges is an arch edge or an edge from the root to a target. |
| Arch.OnPlanAllDone | lib/arch.js:417-419 | The plan is unregistered and the other plans are kept. |
| ArchProps.CreatePlanAllDone | lib/arch.js:405-422 | The `allDone` listener undoes the registration, leaving only the advanced counter. |
| ArchProps.OnPlanAllDoneValid | lib/arch.js:417-419 | Unregistering a plan keeps the arch and its plans valid. |
| Plan.Empty | lib/plan.js:20-37 | A new plan holds only its root, has empty job lists, is unlocked and has not failed, and is valid. |
| Plan.New | lib/plan.js:20-52 | The constructed plan has the given id and root, nothing active or done, no lock, and well-formed job lists. Its links and queue are stated by PlanNew.NewEdges and PlanQueue.NewQueue. |
| PlanBuild.NewPlan | lib/plan.js:20-66 | For any fuel, the constructed plan is valid and every target is a child of the root. Every edge is an arch edge or an edge from the root to a target. |
| Plan.Init | lib/plan.js:45-52 | `init` changes only links and queue and keeps the job lists well formed. What it links and queues is stated by PlanNew.InitEachCovers and PlanQueue.InitEachGrows. |
| PlanBuild.InitEachProperties | lib/plan.js:45-52 | The `init` loop keeps the plan valid and its edges, and lists every target under the root. It adds no edge other than arch edges. |
| Plan.GatherIDs | lib/plan.js:59-66 | `_gatherIDs` changes only links and queue and keeps the job lists well formed. What it queues is stated by PlanQueue.GatherGrows. |
| PlanNew.InjectCovers | lib/plan.js:341-361 | When `injectSubArch` runs (fuel left, parent in the plan, neither id done), every walk of fewer steps than the fuel from the child, through ids not done, ends at an id all of whose arch edges to ids not done are plan edges. |
| PlanNew.InjectEachCovers | lib/plan.js:353-355 | The loop of `injectSubArch` lists every arch child not done under the parent and covers the arch below it, as above. |
| PlanNew.InitEachCovers | lib/plan.js:45-52 | The `init` loop covers the arch below every target that is not done, as above. |
| PlanNew.NewEdges | lib/plan.js:20-66 | With fuel above the number of arch ids, every arch edge out of an id that a target reaches is an edge of the new plan. |
| PlanQueue.RefactorGrows | lib/plan.js:357 | The `refactorJobs` after an injection under `x` drops no queued id and queues exactly the leaves that `x` reaches. |
| PlanQueue.InjectGrows | lib/plan.js:341-361 | `injectSubArch` under the root or an arch parent queues only leaves that the child reaches. When it runs, it queues every leaf the child reaches through ids not done. Every plan edge stays under the root or an arch edge. |
| PlanQueue.InjectEachGrows | lib/plan.js:353-355 | The loop of `injectSubArch` queues only leaves that the arch children reach. |
| PlanQueue.GatherGrows | lib/plan.js:59-66 | `_gatherIDs` from `id` drops no queued id and queues only leaves that `id` reaches. |
| PlanQueue.GatherEachGrows | lib/plan.js:62-65 | The loop of `_gatherIDs` queues only leaves that the arch children reach. |
| PlanQueue.InitEachGrows | lib/plan.js:45-52 | The `init` loop queues only leaves that the targets reach. When the root is live, it queues every leaf a target not done reaches. |
| PlanQueue.NewQueue | lib/plan.js:20-66 | When the root is neither an arch id nor a target, the new plan's queue holds exactly the ids without arch children that some target reaches. |
| PlanQueue.SimpleArchQueue | test/plan-test.js:13-25 | On the arch A -> B -> C, a plan for `A` queues only `C`, the job the test suite expects first. |
| ArchProps.CreatePlanContents | lib/arch.js:405-412 | On a valid arch with no node named like the plan root, the registered plan holds every arch edge out of an id a target reaches. Its queue is exactly the childless nodes a target reaches. |
| PlanBuild.GatherValid | lib/plan.js:59-66 | `_gatherIDs` keeps a valid plan valid. |
| PlanBuild.GatherExtends | lib/plan.js:59-66 | `_gatherIDs` keeps every edge. |
| PlanBuild.GatherAdds | lib/plan.js:59-66 | `_gatherIDs` adds arch edges only. |
| Plan.AddJob | lib/plan.js:518-526 | The id is queued exactly when it was queued or is neither done nor active, and no other id changes. The old queue is a prefix; the job lists stay well formed. |
| Plan.RemoveJob | lib/plan.js:144-149 | Only the queue changes. On a duplicate-free queue the id is gone, and every other id keeps its membership. |
| Plan.RemoveJobs | lib/plan.js:128-136 | The queue keeps exactly the ids not in the list, and the job lists stay well formed. |
| Plan.RescanJobs | lib/plan.js:113-120 | Only the queue changes and the lists stay well formed. A newly queued id was rescanned and has no plan children. |
| PlanRemove.RemoveNodeQueuesRoot | lib/plan.js:113-117 | With no root guard, removing the last child of the root queues the root itself. |
| Plan.GetOtherJob | lib/plan.js:166-170 | The result is the first queued id not excluded; it is nothing exactly when every queued id is excluded. |
| Plan.NextJob | lib/plan.js:180-198 | Locked or empty: nothing, and no change. Otherwise the requested id when queued, or the head when none is requested, moves to the end of `activeJobs`. Nothing else changes. |
| Plan.CheckNextJob | lib/plan.js:209-219 | Read-only: the requested id when queued, and nothing when locked. Otherwise it is exactly what `getOtherJob` gives: the first queued id outside the exclusion, and nothing when every queued id is excluded. |
| Plan.Lock | lib/plan.js:533-537 | The counter goes up, and `unlock` undoes it. |
| Plan.Unlock | lib/plan.js:544-548 | The counter goes down by one when positive; at zero the plan is unchanged. |
| Plan.LinkEdge | lib/plan.js:369-385 | `_link` creates any missing entries and lists the child under the parent and the parent above the child. |
| PlanLinks.LinkEdgeLists | lib/plan.js:369-385 | `_link` adds exactly the edge `parent -> child`, in both tables, and keeps every other entry. |
| PlanLinks.LinkEdgeConsistent | lib/plan.js:369-385 | `_link` keeps consistent tables consistent. |
| PlanLinks.LinkEdgeIdempotent | lib/plan.js:369-385 | Linking the same pair a second time changes nothing. |
| Plan.InjectSubArch | lib/plan.js:341-361 | Nothing changes when the parent is not in the plan or an endpoint is done. Otherwise only links and queue change, and the job lists stay well formed. |
| PlanLinks.InjectExtends | lib/plan.js:341-361 | `injectSubArch` keeps every edge. It adds the requested edge when its guard holds. |
| PlanLinks.InjectNewEdges | lib/plan.js:341-361 | Every edge `injectSubArch` adds is the requested edge or an arch edge. |
| PlanLinks.InjectValid | lib/plan.js:341-361 | `injectSubArch` keeps a valid plan valid. |
| Plan.Link | lib/plan.js:320-332 | `link` changes only links and queue and keeps the job lists well formed. |
| PlanBuild.LinkProperties | lib/plan.js:320-361 | `link` keeps the plan valid and its edges. Every child ends up under every parent that is in the plan, the root when none is given, unless an endpoint is done. No other edge is added apart from arch edges. |
| PlanBuild.LinkAllEdges | lib/plan.js:321-327 | The two loops of `link` list every child under every parent in the plan when neither is done. |
| Plan.CollectLeaves | lib/plan.js:241-251 | The leaves are distinct, none is done, and none has arch children. |
| PlanLeaves.CollectLeavesExact | lib/plan.js:241-275 | `collectLeaves` returns, each once, exactly the childless ids that a walk through ids that are not done reaches from the start. |
| Plan.Visit | lib/plan.js:260-275 | `_collectLeaves` marks the start or skips it as done. A newly marked id is a leaf exactly when it has no arch children, and every child of a newly marked id gets marked or is done. |
| PlanLeaves.VisitSound | lib/plan.js:260-275 | Every id the walk marks is reachable from its start through ids that are not done. |
| Plan.RefactorJobs | lib/plan.js:285-310 | The new queue, without repeats, holds exactly the queued childless jobs and the added ones, minus the active jobs. |
| Plan.Childless | lib/plan.js:292-297 | The kept jobs are exactly the queued ids without plan children. |
| PlanEdit.HasParents | lib/plan.js:433-438 | Fails exactly for an id not in the plan. Otherwise true exactly when a non-empty list was given and all are parents. |
| PlanEdit.HasChildren | lib/plan.js:447-452 | The same, against the plan's children list. |
| PlanEdit.Unlink | lib/plan.js:394-414 | Fails exactly when an id lacks an entry in either table. On success only links and queue change, and the lists stay well formed. |
| PlanEditProps.UnlinkValid | lib/plan.js:394-414 | `unlink` keeps a valid plan valid. |
| PlanEditProps.UnlinkRemovesEdge | lib/plan.js:394-414 | When each id keeps another parent, exactly the two entries between the ids are removed, in both tables. |
| PlanEditProps.UnlinkRelinks | lib/plan.js:403-409 | An id whose only parent was the other id is linked under the root again, unless it is done. |
| PlanEditProps.UnlinkTwice | lib/plan.js:394-414 | A second `unlink` leaves the tables as the first left them. |
| PlanEditProps.HasLinkMirror | lib/plan.js:369-385 | On a valid plan, `q` is a parent of `c` exactly when `c` is a child of `q`. |
| PlanEdit.RemoveNode | lib/plan.js:460-474 | Fails exactly for an id not in the plan. Otherwise both tables lose exactly that key, and only links and queue change. |
| PlanRemove.RemoveNodeExact | lib/plan.js:460-474 | On consistent tables `removeNode` takes the id out of every remaining list and changes nothing else; the tables stay consistent. |
| PlanRemove.RemoveNodeValid | lib/plan.js:460-474 | Removing an id other than the root keeps a valid plan valid. |
| PlanEdit.RemoveTree | lib/plan.js:485-498 | An id not in the plan is refused. On success it is gone, no entry is added, and only links and queue change. |
| PlanEdit.RemoveSubLive | lib/plan.js:500-510 | `_removeTree` as written adds no entry and changes only links and queue. |
| PlanEdit.RemoveTreeFixed | lib/plan.js:485-498 | The corrected form refuses an unknown id and, on success, removes it and adds nothing. |
| PlanRemove.RemoveTreeLeavesSibling | lib/plan.js:485-510 | As written, removing a node with two leaf children leaves the second child in the plan. |
| PlanRemove.RemoveTreeFixedTwoLeaves | lib/plan.js:485-510 | Corrected, the same removal takes the node and both children out. |
| PlanRemove.RemoveTreeFixedForced | lib/plan.js:485-510 | The forced corrected `removeTree` removes the node and every one of its children when it succeeds. |
| PlanEdit.OnJobDone | lib/plan.js:556-574 | A non-arch id is refused. On success: the id loses its entries; it moves from `activeJobs` to the end of `doneJobs`; the lock and failed flag are kept. |
| PlanEdit.ReleaseOne | lib/plan.js:560-562 | `x` is spliced out of the parent's children. The parent is queued exactly when that list is now empty, it is not the root, and it is not done or active. |
| PlanFinish.ReleaseChildren | lib/plan.js:559-563 | When every parent lists `x`, the loop succeeds and takes `x` out of exactly those lists. |
| PlanFinish.ReleaseJobs | lib/plan.js:559-563 | The loop queues exactly the parents that `x` was the only child of, other than the root and done or active ids. |
| PlanFinish.OnJobDoneValid | lib/plan.js:556-574 | `onJobDone` of an active leaf job other than the root keeps the plan valid. `x` leaves every list, and the queue gains exactly the freed parents. |
| PlanEdit.OnJobFail | lib/plan.js:581-586 | Fails exactly when the plan is locked. Otherwise it only marks the plan failed, which makes it not operable. |
| Workers.New | lib/workers.js:16-27 | A new pool is valid and empty. A zero limit becomes the default of 4. |
| Workers.AddPlan | lib/workers.js:93-101 | The plan is registered. A new id joins the end of the order, an existing one is left alone, and the order keeps listing each plan once. |
| WorkersProps.AddPlanIdempotent | lib/workers.js:93-101 | Adding a plan twice is adding it once. |
| Workers.RemovePlan | lib/workers.js:109-117 | Given a plan's numeric id: an absent id changes nothing. Otherwise the plan leaves the pool; the order loses the id's first occurrence when it holds the id, and its last entry when it does not, as the unguarded splice does. With the order in step with the pool, it shrinks by one and keeps listing each plan once. |
| WorkersProps.AddRemovePlan | lib/workers.js:93-117 | Removing a plan just added gives back the pool. |
| Workers.NextPlanId | lib/workers.js:125-130 | The cursor moves one on, wrapping to the front, and only it changes. The id under it is returned, and nothing exactly when the order is empty. |
| Workers.NextOperablePlan | lib/workers.js:140-156 | Only the cursor changes. A plan found is registered, is under the cursor, is operable and has a job outside the exclusion. |
| Workers.NextOperableFirst | lib/workers.js:140-156 | A plan is found exactly when some registered plan qualifies, and it is the first that qualifies going round from the cursor. |
| Workers.ScanCovers | lib/workers.js:146-154 | A full round that finds nothing has looked at every registered plan. |
| Workers.AddFinishListener | lib/workers.js:295-304 | Both maps gain exactly the pair of the job and the plan. |
| WorkersProps.AddListenerInverse | lib/workers.js:295-304 | `addFinishListener` keeps the two maps inverse. |
| Workers.RemoveJobFinishListener | lib/workers.js:312-315 | Both maps lose exactly that pair and keep their keys. |
| WorkersProps.RemoveJobListenerInverse | lib/workers.js:312-315 | `removeJobFinishListener` keeps the two maps inverse. |
| Workers.RemovePlanFinishListener | lib/workers.js:322-327 | The plan's own entry goes, and it leaves the listener set of every job it listened for. |
| WorkersProps.RemovePlanListenerInverse | lib/workers.js:322-327 | `removePlanFinishListener` keeps the maps inverse, and afterwards the plan listens for no job in either map. |
| WorkersProps.ListenerRoundTrip | lib/workers.js:295-315 | Adding a new listening pair and removing it gives back the relation. |
| Workers.TerminatePlan | lib/workers.js:254-260 | Corrected: called with the plan's numeric id, the plan leaves the pool, the order and both listener maps, and the order keeps listing each plan once. |
| Workers.TerminateByKey | lib/workers.js:241-255 | As written from `onJobFinished`: the plan and its listeners go as in the corrected form, but the order loses its last entry (`Workers.RemovePlanByKey`). |
| Workers.RemovePlanByKey | lib/workers.js:109-117 | `removePlan` given a string key: the plan leaves the pool, and the order loses its last entry instead. |
| Workers.SpliceMissing | lib/workers.js:112 | The order's splice at the `indexOf` of a key it cannot hold is `splice(-1, 1)` of that key. |
| WorkersFinish.TerminateByKeyAgrees | lib/workers.js:241-255 | The as-written termination matches the corrected one, and keeps the order listing each plan once, exactly when the plan is last in the order. |
| WorkersFinish.TerminateByKeyTwoPlans | lib/workers.js:141-147 | From the valid pool `[1, 2]`, terminating plan 1 as written leaves the order `[1]` over the pool `{2}`, and the cursor's next id is the unregistered plan 1. |
| Workers.ShiftVisit | lib/workers.js:190-193 | One turn asks the plan for the job by name. The plan listens for the job exactly when it hands the job out. |
| WorkersShift.ShiftExact | lib/workers.js:183-197 | Every plan operable when the walk began is asked for the job, and the others are untouched. Listeners are added exactly for the plans that hand it out. |
| WorkersShift.ShiftLoopExact | lib/workers.js:189-195 | From any point of the `do … while`, the rest of the walk completes the shift. |
| WorkersProps.ShiftedPool | lib/workers.js:183-197 | The shift for a job in flight keeps the listener maps inverse and attended, with plans under their ids. |
| Workers.Dispatch | lib/workers.js:166-170 | The job handed out is the first id in that plan's queue that is not in flight. It joins the jobs in flight and is shifted out of the plans; the worker count is not yet touched. |
| Workers.Hand | lib/workers.js:165-172 | A dispatched job was not in flight and now is, and exactly one worker more is running. |
| Workers.Next | lib/workers.js:163-176 | `next` adds one running worker per dispatched job. Under the cap it stays within the cap, and the registered plans are kept. |
| WorkersProps.NextSent | lib/workers.js:163-176 | `next` dispatches only ids not in flight, each once, and they are exactly what joins the jobs in flight. |
| WorkersProps.NextStalls | lib/workers.js:163-176 | With every worker busy, `next` dispatches nothing and changes nothing. |
| WorkersProps.NextValid | lib/workers.js:163-176 | `next` keeps the pool valid. |
| WorkersProps.DispatchValid | lib/workers.js:166-172 | One dispatch with its worker keeps the pool valid. |
| Workers.FinishOne | lib/workers.js:241-249 | One turn of the `for … in`, with the corrected termination: the plan stops listening for the job, and other plans are kept. The plan is gone after a failure; if kept, it is not all done. |
| Workers.Report | lib/workers.js:246-248 | The plan hears of the job and is terminated, by the corrected `TerminatePlan`, when it failed or is all done. Only its own listeners change. |
| WorkersFinish.ReportExact | lib/workers.js:246-248 | A plan that `Report` keeps heard of the job as done, and is what `onJobDone` made of it. |
| Workers.FinishEach | lib/workers.js:241-249 | After the loop, none of the plans it visited listens for the job, the two listener maps still mirror each other, and the job and worker counts are untouched. |
| Workers.FinishEachKeeps | lib/workers.js:241-249 | With the corrected termination, the loop keeps every plan it does not visit, as it was, and their run order. After a failure, every visited plan is gone. |
| Workers.OnJobFinished | lib/workers.js:235-252 | With the corrected termination: the job leaves the jobs in flight and nobody listens for it any more. Plans not listening are kept, and after a failure every listening plan is terminated. |
| WorkersFinish.OnJobFinishedValid | lib/workers.js:235-260 | For a job in flight, the listener maps stay inverse and attended, and nobody listens for the job afterwards. |
| WorkersFinish.FinishEachPending | lib/workers.js:241-249 | Once the loop succeeds, nobody listens for the job, and every listener waits for a job in flight that its plan has active. |
| WorkersFinish.OnJobFinishedKeeps | lib/workers.js:235-252 | With the corrected termination, `onJobFinished` keeps the pool valid once the worker count bounds the in-flight set without the job. |
| Workers.Finish | lib/workers.js:210-217 | With the corrected termination: on success one worker is released before `next` adds its own. On failure nothing is dispatched, the worker count is kept, and the job leaves the jobs in flight. |
| WorkersFinish.FinishValid | lib/workers.js:206-217 | With the corrected termination, settling a job in flight keeps the pool valid on both paths. |
| WorkersFinish.FinishOkBalanced | lib/workers.js:210-214 | On success, one running worker per job in flight is kept through the following `next`. |
| WorkersFinish.NextBalanced | lib/workers.js:163-176 | `next` adds one worker per job it puts in flight. |
| WorkersFinish.FinishFailUnbalanced | lib/workers.js:215-217 | As written, a failed job keeps its worker: from a balanced pool the worker count ends one above the jobs in flight. |
| WorkersFinish.FinishFailStalls | lib/workers.js:215-217 | As written, once as many jobs failed as there are workers, nothing is in flight, every worker counts as busy, and `next` dispatches nothing. |
| Workers.FinishFixed | lib/workers.js:210-217 | Corrected: the worker is released on either path before `next`. |
| WorkersFinish.FinishFixedBalanced | lib/workers.js:210-217 | Corrected, a balanced pool stays balanced through the job settling and the `next` after it. |
| WorkersFinish.FinishFixedValid | lib/workers.js:210-217 | The corrected step keeps the pool valid. |

## Left out

- Promises and other async plumbing are not modelled: `withLock` (lib/arch.js:73-80), `start` and `getDefer` (lib/workers.js:64-84), and `work` with its context object (lib/workers.js:269-286). A node's action is the abstract transition `Workers.Finish`.
- The process exit hook and its console output (lib/workers.js:32-55) are I/O and are not modelled.
- Events are not modelled. The `allDone` and `allFail` emission of a plan (lib/plan.js:593-612) is reduced to the plan's `failed` flag and `Plan.AllDone`. The arch's listener is `Arch.OnPlanAllDone`, and settling the plan's promise in `terminatePlan` is not modelled.
- `toString`, `toGraphviz`, `nodeToString`, `nodeToGraphviz`, `toJson` and `extend` produce output only and are not modelled.
- `getNodeId` and `idTypeIsOk` are not modelled: ids are non-empty strings, and a node object is never passed in place of its id.
- `getId`, `getTargets`, `_getIDs`, `isJobAlreadyDone` and `isActiveJob` of the plan are field reads and list membership. The model reads the fields directly.
- Four helpers are called but defined nowhere in the repository: `planNodesLinkedToRoot` (lib/plan.js:329), `idTypeIsString` (lib/plan.js:342-343, 395-396, 434, 448, 461, 486 and 519: `injectSubArch`, `unlink`, `hasParents`, `hasChildren`, `removeNode`, `removeTree` and `addJob`), `notActiveJob` (lib/plan.js:350) and `plan.isStuck` (lib/workers.js:149). As written, calling them would throw a TypeError. The model treats the three checks as passing, and `nextOperablePlan` has no stuck-plan detection.
- JavaScript object key order is not modelled. `arrayToObject` is a key list in insertion order, and `findRoots` returns a set. The `for … in` over the listeners of a job runs over plan ids in ascending order, which is JavaScript's order for integer-like keys.
- Arch.RemoveSubLive, Arch.RemoveEachLive, PlanEdit.RemoveSubLive, Plan.GatherIDs and Plan.InjectSubArch: the source has no recursion guard. The model bounds the depth by a fuel of one more than the number of arch nodes, and with no fuel left a call does nothing. A cyclic arch, on which the source recurses until the stack overflows, is therefore not modelled.
- Workers.TerminatePlan: the model removes the plan by its numeric id, the corrected form. As written, `onJobFinished` passes the string key of its `for … in`, and `removePlan` then drops the last entry of the run order instead (see Findings). `Workers.TerminateByKey` models that path, and `WorkersFinish.TerminateByKeyAgrees` says when the two agree.
- Workers.Report: terminates through the corrected `TerminatePlan`, so its promise about the run order does not hold as written when the plan is not last in the order.
- Workers.FinishOne: built on `Report`, so it keeps the run order listing each plan once only with the corrected termination.
- Workers.FinishEachKeeps: the plans it keeps "as they were, in their run order" rely on the corrected termination; as written the last plan in the order can lose its place instead.
- Workers.OnJobFinished: the terminated plans leave the run order only with the corrected termination; as written another plan's entry goes instead.
- WorkersFinish.OnJobFinishedKeeps: the pool stays valid only with the corrected termination; as written a plan that is not last in the order leaves the order out of step with the pool.
- Workers.Finish: both paths run `onJobFinished` with the corrected termination; as written, once a terminated plan was not last in the order, the `next` on the success path can read a plan id that is no longer registered and throw.
- WorkersFinish.FinishValid: validity is promised only with the corrected termination, for the same reason as `OnJobFinishedKeeps`.
- PlanEdit.RemoveSubLive: a node with no children table entry, a TypeError in the source, is an `Err` result, as in `Arch.RemoveSubLive`.
- Plan ids are positive. In the source they come from one counter shared by every plan of the process (`planIDSequence`, lib/plan.js:6, 22) and start at 1; the model keeps the counter per arch (`Arch.State.planSeq`, starting at 1), so two arches of one process would share no ids in the source but may in the model. The source's truthiness test on a plan id (lib/workers.js:143, 188), which would treat id 0 as missing, is not modelled.
- Shared plan objects are not modelled. In the source the plan that `createPlan` returns is one object, registered in the arch (lib/arch.js:415) and handed to the pool (lib/workers.js:96), so a later `link`, `unlink` or `removeNode` of the arch (lib/arch.js:331-334, 354-357, 194-197) also changes the plan the pool dispatches from. The model has no aliasing: `Arch.State.plans` and `Workers.State.plans` are separate values, and since `Workers.AddPlan` leaves an already registered id alone, an arch edit after the plan joined the pool never reaches the pool's copy.
- Where a thrown error is an `Err` result, the result discards the partial mutation made before the throw. The model does not say what the source leaves behind.
- Plan.InjectSubArch: an id that is not an arch node counts as having no arch children. In the source, `getChildren` (lib/arch.js:246-250) throws through `hasId` for such an id. The arch passes only its own nodes here, because `createPlan` and `link` check their ids with `hasIds` (lib/arch.js:299-300, 408), so this throw is not modelled.
- Plan.Visit: an id that is not an arch node counts as having no arch children, where `getChildren` throws in `_collectLeaves` (lib/plan.js:265). This is not modelled, for the same reason as for `injectSubArch`.
- Plan.CollectLeaves: starts `Visit`, so a start id that is not an arch node is returned as a leaf instead of throwing.
- Plan.Link: links through `injectSubArch`, so a child that is not an arch node is linked without arch children instead of throwing.
- Plan.New: builds through `link` and `injectSubArch`, so a target that is not an arch node becomes a queued child of the root instead of throwing. `Arch.CreatePlan` rejects such targets before the constructor runs.
- Arch.UnlinkInPlan: when the plan's own `unlink` fails, the plan is kept unchanged, whereas the source throws out of `unlink` of the arch (lib/arch.js:354-357). That failure needs a plan node without a children entry, which a valid plan rules out (`ArchProps.UnlinkInPlanValid`).
- Arch.Unlink: a missing table entry for a node, a TypeError in the source, is an `Err` result. On a valid arch it cannot happen.
- Arch.FindRoots: its own contract states only that roots come from the parents table; ArchProps.FindRootsExact states the full characterisation on a valid arch.
- Plan.CollectLeaves: its own contract states only distinctness and that leaves are childless and not done; PlanLeaves.CollectLeavesExact states the full characterisation.
- Util.RemoveNode: its own contract speaks of the keys only; Util.RemoveNodeConsistent states the list contents on consistent tables.
- The superseded prototypes under `lib/parts/`, `lib/pool.js`, `lib/runner.js`, the CLI (`lib/coa.js`, `lib/cli.js`) and the wrapper `lib/apw.js` are not part of this model.

## Findings

| source | as written | input that shows it | evidently intended | confidence | as-written member | corrected member |
|---|---|---|---|---|---|---|
| lib/arch.js:371-396 | `removeTree` runs `forEach` over the live children list, which each `removeNode` shortens. | A node `x` whose children are `[b, c]`, two leaves that have `x` as their only parent. After `b` is removed, position 1 is past the end of `[c]`, so `c` stays in the arch with no parent. | Every child of the removed node is handed to `_removeTree` (the rhombus test expects all nodes removed). | not executed | ArchRemove.RemoveTreeLeavesSibling | ArchRemove.RemoveTreeFixedTwoLeaves |
| lib/plan.js:485-510 | The plan's `removeTree` has the same loop over the live children list. | The same shape inside a plan: node `a` with leaf children `[b, c]`, each with `a` as its only parent; `c` is left in the plan. | Every child is handed to `_removeTree`. | not executed | PlanRemove.RemoveTreeLeavesSibling | PlanRemove.RemoveTreeFixedTwoLeaves |
| lib/workers.js:241-255 | `onJobFinished` passes the `for … in` key, a string, to `terminatePlan`. In `removePlan` (lib/workers.js:110-113) `indexOf` of that string in the numeric run order is -1, and `splice(-1, 1)` drops the last entry. | Plans 1 and 2 in the order `[1, 2]`; plan 1 terminates. The order becomes `[1]` over the pool `{2}`, so the next `next` reads `plans[1]`, which is undefined, and throws a TypeError (lib/workers.js:141-147). | The terminated plan's own id leaves the order. | not executed | WorkersFinish.TerminateByKeyTwoPlans | Workers.TerminatePlan |
| lib/workers.js:215-217 | On failure, `onError` calls `onJobFinished` without decrementing `activeWorkers`. | A pool with cap 1 and one job in flight, which fails. The worker stays counted as busy, and `next` dispatches nothing from then on. | The worker is released on both paths, as `onDone` does. | not executed | WorkersFinish.FinishFailStalls | WorkersFinish.FinishFixedBalanced |

=== FILE: arch.dfy ===
/**
 * The arch of lib/arch.js: the nodes of a build graph, their parent and
 * child lists, and the plans created from it. Every operation returns the
 * new arch; one that throws in the source returns `Err` instead, and then
 * the arch it was given is the arch that remains.
 */
module Arch {
  import opened Util
  import opened Asserts
  import Plan
  import PlanEdit
  import PlanLinks
  import PlanBuild

  /** What running a node does; a default node has no rule and its run is rejected. */
  datatype Rule = Action(tag: nat) | NoRule

  /** A node of the arch, identified by `id`. */
  datatype Node = Node(id: Id, rule: Rule)

  /**
   * The arch: its nodes by id, the parent and child lists of each node, the
   * plans registered with it, the lock depth, and the next plan id (the
   * module-level counter of lib/plan.js, which every plan takes its id from).
   */
  datatype State = State(
    nodes: map<Id, Node>,
    parents: Links,
    children: Links,
    plans: map<Plan.PlanId, Plan.State>,
    locked: nat,
    planSeq: Plan.PlanId)

  /** The id of the root every plan of an arch is built under. */
  const PlanRoot: Id := "__plan_root__"

  /**
   * The arch invariant: the two tables mirror each other, every node has an
   * entry in both and nothing else has, each node is stored under its own
   * id, and every plan is registered under its id, below the next one,
   * with `PlanRoot` as its root.
   */
  predicate Valid(a: State)
  {
    TablesOk(a.nodes, a.parents, a.children) && Registered(a.plans, a.planSeq)
  }

  /** The node and link part of `Valid`. */
  predicate TablesOk(nodes: map<Id, Node>, parents: Links, children: Links)
  {
    && Consistent(parents, children)
    && nodes.Keys == parents.Keys
    && (forall k :: k in nodes ==> nodes[k].id == k)
  }

  /** The plan part of `Valid`. */
  predicate Registered(plans: map<Plan.PlanId, Plan.State>, planSeq: Plan.PlanId)
  {
    forall k :: k in plans ==> plans[k].id == k && k < planSeq && plans[k].root == PlanRoot
  }

  /** Every plan of the arch satisfies the plan invariant. */
  predicate PlansValid(a: State)
  {
    forall k :: k in a.plans ==> Plan.Valid(a.plans[k])
  }

  /** The bound handed to the recursions the source leaves unbounded: one more than the number of nodes. */
  function Fuel(a: State): (r: nat)
    ensures r > 0
  {
    |a.nodes| + 1
  }

  /** The constructor: no nodes, no plans, unlocked, and the first plan id is 1. */
  function Empty(): (r: State)
    ensures Valid(r) && PlansValid(r)
    ensures r.nodes == map[] && r.plans == map[] && r.locked == 0
  {
    State(map[], map[], map[], map[], 0, 1)
  }

  // ---------------------------------------------------------------------------
  // Locking

  /** `lock`: one level deeper, for the arch and for each of its plans. */
  function Lock(a: State): (r: State)
    ensures r == a.(locked := r.locked, plans := r.plans)
    ensures r.locked == a.locked + 1
    ensures r.plans.Keys == a.plans.Keys
    ensures forall k :: k in r.plans ==> r.plans[k] == a.plans[k].(locked := a.plans[k].locked + 1)
  {
    a.(locked := a.locked + 1, plans := map k | k in a.plans :: Plan.Lock(a.plans[k]))
  }

  /** `unlock`: one level less for the arch, never below zero, and `unlock` on each plan. */
  function Unlock(a: State): (r: State)
    ensures r == a.(locked := r.locked, plans := r.plans)
    ensures a.locked > 0 ==> r.locked + 1 == a.locked
    ensures a.locked == 0 ==> r.locked == 0
    ensures r.plans.Keys == a.plans.Keys
    ensures forall k :: k in r.plans ==> r.plans[k] == a.plans[k].(locked := r.plans[k].locked)
    ensures forall k :: k in r.plans && a.plans[k].locked > 0 ==> r.plans[k].locked + 1 == a.plans[k].locked
    ensures forall k :: k in r.plans && a.plans[k].locked == 0 ==> r.plans[k] == a.plans[k]
  {
    a.(locked := if a.locked > 0 then a.locked - 1 else 0,
       plans := map k | k in a.plans :: Plan.Unlock(a.plans[k]))
  }

  // ---------------------------------------------------------------------------
  // Queries

  /** `hasNode`: whether a node is stored under `id`. */
  predicate HasNode(a: State, id: Id)
  {
    id in a.nodes
  }

  /** `getNode`: the node stored under `id`, or a default node with that id and no rule. */
  function GetNode(a: State, id: Id): (r: Node)
    ensures id in a.nodes ==> r == a.nodes[id]
    ensures id !in a.nodes ==> r.rule == NoRule
    ensures Valid(a) ==> r.id == id
  {
    if HasNode(a, id) then a.nodes[id] else Node(id, NoRule)
  }

  /**
   * `hasParents`: `id` must be a node; then whether the given ids are all
   * its parents. A missing argument is wrapped as `[undefined]`, which no
   * list holds, and an empty array is answered false.
   */
  function HasParents(a: State, id: Id, parents: IdArg): (r: Result<bool>)
    ensures r.Err? <==> id !in a.nodes
    ensures r.Err? ==> r.error == UnknownId(id)
    ensures r.Ok? ==> (r.value <==> Given(parents) && |ToArray(parents)| > 0 &&
                                     forall y :: y in ToArray(parents) ==> y in Get(a.parents, id))
  {
    var c := HasId(id, a.nodes.Keys);
    if c.Fail? then Err(c.error)
    else Ok(Given(parents) && HasLink(HasNode(a, id), Get(a.parents, id), ToArray(parents)))
  }

  /** `hasChildren`: as `hasParents`, against the children list of `id`. */
  function HasChildren(a: State, id: Id, children: IdArg): (r: Result<bool>)
    ensures r.Err? <==> id !in a.nodes
    ensures r.Err? ==> r.error == UnknownId(id)
    ensures r.Ok? ==> (r.value <==> Given(children) && |ToArray(children)| > 0 &&
                                     forall y :: y in ToArray(children) ==> y in Get(a.children, id))
  {
    var c := HasId(id, a.nodes.Keys);
    if c.Fail? then Err(c.error)
    else Ok(Given(children) && HasLink(HasNode(a, id), Get(a.children, id), ToArray(children)))
  }

  /** `getParents`: `id` must be a node; a copy of its parents list, empty when it has no entry. */
  function GetParents(a: State, id: Id): (r: Result<seq<Id>>)
    ensures r.Err? <==> id !in a.nodes
    ensures r.Ok? ==> forall y :: y in r.value <==> y in Get(a.parents, id)
  {
    var c := HasId(id, a.nodes.Keys);
    if c.Fail? then Err(c.error) else Ok(Get(a.parents, id))
  }

  /** `getChildren`: `id` must be a node; a copy of its children list, empty when it has no entry. */
  function GetChildren(a: State, id: Id): (r: Result<seq<Id>>)
    ensures r.Err? <==> id !in a.nodes
    ensures r.Ok? ==> forall y :: y in r.value <==> y in Get(a.children, id)
  {
    var c := HasId(id, a.nodes.Keys);
    if c.Fail? then Err(c.error) else Ok(Get(a.children, id))
  }

  /** `findRoots`: the ids with a parents entry and no parent, as a set (the source's key order is not modelled). */
  function FindRoots(a: State): (r: set<Id>)
    ensures r <= a.parents.Keys
  {
    set id | id in a.parents && |a.parents[id]| == 0
  }

  // ---------------------------------------------------------------------------
  // link

  /**
   * One turn of `_link`: nothing happens when `parent` is already listed as
   * a parent of `child`. Otherwise each id joins the other's list unless it
   * is there already, and every plan holding either id links the pair, with
   * the updated arch as the source of the sub-tree it injects.
   */
  function LinkEdge(a: State, child: Id, parent: Id): (r: State)
    ensures r == a.(parents := r.parents, children := r.children, plans := r.plans)
    ensures r.plans.Keys == a.plans.Keys
    ensures parent in Get(r.parents, child)
    ensures forall k, y :: y in Get(r.parents, k) <==> y in Get(a.parents, k) || (k == child && y == parent)
    ensures parent !in Get(a.parents, child) ==>
              forall k, y :: y in Get(r.children, k) <==> y in Get(a.children, k) || (k == parent && y == child)
  {
    if parent in Get(a.parents, child) then a
    else
      var a1 := a.(parents := Plan.Listed(a.parents, child, parent),
                   children := Plan.Listed(a.children, parent, child));
      a1.(plans := LinkPlans(a1.plans, a1.children, child, parent, Fuel(a1)))
  }

  /** The loop over the plans in one turn of `_link`. */
  function LinkPlans(plans: map<Plan.PlanId, Plan.State>, ac: Links, child: Id, parent: Id, fuel: nat)
    : (r: map<Plan.PlanId, Plan.State>)
    ensures r.Keys == plans.Keys
    ensures forall k :: k in r ==> r[k] == LinkInPlan(plans[k], ac, child, parent, fuel)
  {
    map k | k in plans :: LinkInPlan(plans[k], ac, child, parent, fuel)
  }

  /** The plan side of one turn of `_link`: a plan holding either id links them, any other plan is left alone. */
  function LinkInPlan(p: Plan.State, ac: Links, child: Id, parent: Id, fuel: nat): (r: Plan.State)
    ensures !p.HasNode(child) && !p.HasNode(parent) ==> r == p
    ensures Plan.Extends(p, r) && Plan.SameJobState(p, r)
  {
    LinkProps(p, ac, child, parent, fuel);
    if p.HasNode(child) || p.HasNode(parent) then Plan.Link(p, ac, [child], One(parent), fuel) else p
  }

  /** Plan-side linking only adds links; stated here so that `LinkInPlan` can rely on it. */
  lemma LinkProps(p: Plan.State, ac: Links, child: Id, parent: Id, fuel: nat)
    ensures Plan.Extends(p, Plan.Link(p, ac, [child], One(parent), fuel))
    ensures Plan.Extends(p, p)
  {
    PlanBuild.LinkProperties(p, ac, [child], One(parent), fuel);
    PlanLinks.ExtendsRefl(p);
  }

  /** The `parents.forEach` of `_link`: `child` is linked under each of `ps[j..]` in turn. */
  function LinkUnder(a: State, child: Id, ps: seq<Id>, j: nat): (r: State)
    requires j <= |ps|
    ensures r == a.(parents := r.parents, children := r.children, plans := r.plans)
    ensures r.plans.Keys == a.plans.Keys
    decreases |ps| - j
  {
    if j == |ps| then a else LinkUnder(LinkEdge(a, child, ps[j]), child, ps, j + 1)
  }

  /** The `children.forEach` of `link`: each of `cs[i..]` is linked under all of `ps`. */
  function LinkAll(a: State, cs: seq<Id>, ps: seq<Id>, i: nat): (r: State)
    requires i <= |cs|
    ensures r == a.(parents := r.parents, children := r.children, plans := r.plans)
    ensures r.plans.Keys == a.plans.Keys
    decreases |cs| - i
  {
    if i == |cs| then a else LinkAll(LinkUnder(a, cs[i], ps, 0), cs, ps, i + 1)
  }

  /**
   * `link`: both arguments are wrapped as arrays and every id in them must
   * be a node, the children checked first; a missing argument is wrapped as
   * `[undefined]`, which fails the check. Then every child is linked under
   * every parent.
   */
  function Link(a: State, children: IdArg, parents: IdArg): (r: Result<State>)
    ensures r.Ok? <==> (&& Given(children) && Given(parents)
                        && (forall c :: c in ToArray(children) ==> c in a.nodes)
                        && (forall q :: q in ToArray(parents) ==> q in a.nodes))
    ensures children.Absent? ==> r == Err(NoIdGiven)
    ensures r.Ok? ==> r.value == a.(parents := r.value.parents, children := r.value.children, plans := r.value.plans)
    ensures r.Ok? ==> r.value.plans.Keys == a.plans.Keys
  {
    if children.Absent? then Err(NoIdGiven)
    else
      var c1 := HasIds(ToArray(children), Some(a.nodes.Keys));
      if c1.Fail? then Err(c1.error)
      else if parents.Absent? then Err(NoIdGiven)
      else
        var c2 := HasIds(ToArray(parents), Some(a.nodes.Keys));
        if c2.Fail? then Err(c2.error)
        else Ok(LinkAll(a, ToArray(children), ToArray(parents), 0))
  }

  /** `addChildren`: `link` with `id` as the one parent. */
  function AddChildren(a: State, id: Id, children: IdArg): (r: Result<State>)
    ensures r.Ok? <==> Given(children) && id in a.nodes && forall c :: c in ToArray(children) ==> c in a.nodes
  {
    Link(a, children, One(id))
  }

  /** `addParents`: `link` with `id` as the one child. */
  function AddParents(a: State, id: Id, parents: IdArg): (r: Result<State>)
    ensures r.Ok? <==> Given(parents) && id in a.nodes && forall q :: q in ToArray(parents) ==> q in a.nodes
  {
    Link(a, One(id), parents)
  }

  // ---------------------------------------------------------------------------
  // Adding and replacing nodes

  /**
   * `addNode`: the id must be new. The node is stored, an empty entry is
   * made in each table unless one is there, then the node is linked under
   * the given parents and over the given children.
   */
  function AddNode(a: State, node: Node, parents: IdArg, children: IdArg): (r: Result<State>)
    ensures node.id in a.nodes ==> r == Err(DuplicateId(node.id))
    ensures r.Ok? <==> (&& node.id !in a.nodes
                        && (Given(parents) ==> forall q :: q in ToArray(parents) ==> q in a.nodes || q == node.id)
                        && (Given(children) ==> forall c :: c in ToArray(children) ==> c in a.nodes || c == node.id))
    ensures r.Ok? ==> r.value.nodes == a.nodes[node.id := node]
    ensures r.Ok? ==> r.value.plans.Keys == a.plans.Keys && r.value.planSeq == a.planSeq && r.value.locked == a.locked
  {
    var c := AbsentId(node.id, a.nodes.Keys);
    if c.Fail? then Err(c.error)
    else
      var id := node.id;
      var a1 := a.(nodes := a.nodes[id := node],
                   parents := a.parents[id := Get(a.parents, id)],
                   children := a.children[id := Get(a.children, id)]);
      var a2 := if Given(parents) then Link(a1, One(id), parents) else Ok(a1);
      if a2.Err? || !Given(children) then a2 else Link(a2.value, children, One(id))
  }

  /**
   * `removeNode`: total. The id leaves both tables and its neighbours'
   * lists, its node is deleted, and every plan holding it removes it too.
   */
  function RemoveNode(a: State, id: Id): (r: State)
    ensures r == a.(nodes := r.nodes, parents := r.parents, children := r.children, plans := r.plans)
    ensures r.nodes == a.nodes - {id}
    ensures r.parents.Keys == a.parents.Keys - {id} && r.children.Keys == a.children.Keys - {id}
    ensures r.plans.Keys == a.plans.Keys
    ensures forall k :: k in r.plans ==> !r.plans[k].HasNode(id)
  {
    var t := Util.RemoveNode(a.children, a.parents, id);
    a.(children := t.0, parents := t.1, nodes := a.nodes - {id},
       plans := map k | k in a.plans :: RemoveInPlan(a.plans[k], id))
  }

  /** The plan side of `removeNode`: a plan holding `id` removes it, any other plan is left alone. */
  function RemoveInPlan(p: Plan.State, id: Id): (r: Plan.State)
    ensures !r.HasNode(id)
    ensures !p.HasNode(id) ==> r == p
    ensures Plan.SameJobState(p, r)
  {
    if p.HasNode(id) then PlanEdit.RemoveNode(p, id).value else p
  }

  /**
   * `replaceNode`: the id must be a node. When parents or children are
   * given, the node is removed and added again with just those links;
   * otherwise only the stored node changes.
   */
  function ReplaceNode(a: State, node: Node, parents: IdArg, children: IdArg): (r: Result<State>)
    ensures node.id !in a.nodes ==> r == Err(UnknownId(node.id))
    ensures !Given(parents) && !Given(children) && node.id in a.nodes ==> r == Ok(a.(nodes := a.nodes[node.id := node]))
    ensures r.Ok? ==> r.value.nodes == a.nodes[node.id := node]
  {
    var c := HasId(node.id, a.nodes.Keys);
    if c.Fail? then Err(c.error)
    else if Given(parents) || Given(children) then AddNode(RemoveNode(a, node.id), node, parents, children)
    else Ok(a.(nodes := a.nodes[node.id := node]))
  }

  /** `setNode`: `replaceNode` for an id that is a node, `addNode` otherwise. */
  function SetNode(a: State, node: Node, parents: IdArg, children: IdArg): (r: Result<State>)
    ensures r.Ok? ==> r.value.nodes == a.nodes[node.id := node]
    ensures node.id in a.nodes && !Given(parents) && !Given(children) ==> r == Ok(a.(nodes := a.nodes[node.id := node]))
  {
    if HasNode(a, node.id) then ReplaceNode(a, node, parents, children) else AddNode(a, node, parents, children)
  }

  // ---------------------------------------------------------------------------
  // unlink

  /**
   * `unlink`: both ids must be nodes, and both need an entry in both tables
   * (a missing one is a TypeError in the source). `id2` leaves the lists of
   * `id1`, then `id1` those of `id2`, and every plan holding both ids
   * unlinks them too.
   */
  function Unlink(a: State, id1: Id, id2: Id): (r: Result<State>)
    ensures r.Ok? <==> (&& id1 in a.nodes && id2 in a.nodes
                        && id1 in a.parents && id2 in a.parents && id1 in a.children && id2 in a.children)
    ensures id1 !in a.nodes ==> r == Err(UnknownId(id1))
    ensures r.Ok? ==> r.value == a.(parents := r.value.parents, children := r.value.children, plans := r.value.plans)
    ensures r.Ok? ==> r.value.parents.Keys == a.parents.Keys && r.value.children.Keys == a.children.Keys
    ensures r.Ok? ==> r.value.plans.Keys == a.plans.Keys
  {
    var c1 := HasId(id1, a.nodes.Keys);
    var c2 := HasId(id2, a.nodes.Keys);
    if c1.Fail? then Err(c1.error)
    else if c2.Fail? then Err(c2.error)
    else if id1 !in a.parents || id1 !in a.children then Err(NoEntry(id1))
    else if id2 !in a.parents || id2 !in a.children then Err(NoEntry(id2))
    else
      var a1 := a.(parents := UnlinkIn(a.parents, id1, id2), children := UnlinkIn(a.children, id1, id2));
      Ok(a1.(plans := map k | k in a1.plans :: UnlinkInPlan(a1.plans[k], a1.children, id1, id2, Fuel(a1))))
  }

  /**
   * One table's side of the two `util.unlink` calls of `unlink`: `id2`
   * leaves the list of `id1`, then `id1` leaves the list of `id2`.
   */
  function UnlinkIn(m: Links, id1: Id, id2: Id): (r: Links)
    requires id1 in m && id2 in m
    ensures r.Keys == m.Keys
  {
    var m1 := m[id1 := RemoveFirst(m[id1], id2)];
    assert m1.Keys == m.Keys;
    m1[id2 := RemoveFirst(m1[id2], id1)]
  }

  /**
   * The plan side of `unlink`: a plan holding both ids unlinks them. The
   * plan's own `unlink` fails only when one of the ids lacks a children
   * entry in it, which a valid plan rules out; the plan is then kept.
   */
  function UnlinkInPlan(p: Plan.State, ac: Links, id1: Id, id2: Id, fuel: nat): (r: Plan.State)
    ensures !(p.HasNode(id1) && p.HasNode(id2)) ==> r == p
    ensures Plan.SameJobState(p, r)
  {
    if p.HasNode(id1) && p.HasNode(id2) then
      match PlanEdit.Unlink(p, ac, id1, id2, fuel)
      case Ok(q) => q
      case Err(_) => p
    else p
  }

  // ---------------------------------------------------------------------------
  // removeTree, as written

  /**
   * `removeTree`: `id` must be a node. Each of its children is handed to
   * `_removeTree`, then `id` itself is removed. The loop runs over the live
   * children list of `id`, which the removals shorten as it goes.
   */
  function RemoveTree(a: State, id: Id, forced: bool): (r: Result<State>)
    ensures id !in a.nodes ==> r == Err(UnknownId(id))
    ensures r.Ok? ==> id !in r.value.nodes && r.value.nodes.Keys <= a.nodes.Keys
    ensures r.Ok? ==> r.value.parents.Keys <= a.parents.Keys - {id}
  {
    var c := HasId(id, a.nodes.Keys);
    if c.Fail? then Err(c.error)
    else if id !in a.children then Err(NoEntry(id))
    else
      var q := RemoveEachLive(a, id, |a.children[id]|, 0, forced, Fuel(a));
      if q.Err? then q else Ok(RemoveNode(q.value, id))
  }

  /**
   * `_removeTree`: a node with exactly one parent, or any node when
   * `forced`, has its children handed down the same way and is then
   * removed. An id with no entry in a table is a TypeError in the source.
   * The source has no loop guard; `fuel` bounds the depth.
   */
  function RemoveSubLive(a: State, id: Id, forced: bool, fuel: nat): (r: Result<State>)
    ensures r.Ok? ==> r.value.nodes.Keys <= a.nodes.Keys && r.value.parents.Keys <= a.parents.Keys
    decreases fuel, 0, 0
  {
    if fuel == 0 then Ok(a)
    else if id !in a.parents then Err(NoEntry(id))
    else if |a.parents[id]| == 1 || forced then
      if id !in a.children then Err(NoEntry(id))
      else
        var q := RemoveEachLive(a, id, |a.children[id]|, 0, forced, Spend(fuel));
        if q.Err? then q else Ok(RemoveNode(q.value, id))
    else Ok(a)
  }

  /**
   * The `forEach` over the children of `parent`: its length `len` is fixed
   * when the loop starts, and position `i` is read from the list as it is
   * now; a position past the current end is skipped.
   */
  function RemoveEachLive(a: State, parent: Id, len: nat, i: nat, forced: bool, fuel: nat): (r: Result<State>)
    ensures r.Ok? ==> r.value.nodes.Keys <= a.nodes.Keys && r.value.parents.Keys <= a.parents.Keys
    decreases fuel, 1, len - i
  {
    if i >= len then Ok(a)
    else if i >= |Get(a.children, parent)| then RemoveEachLive(a, parent, len, i + 1, forced, fuel)
    else
      var q := RemoveSubLive(a, Get(a.children, parent)[i], forced, fuel);
      if q.Err? then q else RemoveEachLive(q.value, parent, len, i + 1, forced, fuel)
  }

  // ---------------------------------------------------------------------------
  // removeTree, corrected

  /**
   * `removeTree` as its documentation describes it: the loop runs over the
   * children list as it was when the loop started, and a child that an
   * earlier turn already removed is skipped.
   */
  function RemoveTreeFixed(a: State, id: Id, forced: bool): (r: Result<State>)
    ensures id !in a.nodes ==> r == Err(UnknownId(id))
    ensures r.Ok? ==> id !in r.value.nodes && r.value.nodes.Keys <= a.nodes.Keys
    ensures r.Ok? ==> r.value.parents.Keys <= a.parents.Keys - {id}
    ensures r.Ok? <==> id in a.nodes && id in a.children
  {
    var c := HasId(id, a.nodes.Keys);
    if c.Fail? then Err(c.error)
    else if id !in a.children then Err(NoEntry(id))
    else
      Ok(RemoveNode(RemoveEachFixed(a, a.children[id], 0, forced, Fuel(a)).value, id))
  }

  /** The corrected `_removeTree`: an id already removed is skipped, a missing children entry reads as empty. */
  function RemoveSubFixed(a: State, id: Id, forced: bool, fuel: nat): (r: Result<State>)
    ensures r.Ok? && r.value.nodes.Keys <= a.nodes.Keys && r.value.parents.Keys <= a.parents.Keys
    ensures a.nodes.Keys == a.parents.Keys ==> r.value.nodes.Keys == r.value.parents.Keys
    decreases fuel, 0, 0
  {
    if fuel == 0 || id !in a.parents then Ok(a)
    else if |a.parents[id]| == 1 || forced then
      Ok(RemoveNode(RemoveEachFixed(a, Get(a.children, id), 0, forced, Spend(fuel)).value, id))
    else Ok(a)
  }

  /** The corrected loop, over the snapshot `ids[i..]`. */
  function RemoveEachFixed(a: State, ids: seq<Id>, i: nat, forced: bool, fuel: nat): (r: Result<State>)
    requires i <= |ids|
    ensures r.Ok? && r.value.nodes.Keys <= a.nodes.Keys && r.value.parents.Keys <= a.parents.Keys
    ensures a.nodes.Keys == a.parents.Keys ==> r.value.nodes.Keys == r.value.parents.Keys
    decreases fuel, 1, |ids| - i
  {
    if i == |ids| then Ok(a)
    else
      RemoveEachFixed(RemoveSubFixed(a, ids[i], forced, fuel).value, ids, i + 1, forced, fuel)
  }

  // ---------------------------------------------------------------------------
  // Plans

  /**
   * `createPlan`: the targets are wrapped as an array and must all be
   * nodes. A plan under `PlanRoot` is built from the arch's children table,
   * registered under the next plan id, and the counter moves on.
   */
  function CreatePlan(a: State, targets: IdArg): (r: Result<State>)
    ensures r.Ok? <==> Given(targets) && forall t :: t in ToArray(targets) ==> t in a.nodes
    ensures r.Ok? ==> r.value == a.(plans := r.value.plans, planSeq := r.value.planSeq)
    ensures r.Ok? ==> r.value.planSeq == a.planSeq + 1 && r.value.plans.Keys == a.plans.Keys + {a.planSeq}
    ensures r.Ok? ==> forall k :: k in a.plans && k != a.planSeq ==> r.value.plans[k] == a.plans[k]
  {
    if targets.Absent? then Err(NoIdGiven)
    else
      var c := HasIds(ToArray(targets), Some(a.nodes.Keys));
      if c.Fail? then Err(c.error)
      else
        var plan := Plan.New(a.planSeq, PlanRoot, a.children, ToArray(targets), Fuel(a));
        Ok(a.(plans := a.plans[a.planSeq := plan], planSeq := a.planSeq + 1))
  }

  /** The `allDone` listener `createPlan` installs: the plan is unregistered. */
  function OnPlanAllDone(a: State, id: Plan.PlanId): (r: State)
    ensures r == a.(plans := r.plans)
    ensures r.plans.Keys == a.plans.Keys - {id}
    ensures forall k :: k in r.plans ==> r.plans[k] == a.plans[k]
  {
    a.(plans := a.plans - {id})
  }
}

=== FILE: arch_props.dfy ===
/**
 * Properties of the arch of lib/arch.js: locking round-trips, `link` adds
 * exactly the edges it names and is idempotent, `unlink` and `removeNode`
 * remove exactly what they name, the arch invariant is kept throughout,
 * and the plans registered with the arch follow its changes.
 */
module ArchProps {
  import opened Util
  import opened Asserts
  import Plan
  import PlanEdit
  import PlanLinks
  import PlanBuild
  import PlanEditProps
  import PlanRemove
  import PlanLeaves
  import PlanNew
  import PlanQueue
  import Arch

  // ---------------------------------------------------------------------------
  // Locking and queries

  /** `unlock` undoes `lock`, on the arch and on every plan. */
  lemma LockUnlock(a: Arch.State)
    ensures Arch.Unlock(Arch.Lock(a)) == a
  {
    var r := Arch.Unlock(Arch.Lock(a));
    forall k | k in a.plans
      ensures r.plans[k] == a.plans[k]
    {
      assert Plan.Unlock(Plan.Lock(a.plans[k])) == a.plans[k];
    }
    assert r.plans == a.plans;
  }

  /** On a valid arch, the roots are exactly the nodes that no node lists as a child. */
  lemma FindRootsExact(a: Arch.State)
    requires Arch.Valid(a)
    ensures forall x :: x in Arch.FindRoots(a) <==> x in a.nodes && forall k :: k in a.children ==> x !in a.children[k]
  {
    forall x | x in a.nodes && x !in Arch.FindRoots(a)
      ensures exists k :: k in a.children && x in a.children[k]
    {
      assert x in a.parents && |a.parents[x]| > 0;
      var k := a.parents[x][0];
      assert k in a.parents[x];
      assert Mirrored(a.parents, a.children);
      assert k in a.children && x in a.children[k];
    }
  }

  /** On a valid arch, `q` is a parent of `c` exactly when `c` is a child of `q`. */
  lemma HasLinkMirror(a: Arch.State, c: Id, q: Id)
    requires Arch.Valid(a) && c in a.nodes && q in a.nodes
    ensures Arch.HasParents(a, c, One(q)) == Arch.HasChildren(a, q, One(c))
  {
    assert ToArray(One(q)) == [q] && ToArray(One(c)) == [c];
    if q in a.parents[c] {
      assert c in a.children[q];
    }
    if c in a.children[q] {
      assert q in a.parents[c];
    }
  }

  // ---------------------------------------------------------------------------
  // removeNode

  /**
   * On a valid arch, `removeNode` takes `id` out of every remaining list and
   * changes nothing else in them, and the arch stays valid.
   */
  lemma RemoveNodeExact(a: Arch.State, id: Id)
    requires Arch.Valid(a)
    ensures var r := Arch.RemoveNode(a, id);
      && Arch.Valid(r)
      && (forall k :: k in r.parents ==> r.parents[k] == RemoveFirst(a.parents[k], id))
      && (forall k :: k in r.children ==> r.children[k] == RemoveFirst(a.children[k], id))
      && (forall k :: k in r.children ==> id !in r.children[k] && id !in r.parents[k])
  {
    Util.RemoveNodeConsistent(a.children, a.parents, id);
  }

  /** `removeNode` of an id other than the plan root keeps every plan valid. */
  lemma RemoveNodePlans(a: Arch.State, id: Id)
    requires Arch.Valid(a) && Arch.PlansValid(a) && id != Arch.PlanRoot
    ensures Arch.PlansValid(Arch.RemoveNode(a, id))
  {
    forall k | k in a.plans && a.plans[k].HasNode(id)
      ensures Plan.Valid(PlanEdit.RemoveNode(a.plans[k], id).value)
    {
      PlanRemove.RemoveNodeValid(a.plans[k], id);
    }
  }

  // ---------------------------------------------------------------------------
  // unlink

  /**
   * On a valid arch, `unlink` of two nodes succeeds, removes exactly the
   * list entries between them in both tables, and keeps the arch valid.
   */
  lemma UnlinkExact(a: Arch.State, id1: Id, id2: Id)
    requires Arch.Valid(a) && id1 in a.nodes && id2 in a.nodes
    ensures var r := Arch.Unlink(a, id1, id2);
      && r.Ok? && Arch.Valid(r.value)
      && (forall k, y :: y in Get(r.value.parents, k) <==> y in Get(a.parents, k) && !PlanEditProps.Between(k, y, id1, id2))
      && (forall k, y :: y in Get(r.value.children, k) <==> y in Get(a.children, k) && !PlanEditProps.Between(k, y, id1, id2))
  {
    PlanEditProps.UnlinkTablesConsistent(a.parents, a.children, Arch.UnlinkIn(a.parents, id1, id2),
                                         Arch.UnlinkIn(a.children, id1, id2), id1, id2);
    UnlinkRegistered(a, id1, id2);
  }

  /** `unlink` keeps the plans registered as they were. */
  lemma UnlinkRegistered(a: Arch.State, id1: Id, id2: Id)
    requires Arch.Registered(a.plans, a.planSeq) && Arch.Unlink(a, id1, id2).Ok?
    ensures Arch.Registered(Arch.Unlink(a, id1, id2).value.plans, a.planSeq)
  {
  }


  /** On duplicate-free lists, taking the entries between two ids out a second time changes nothing. */
  lemma UnlinkInTwice(m: Links, id1: Id, id2: Id)
    requires ListsNoDup(m) && id1 in m && id2 in m
    ensures Arch.UnlinkIn(Arch.UnlinkIn(m, id1, id2), id1, id2) == Arch.UnlinkIn(m, id1, id2)
  {
    var r := Arch.UnlinkIn(m, id1, id2);
    PlanEditProps.UnlinkTableLists(m, r, id1, id2);
    assert id2 !in Get(r, id1) && id1 !in Get(r, id2);
    assert r[id1 := r[id1]] == r;
    assert r[id2 := r[id2]] == r;
  }

  /** A second `unlink` of the same pair leaves the tables as the first one left them. */
  lemma UnlinkTwice(a: Arch.State, id1: Id, id2: Id)
    requires Arch.Valid(a) && id1 in a.nodes && id2 in a.nodes
    ensures var r := Arch.Unlink(a, id1, id2);
      && r.Ok?
      && var r2 := Arch.Unlink(r.value, id1, id2);
      && r2.Ok?
      && r2.value.parents == r.value.parents && r2.value.children == r.value.children
  {
    UnlinkExact(a, id1, id2);
    UnlinkInTwice(a.parents, id1, id2);
    UnlinkInTwice(a.children, id1, id2);
  }

  /**
   * `unlink` keeps every plan valid, and a valid plan holding both ids
   * never takes the error path: it is unlinked exactly as its own `unlink`
   * does.
   */
  lemma UnlinkPlans(a: Arch.State, id1: Id, id2: Id)
    requires Arch.Valid(a) && Arch.PlansValid(a) && id1 in a.nodes && id2 in a.nodes
    ensures var r := Arch.Unlink(a, id1, id2);
      && r.Ok? && Arch.PlansValid(r.value)
      && forall k :: k in a.plans && a.plans[k].HasNode(id1) && a.plans[k].HasNode(id2) ==>
           && PlanEdit.Unlink(a.plans[k], r.value.children, id1, id2, Arch.Fuel(a)).Ok?
           && r.value.plans[k] == PlanEdit.Unlink(a.plans[k], r.value.children, id1, id2, Arch.Fuel(a)).value
  {
    forall k | k in a.plans
      ensures UnlinkPlanOk(a.plans[k], Arch.Unlink(a, id1, id2).value.children, id1, id2, Arch.Fuel(a))
    {
      UnlinkInPlanValid(a.plans[k], Arch.Unlink(a, id1, id2).value.children, id1, id2, Arch.Fuel(a));
    }
  }

  /** What `UnlinkPlans` states of one plan. */
  predicate UnlinkPlanOk(p: Plan.State, ac: Links, id1: Id, id2: Id, fuel: nat)
  {
    && Plan.Valid(Arch.UnlinkInPlan(p, ac, id1, id2, fuel))
    && (p.HasNode(id1) && p.HasNode(id2) ==>
          PlanEdit.Unlink(p, ac, id1, id2, fuel).Ok? &&
          Arch.UnlinkInPlan(p, ac, id1, id2, fuel) == PlanEdit.Unlink(p, ac, id1, id2, fuel).value)
  }

  /** One plan under `unlink`: a valid plan stays valid and takes the success path. */
  lemma UnlinkInPlanValid(p: Plan.State, ac: Links, id1: Id, id2: Id, fuel: nat)
    requires Plan.Valid(p)
    ensures UnlinkPlanOk(p, ac, id1, id2, fuel)
  {
    PlanEditProps.UnlinkValid(p, ac, id1, id2, fuel);
  }

  // ---------------------------------------------------------------------------
  // link

  /** `r` lists under each key what `m` lists, plus every id of `vs` under every key of `ks`, and nothing else. */
  ghost predicate EdgesAdded(m: Links, r: Links, ks: seq<Id>, vs: seq<Id>)
  {
    forall k, y :: y in Get(r, k) <==> y in Get(m, k) || (k in ks && y in vs)
  }

  /** Edges added under the one key `k` of a table with no list there: the new list holds exactly `vs`. */
  lemma AddedUnderOne(m: Links, r: Links, k: Id, vs: seq<Id>)
    requires EdgesAdded(m, r, [k], vs) && Get(m, k) == []
    ensures forall y :: y in Get(r, k) <==> y in vs
  {
    forall y
      ensures y in Get(r, k) <==> y in vs
    {
      assert y in Get(r, k) <==> y in Get(m, k) || (k in [k] && y in vs);
    }
  }

  /** Edges added under `ks[j]`, then under `ks[j + 1..]`, are the edges added under `ks[j..]`. */
  lemma AddedKeys(m: Links, m1: Links, r: Links, ks: seq<Id>, j: nat, vs: seq<Id>)
    requires j < |ks|
    requires EdgesAdded(m, m1, [ks[j]], vs) && EdgesAdded(m1, r, ks[j + 1..], vs)
    ensures EdgesAdded(m, r, ks[j..], vs)
  {
    assert ks[j..] == [ks[j]] + ks[j + 1..];
  }

  /** Edges added for `vs[j]`, then for `vs[j + 1..]`, are the edges added for `vs[j..]`. */
  lemma AddedValues(m: Links, m1: Links, r: Links, ks: seq<Id>, vs: seq<Id>, j: nat)
    requires j < |vs|
    requires EdgesAdded(m, m1, ks, [vs[j]]) && EdgesAdded(m1, r, ks, vs[j + 1..])
    ensures EdgesAdded(m, r, ks, vs[j..])
  {
    assert vs[j..] == [vs[j]] + vs[j + 1..];
  }

  /** On the tables alone: listing an edge in both consistent tables, between two keys, keeps them consistent. */
  lemma ListedConsistent(pa: Links, ch: Links, child: Id, parent: Id)
    requires Consistent(pa, ch) && child in pa && parent in pa
    ensures var pa' := Plan.Listed(pa, child, parent);
      var ch' := Plan.Listed(ch, parent, child);
      Consistent(pa', ch') && pa'.Keys == pa.Keys && ch'.Keys == ch.Keys
  {
    var pa' := Plan.Listed(pa, child, parent);
    var ch' := Plan.Listed(ch, parent, child);
    forall k, x | k in ch' && x in ch'[k]
      ensures x in pa' && k in pa'[x]
    {
      assert x in Get(ch', k);
      if x in Get(ch, k) {
        assert k in Get(pa, x);
      }
      assert k in Get(pa', x);
    }
    forall k, x | k in pa' && x in pa'[k]
      ensures x in ch' && k in ch'[x]
    {
      assert x in Get(pa', k);
      if x in Get(pa, k) {
        assert k in Get(ch, x);
      }
      assert k in Get(ch', x);
    }
  }

  /**
   * One turn of `_link` between two nodes keeps a valid arch valid and adds
   * exactly the edge `parent -> child`, in both tables.
   */
  lemma LinkEdgeValid(a: Arch.State, child: Id, parent: Id)
    requires Arch.Valid(a) && child in a.nodes && parent in a.nodes
    ensures var r := Arch.LinkEdge(a, child, parent);
      && Arch.Valid(r)
      && EdgesAdded(a.children, r.children, [parent], [child])
      && EdgesAdded(a.parents, r.parents, [child], [parent])
  {
    if parent in Get(a.parents, child) {
      LinkEdgeOldValid(a, child, parent);
    } else {
      LinkEdgeNewValid(a, child, parent);
    }
  }

  /** `LinkEdgeValid` for an edge that is there already. */
  lemma LinkEdgeOldValid(a: Arch.State, child: Id, parent: Id)
    requires Arch.Valid(a) && parent in Get(a.parents, child)
    ensures Arch.LinkEdge(a, child, parent) == a
    ensures EdgesAdded(a.children, a.children, [parent], [child])
    ensures EdgesAdded(a.parents, a.parents, [child], [parent])
  {
    assert child in Get(a.children, parent);
  }


  /** `LinkEdgeValid` for an edge that is not there yet. */
  lemma LinkEdgeNewValid(a: Arch.State, child: Id, parent: Id)
    requires Arch.Valid(a) && child in a.nodes && parent in a.nodes && parent !in Get(a.parents, child)
    ensures var r := Arch.LinkEdge(a, child, parent);
      && Arch.TablesOk(r.nodes, r.parents, r.children)
      && Arch.Registered(r.plans, r.planSeq)
      && EdgesAdded(a.children, r.children, [parent], [child])
      && EdgesAdded(a.parents, r.parents, [child], [parent])
  {
    ListedConsistent(a.parents, a.children, child, parent);
    LinkEdgeRegistered(a, child, parent);
    ListedAdded(a.children, parent, child);
    ListedAdded(a.parents, child, parent);
  }

  /** `Listed` adds exactly the one edge it names. */
  lemma ListedAdded(m: Links, k: Id, v: Id)
    ensures EdgesAdded(m, Plan.Listed(m, k, v), [k], [v])
  {
  }


  /** One turn of `_link` keeps the plans registered as they were. */
  lemma LinkEdgeRegistered(a: Arch.State, child: Id, parent: Id)
    requires Arch.Registered(a.plans, a.planSeq)
    ensures var r := Arch.LinkEdge(a, child, parent); Arch.Registered(r.plans, r.planSeq)
  {
  }


  /** The `parents.forEach` of `_link` between nodes keeps a valid arch valid. */
  lemma {:induction false} LinkUnderValid(a: Arch.State, child: Id, ps: seq<Id>, j: nat)
    requires Arch.Valid(a) && child in a.nodes && j <= |ps| && forall q :: q in ps ==> q in a.nodes
    ensures Arch.Valid(Arch.LinkUnder(a, child, ps, j))
    decreases |ps| - j
  {
    if j < |ps| {
      LinkEdgeValid(a, child, ps[j]);
      LinkUnderValid(Arch.LinkEdge(a, child, ps[j]), child, ps, j + 1);
    }
  }

  /** The `parents.forEach` of `_link` between nodes adds exactly the edges from each of `ps[j..]` to `child`. */
  lemma {:induction false} LinkUnderEdges(a: Arch.State, child: Id, ps: seq<Id>, j: nat)
    requires Arch.Valid(a) && child in a.nodes && j <= |ps| && forall q :: q in ps ==> q in a.nodes
    ensures EdgesAdded(a.children, Arch.LinkUnder(a, child, ps, j).children, ps[j..], [child])
    ensures EdgesAdded(a.parents, Arch.LinkUnder(a, child, ps, j).parents, [child], ps[j..])
    decreases |ps| - j
  {
    if j < |ps| {
      LinkEdgeValid(a, child, ps[j]);
      LinkUnderEdges(Arch.LinkEdge(a, child, ps[j]), child, ps, j + 1);
      AddedKeys(a.children, Arch.LinkEdge(a, child, ps[j]).children, Arch.LinkUnder(a, child, ps, j).children,
                ps, j, [child]);
      AddedValues(a.parents, Arch.LinkEdge(a, child, ps[j]).parents, Arch.LinkUnder(a, child, ps, j).parents,
                  [child], ps, j);
    }
  }

  /** The `children.forEach` of `link` between nodes keeps a valid arch valid. */
  lemma {:induction false} LinkAllValid(a: Arch.State, cs: seq<Id>, ps: seq<Id>, i: nat)
    requires Arch.Valid(a) && i <= |cs|
    requires (forall c :: c in cs ==> c in a.nodes) && (forall q :: q in ps ==> q in a.nodes)
    ensures Arch.Valid(Arch.LinkAll(a, cs, ps, i))
    decreases |cs| - i
  {
    if i < |cs| {
      LinkUnderValid(a, cs[i], ps, 0);
      LinkAllValid(Arch.LinkUnder(a, cs[i], ps, 0), cs, ps, i + 1);
    }
  }

  /** The `children.forEach` of `link` between nodes adds exactly the edges from each of `ps` to each of `cs[i..]`. */
  lemma {:induction false} LinkAllEdges(a: Arch.State, cs: seq<Id>, ps: seq<Id>, i: nat)
    requires Arch.Valid(a) && i <= |cs|
    requires (forall c :: c in cs ==> c in a.nodes) && (forall q :: q in ps ==> q in a.nodes)
    ensures EdgesAdded(a.children, Arch.LinkAll(a, cs, ps, i).children, ps, cs[i..])
    ensures EdgesAdded(a.parents, Arch.LinkAll(a, cs, ps, i).parents, cs[i..], ps)
    decreases |cs| - i
  {
    if i < |cs| {
      LinkUnderValid(a, cs[i], ps, 0);
      LinkUnderEdges(a, cs[i], ps, 0);
      assert ps[0..] == ps;
      LinkAllEdges(Arch.LinkUnder(a, cs[i], ps, 0), cs, ps, i + 1);
      AddedValues(a.children, Arch.LinkUnder(a, cs[i], ps, 0).children, Arch.LinkAll(a, cs, ps, i).children,
                  ps, cs, i);
      AddedKeys(a.parents, Arch.LinkUnder(a, cs[i], ps, 0).parents, Arch.LinkAll(a, cs, ps, i).parents,
                cs, i, ps);
    }
  }

  /**
   * On a valid arch, a successful `link` keeps the arch valid and adds
   * exactly the edges from every given parent to every given child, in both
   * tables.
   */
  lemma LinkExact(a: Arch.State, children: IdArg, parents: IdArg)
    requires Arch.Valid(a)
    ensures var r := Arch.Link(a, children, parents);
      r.Ok? ==>
        && Arch.Valid(r.value)
        && EdgesAdded(a.children, r.value.children, ToArray(parents), ToArray(children))
        && EdgesAdded(a.parents, r.value.parents, ToArray(children), ToArray(parents))
  {
    if Arch.Link(a, children, parents).Ok? {
      LinkResult(a, children, parents, ToArray(children), ToArray(parents));
    }
  }

  /** A successful `link` is the nested loop over the two arrays. */
  lemma LinkResult(a: Arch.State, children: IdArg, parents: IdArg, cs: seq<Id>, ps: seq<Id>)
    requires Arch.Valid(a) && Arch.Link(a, children, parents).Ok?
    requires cs == ToArray(children) && ps == ToArray(parents)
    ensures Arch.Link(a, children, parents).value == Arch.LinkAll(a, cs, ps, 0)
    ensures Arch.Valid(Arch.LinkAll(a, cs, ps, 0))
    ensures EdgesAdded(a.children, Arch.LinkAll(a, cs, ps, 0).children, ps, cs)
    ensures EdgesAdded(a.parents, Arch.LinkAll(a, cs, ps, 0).parents, cs, ps)
  {
    LinkAllValid(a, cs, ps, 0);
    LinkAllEdges(a, cs, ps, 0);
    assert cs[0..] == cs;
  }


  /** With every edge already present, the `parents.forEach` of `_link` changes nothing. */
  lemma {:induction false} LinkUnderNoop(b: Arch.State, child: Id, ps: seq<Id>, j: nat)
    requires j <= |ps| && forall q :: q in ps ==> q in Get(b.parents, child)
    ensures Arch.LinkUnder(b, child, ps, j) == b
    decreases |ps| - j
  {
    if j < |ps| {
      LinkUnderNoop(b, child, ps, j + 1);
    }
  }

  /** With every edge already present, the `children.forEach` of `link` changes nothing. */
  lemma {:induction false} LinkAllNoop(b: Arch.State, cs: seq<Id>, ps: seq<Id>, i: nat)
    requires i <= |cs| && forall c, q :: c in cs && q in ps ==> q in Get(b.parents, c)
    ensures Arch.LinkAll(b, cs, ps, i) == b
    decreases |cs| - i
  {
    if i < |cs| {
      LinkUnderNoop(b, cs[i], ps, 0);
      LinkAllNoop(b, cs, ps, i + 1);
    }
  }

  /** `link` is idempotent: linking the same ids a second time leaves the arch, plans included, as it is. */
  lemma LinkTwice(a: Arch.State, children: IdArg, parents: IdArg)
    requires Arch.Valid(a)
    ensures var r := Arch.Link(a, children, parents);
      r.Ok? ==> Arch.Link(r.value, children, parents) == r
  {
    if Arch.Link(a, children, parents).Ok? {
      LinkExact(a, children, parents);
      LinkAllNoop(Arch.Link(a, children, parents).value, ToArray(children), ToArray(parents), 0);
    }
  }

  // ---------------------------------------------------------------------------
  // link, in the plans

  /**
   * The plan side of one turn of `_link`, with fuel: a valid plan stays
   * valid, and a plan holding the parent gets the edge unless one of the two
   * ids is done in it.
   */
  lemma LinkInPlanProps(p: Plan.State, ac: Links, child: Id, parent: Id, fuel: nat)
    requires fuel > 0
    ensures Plan.Valid(p) ==> Plan.Valid(Arch.LinkInPlan(p, ac, child, parent, fuel))
    ensures (parent in p.parents && child !in p.doneJobs && parent !in p.doneJobs) ==>
              child in Get(Arch.LinkInPlan(p, ac, child, parent, fuel).children, parent)
  {
    PlanBuild.LinkProperties(p, ac, [child], One(parent), fuel);
    assert ToArray(One(parent)) == [parent];
  }

  /**
   * When one turn of `_link` adds a new edge, every plan holding the parent
   * gets the edge too, unless one of the two ids is done in it.
   */
  lemma LinkEdgeReachesPlans(a: Arch.State, child: Id, parent: Id)
    requires parent !in Get(a.parents, child)
    ensures forall k :: (k in a.plans && parent in a.plans[k].parents &&
                         child !in a.plans[k].doneJobs && parent !in a.plans[k].doneJobs) ==>
              child in Get(Arch.LinkEdge(a, child, parent).plans[k].children, parent)
  {
    LinkEdgeUnfold(a, child, parent);
    forall k | k in a.plans
    {
      LinkInPlanProps(a.plans[k], Plan.Listed(a.children, parent, child), child, parent, Arch.Fuel(a));
    }
  }

  /** The plans after a turn of `_link` that adds a new edge. */
  lemma LinkEdgeUnfold(a: Arch.State, child: Id, parent: Id)
    requires parent !in Get(a.parents, child)
    ensures Arch.LinkEdge(a, child, parent).plans ==
            Arch.LinkPlans(a.plans, Plan.Listed(a.children, parent, child), child, parent, Arch.Fuel(a))
  {
  }

  /** One turn of `_link` keeps every plan valid. */
  lemma LinkEdgePlans(a: Arch.State, child: Id, parent: Id)
    requires Arch.PlansValid(a)
    ensures Arch.PlansValid(Arch.LinkEdge(a, child, parent))
  {
    if parent !in Get(a.parents, child) {
      LinkEdgeUnfold(a, child, parent);
      forall k | k in a.plans
      {
        LinkInPlanProps(a.plans[k], Plan.Listed(a.children, parent, child), child, parent, Arch.Fuel(a));
      }
    }
  }

  /** The `parents.forEach` of `_link` keeps every plan valid. */
  lemma {:induction false} LinkUnderPlans(a: Arch.State, child: Id, ps: seq<Id>, j: nat)
    requires Arch.PlansValid(a) && j <= |ps|
    ensures Arch.PlansValid(Arch.LinkUnder(a, child, ps, j))
    decreases |ps| - j
  {
    if j < |ps| {
      LinkEdgePlans(a, child, ps[j]);
      LinkUnderPlans(Arch.LinkEdge(a, child, ps[j]), child, ps, j + 1);
    }
  }

  /** The `children.forEach` of `link` keeps every plan valid. */
  lemma {:induction false} LinkAllPlans(a: Arch.State, cs: seq<Id>, ps: seq<Id>, i: nat)
    requires Arch.PlansValid(a) && i <= |cs|
    ensures Arch.PlansValid(Arch.LinkAll(a, cs, ps, i))
    decreases |cs| - i
  {
    if i < |cs| {
      LinkUnderPlans(a, cs[i], ps, 0);
      LinkAllPlans(Arch.LinkUnder(a, cs[i], ps, 0), cs, ps, i + 1);
    }
  }

  /** `link` keeps every plan valid. */
  lemma LinkPlans(a: Arch.State, children: IdArg, parents: IdArg)
    requires Arch.PlansValid(a)
    ensures var r := Arch.Link(a, children, parents); r.Ok? ==> Arch.PlansValid(r.value)
  {
    if Arch.Link(a, children, parents).Ok? {
      LinkUnfold(a, children, parents);
      LinkAllPlans(a, ToArray(children), ToArray(parents), 0);
    }
  }

  /** A successful `link` is its `children.forEach` loop over the wrapped arguments. */
  lemma LinkUnfold(a: Arch.State, children: IdArg, parents: IdArg)
    requires Arch.Link(a, children, parents).Ok?
    ensures Given(children) && Given(parents)
    ensures Arch.Link(a, children, parents).value == Arch.LinkAll(a, ToArray(children), ToArray(parents), 0)
  {
  }

  // ---------------------------------------------------------------------------
  // addNode and replaceNode

  /** On the tables alone: empty entries for a new id keep consistent tables consistent. */
  lemma AddEmptyConsistent(pa: Links, ch: Links, id: Id)
    requires Consistent(pa, ch) && id !in pa
    ensures Consistent(pa[id := []], ch[id := []])
  {
  }

  /** The arch `addNode` builds before it links: the node stored, with empty entries. */
  function WithNode(a: Arch.State, node: Arch.Node): (r: Arch.State)
    requires Arch.Valid(a) && node.id !in a.nodes
    ensures Arch.Valid(r) && r.nodes == a.nodes[node.id := node] && r.plans == a.plans
    ensures Get(r.parents, node.id) == [] && Get(r.children, node.id) == []
  {
    AddEmptyConsistent(a.parents, a.children, node.id);
    a.(nodes := a.nodes[node.id := node],
       parents := a.parents[node.id := Get(a.parents, node.id)],
       children := a.children[node.id := Get(a.children, node.id)])
  }

  /**
   * On a valid arch, a successful `addNode` keeps the arch and its plans
   * valid. Without children, the new node's parents are exactly the given
   * parents; without parents, its children are exactly the given children.
   */
  lemma AddNodeValid(a: Arch.State, node: Arch.Node, parents: IdArg, children: IdArg)
    requires Arch.Valid(a)
    ensures var r := Arch.AddNode(a, node, parents, children);
      && (r.Ok? ==> Arch.Valid(r.value))
      && (r.Ok? && Arch.PlansValid(a) ==> Arch.PlansValid(r.value))
      && (r.Ok? && !Given(children) ==>
            forall y :: y in Get(r.value.parents, node.id) <==> Given(parents) && y in ToArray(parents))
      && (r.Ok? && !Given(parents) ==>
            forall y :: y in Get(r.value.children, node.id) <==> Given(children) && y in ToArray(children))
  {
    if Arch.AddNode(a, node, parents, children).Ok? {
      AddNodeSteps(a, node, parents, children, WithNode(a, node));
    }
  }

  /** The two `link` calls of `addNode`, on the arch with the new node stored. */
  lemma AddNodeSteps(a: Arch.State, node: Arch.Node, parents: IdArg, children: IdArg, a1: Arch.State)
    requires Arch.Valid(a) && node.id !in a.nodes && a1 == WithNode(a, node)
    requires Arch.AddNode(a, node, parents, children).Ok?
    ensures var r := Arch.AddNode(a, node, parents, children);
      && Arch.Valid(r.value)
      && (Arch.PlansValid(a) ==> Arch.PlansValid(r.value))
      && (!Given(children) ==>
            forall y :: y in Get(r.value.parents, node.id) <==> Given(parents) && y in ToArray(parents))
      && (!Given(parents) ==>
            forall y :: y in Get(r.value.children, node.id) <==> Given(children) && y in ToArray(children))
  {
    if Given(parents) {
      LinkOneChild(a1, node.id, parents);
      if Given(children) && Arch.Link(a1, One(node.id), parents).Ok? {
        LinkOneParent(Arch.Link(a1, One(node.id), parents).value, node.id, children);
      }
    } else if Given(children) {
      LinkOneParent(a1, node.id, children);
    }
  }

  /** `link` of one child under the given parents, on a valid arch. */
  lemma LinkOneChild(b: Arch.State, id: Id, parents: IdArg)
    requires Arch.Valid(b)
    ensures var r := Arch.Link(b, One(id), parents);
      r.Ok? ==>
        && Arch.Valid(r.value)
        && (Arch.PlansValid(b) ==> Arch.PlansValid(r.value))
        && (Get(b.parents, id) == [] ==> forall y :: y in Get(r.value.parents, id) <==> y in ToArray(parents))
  {
    LinkExact(b, One(id), parents);
    if Arch.PlansValid(b) {
      LinkPlans(b, One(id), parents);
    }
    if Arch.Link(b, One(id), parents).Ok? {
      assert ToArray(One(id)) == [id];
      if Get(b.parents, id) == [] {
        AddedUnderOne(b.parents, Arch.Link(b, One(id), parents).value.parents, id, ToArray(parents));
      }
    }
  }

  /** `link` of the given children under one parent, on a valid arch. */
  lemma LinkOneParent(b: Arch.State, id: Id, children: IdArg)
    requires Arch.Valid(b)
    ensures var r := Arch.Link(b, children, One(id));
      r.Ok? ==>
        && Arch.Valid(r.value)
        && (Arch.PlansValid(b) ==> Arch.PlansValid(r.value))
        && (Get(b.children, id) == [] ==> forall y :: y in Get(r.value.children, id) <==> y in ToArray(children))
  {
    LinkExact(b, children, One(id));
    if Arch.PlansValid(b) {
      LinkPlans(b, children, One(id));
    }
    if Arch.Link(b, children, One(id)).Ok? {
      assert ToArray(One(id)) == [id];
      if Get(b.children, id) == [] {
        AddedUnderOne(b.children, Arch.Link(b, children, One(id)).value.children, id, ToArray(children));
      }
    }
  }

  /**
   * On a valid arch, a successful `replaceNode` keeps the arch valid, and
   * its plans too when the node is not the plan root. Given parents and no
   * children, the node's old links are dropped: its parents are exactly the
   * given ones.
   */
  lemma ReplaceNodeValid(a: Arch.State, node: Arch.Node, parents: IdArg, children: IdArg)
    requires Arch.Valid(a)
    ensures var r := Arch.ReplaceNode(a, node, parents, children);
      && (r.Ok? ==> Arch.Valid(r.value))
      && (r.Ok? && Arch.PlansValid(a) && node.id != Arch.PlanRoot ==> Arch.PlansValid(r.value))
      && (r.Ok? && Given(parents) && !Given(children) ==>
            forall y :: y in Get(r.value.parents, node.id) <==> y in ToArray(parents))
  {
    if node.id in a.nodes && (Given(parents) || Given(children)) {
      RemoveNodeExact(a, node.id);
      if Arch.PlansValid(a) && node.id != Arch.PlanRoot {
        RemoveNodePlans(a, node.id);
      }
      AddNodeValid(Arch.RemoveNode(a, node.id), node, parents, children);
    }
  }

  // ---------------------------------------------------------------------------
  // createPlan

  /** `createPlan` keeps the arch and every registered plan valid. */
  lemma CreatePlanValid(a: Arch.State, targets: IdArg)
    requires Arch.Valid(a) && Arch.PlansValid(a)
    ensures var r := Arch.CreatePlan(a, targets);
      r.Ok? ==> Arch.Valid(r.value) && Arch.PlansValid(r.value)
  {
    if Arch.CreatePlan(a, targets).Ok? {
      CreatePlanUnfold(a, targets);
      PlanBuild.NewPlan(a.planSeq, Arch.PlanRoot, a.children, ToArray(targets), Arch.Fuel(a));
      RegisterPlan(a, Plan.New(a.planSeq, Arch.PlanRoot, a.children, ToArray(targets), Arch.Fuel(a)));
    }
  }

  /**
   * The plan `createPlan` registers under the previous counter value has the
   * plan root as its root, the root lists every target, and every edge of
   * the plan is an edge of the arch or an edge from the root to a target.
   */
  lemma CreatePlanShape(a: Arch.State, targets: IdArg)
    ensures var r := Arch.CreatePlan(a, targets);
      r.Ok? ==>
        && a.planSeq in r.value.plans && r.value.plans[a.planSeq].root == Arch.PlanRoot
        && (forall t :: t in ToArray(targets) ==> t in Get(r.value.plans[a.planSeq].children, Arch.PlanRoot))
        && PlanBuild.EdgesFrom(r.value.plans[a.planSeq], a.children, ToArray(targets))
  {
    if Arch.CreatePlan(a, targets).Ok? {
      CreatePlanUnfold(a, targets);
      PlanBuild.NewPlan(a.planSeq, Arch.PlanRoot, a.children, ToArray(targets), Arch.Fuel(a));
    }
  }

  /**
   * What the plan `createPlan` registers contains, on a valid arch with no
   * node named like the plan root: every arch edge out of an id a target
   * reaches, and in its ready queue exactly the ids without children that
   * a target reaches.
   */
  lemma CreatePlanContents(a: Arch.State, targets: IdArg)
    requires Arch.Valid(a) && Arch.PlanRoot !in a.nodes
    ensures var r := Arch.CreatePlan(a, targets);
      r.Ok? ==>
        var p := r.value.plans[a.planSeq];
        var ts := ToArray(targets);
        && (forall t, k, y :: t in ts && PlanLeaves.Reaches(a.children, [], t, k) && y in Get(a.children, k) ==>
              y in Get(p.children, k))
        && (forall y :: y in p.jobs <==>
              Get(a.children, y) == [] && exists t :: t in ts && PlanLeaves.Reaches(a.children, [], t, y))
  {
    if Arch.CreatePlan(a, targets).Ok? {
      CreatePlanUnfold(a, targets);
      var ts := ToArray(targets);
      ArchUniverse(a);
      PlanNew.NewEdges(a.planSeq, Arch.PlanRoot, a.children, ts, Arch.Fuel(a));
      PlanQueue.NewQueue(a.planSeq, Arch.PlanRoot, a.children, ts, Arch.Fuel(a));
    }
  }

  /** On a valid arch every id the links mention is a node, so there are fewer of them than the fuel. */
  lemma ArchUniverse(a: Arch.State)
    requires Arch.Valid(a)
    ensures Plan.Universe(a.children) <= a.nodes.Keys
    ensures |Plan.Universe(a.children)| < Arch.Fuel(a)
  {
    forall x | x in Plan.Universe(a.children)
      ensures x in a.nodes
    {
      if x !in a.children {
        var k, y :| k in a.children && y in a.children[k] && x == y;
      }
    }
    Plan.SubsetCard(Plan.Universe(a.children), a.nodes.Keys);
  }

  /** A successful `createPlan` registers the plan the constructor builds. */
  lemma CreatePlanUnfold(a: Arch.State, targets: IdArg)
    requires Arch.CreatePlan(a, targets).Ok?
    ensures Arch.CreatePlan(a, targets).value
         == a.(plans := a.plans[a.planSeq := Plan.New(a.planSeq, Arch.PlanRoot, a.children, ToArray(targets), Arch.Fuel(a))],
               planSeq := a.planSeq + 1)
  {
  }

  /** Registering a valid plan under the counter, and advancing it, keeps the arch and its plans valid. */
  lemma RegisterPlan(a: Arch.State, p: Plan.State)
    requires Arch.Valid(a) && Arch.PlansValid(a)
    requires Plan.Valid(p) && p.id == a.planSeq && p.root == Arch.PlanRoot
    ensures var b := a.(plans := a.plans[a.planSeq := p], planSeq := a.planSeq + 1);
      Arch.Valid(b) && Arch.PlansValid(b)
  {
  }

  /**
   * The `allDone` listener undoes the registration `createPlan` made: on a
   * valid arch, only the advanced counter is left.
   */
  lemma CreatePlanAllDone(a: Arch.State, targets: IdArg)
    requires Arch.Valid(a)
    ensures var r := Arch.CreatePlan(a, targets);
      r.Ok? ==> Arch.OnPlanAllDone(r.value, a.planSeq) == a.(planSeq := a.planSeq + 1)
  {
    if Arch.CreatePlan(a, targets).Ok? {
      CreatePlanUnfold(a, targets);
      assert a.planSeq !in a.plans;
      UpdateRemove(a.plans, a.planSeq, Plan.New(a.planSeq, Arch.PlanRoot, a.children, ToArray(targets), Arch.Fuel(a)));
    }
  }

  /** Removing a fresh key just added gives back the map. */
  lemma UpdateRemove<K, V>(m: map<K, V>, k: K, v: V)
    requires k !in m
    ensures m[k := v] - {k} == m
  {
  }

  /** The `allDone` listener keeps the arch and its plans valid. */
  lemma OnPlanAllDoneValid(a: Arch.State, id: Plan.PlanId)
    requires Arch.Valid(a)
    ensures Arch.Valid(Arch.OnPlanAllDone(a, id))
    ensures Arch.PlansValid(a) ==> Arch.PlansValid(Arch.OnPlanAllDone(a, id))
    ensures id !in Arch.OnPlanAllDone(a, id).plans
  {
  }
}

=== FILE: arch_remove.dfy ===
/**
 * Properties of the arch's `removeTree`: as written, a node with two leaf
 * children loses only the first of them, because the loop reads the live
 * children list that the first removal has just shortened; the corrected
 * loop over a snapshot removes the node and all of its children.
 */
module ArchRemove {
  import opened Util
  import opened Asserts
  import Arch
  import ArchProps

  // ---------------------------------------------------------------------------
  // removeTree as written

  /**
   * A node `x` with two childless children `b` and `c`, each with `x` as its
   * only parent: `removeTree(x)` succeeds, removes `x` and `b`, and leaves
   * `c` in the arch with no parent at all.
   */
  lemma RemoveTreeLeavesSibling(a: Arch.State, x: Id, b: Id, c: Id, forced: bool)
    requires Arch.Valid(a) && x in a.nodes
    requires x != b && x != c && b != c
    requires a.children[x] == [b, c] && a.parents[b] == [x] && a.parents[c] == [x]
    requires a.children[b] == []
    ensures var r := Arch.RemoveTree(a, x, forced);
      && r.Ok? && Arch.Valid(r.value)
      && x !in r.value.nodes && b !in r.value.nodes
      && c in r.value.nodes && r.value.parents[c] == []
  {
    RemoveLeafB(a, x, b, c);
    SubLiveLeaf(a, b, forced, Arch.Fuel(a));
    EachLivePast(Arch.RemoveNode(a, b), x, 2, 1, forced, Arch.Fuel(a));
    EachLiveUnfold(a, x, 2, 0, forced, Arch.Fuel(a), Arch.RemoveNode(a, b));
    TreeUnfold(a, x, forced, Arch.RemoveNode(a, b));
    RemoveLastParent(Arch.RemoveNode(a, b), x, c);
  }

  /** `removeTree` is `removeNode` after the loop over the children. */
  lemma TreeUnfold(a: Arch.State, x: Id, forced: bool, q: Arch.State)
    requires x in a.nodes && x in a.children
    requires Arch.RemoveEachLive(a, x, |a.children[x]|, 0, forced, Arch.Fuel(a)) == Ok(q)
    ensures Arch.RemoveTree(a, x, forced) == Ok(Arch.RemoveNode(q, x))
  {
  }

  /** One successful turn of the loop as written hands its result to the next turn. */
  lemma EachLiveUnfold(a: Arch.State, parent: Id, len: nat, i: nat, forced: bool, fuel: nat, q: Arch.State)
    requires i < len && i < |Get(a.children, parent)|
    requires Arch.RemoveSubLive(a, Get(a.children, parent)[i], forced, fuel) == Ok(q)
    ensures Arch.RemoveEachLive(a, parent, len, i, forced, fuel) == Arch.RemoveEachLive(q, parent, len, i + 1, forced, fuel)
  {
  }

  /** Removing the only parent `x` of `c` keeps `c` with an empty parents list. */
  lemma RemoveLastParent(a: Arch.State, x: Id, c: Id)
    requires Arch.Valid(a) && x != c && c in a.nodes && a.parents[c] == [x]
    ensures Arch.Valid(Arch.RemoveNode(a, x))
    ensures c in Arch.RemoveNode(a, x).nodes && Arch.RemoveNode(a, x).parents[c] == []
  {
    ArchProps.RemoveNodeExact(a, x);
    assert RemoveFirst([x], x) == [];
  }

  /** Removing the leaf `b` leaves `[c]` under `x` and `x` as the only parent of `c`. */
  lemma RemoveLeafB(a: Arch.State, x: Id, b: Id, c: Id)
    requires Arch.Valid(a) && x in a.nodes
    requires x != b && x != c && b != c
    requires a.children[x] == [b, c] && a.parents[b] == [x] && a.parents[c] == [x]
    ensures var r := Arch.RemoveNode(a, b);
      && Arch.Valid(r) && x in r.nodes && c in r.nodes
      && r.children[x] == [c] && r.parents[c] == [x] && b !in r.nodes
      && (a.children[c] == [] ==> r.children[c] == [])
  {
    ArchProps.RemoveNodeExact(a, b);
    assert RemoveFirst([b, c], b) == [c];
  }

  /** `_removeTree` of a childless node with one parent is `removeNode`. */
  lemma SubLiveLeaf(a: Arch.State, id: Id, forced: bool, fuel: nat)
    requires fuel > 0 && id in a.parents && |a.parents[id]| == 1
    requires id in a.children && a.children[id] == []
    ensures Arch.RemoveSubLive(a, id, forced, fuel) == Ok(Arch.RemoveNode(a, id))
  {
    assert Arch.RemoveEachLive(a, id, 0, 0, forced, Spend(fuel)) == Ok(a);
  }

  /** Positions past the end of the live list are all skipped. */
  lemma {:induction false} EachLivePast(a: Arch.State, parent: Id, len: nat, i: nat, forced: bool, fuel: nat)
    requires |Get(a.children, parent)| <= i
    ensures Arch.RemoveEachLive(a, parent, len, i, forced, fuel) == Ok(a)
    decreases len - i
  {
    if i < len {
      EachLivePast(a, parent, len, i + 1, forced, fuel);
    }
  }

  // ---------------------------------------------------------------------------
  // removeTree, corrected

  /**
   * With fuel, the corrected `_removeTree` leaves `id` out of the tables when
   * it is forced, when `id` had a single parent, or when it was already gone;
   * a node with several parents is kept by the unforced form.
   */
  lemma {:induction false} RemoveSubFixedGone(a: Arch.State, id: Id, forced: bool, fuel: nat)
    ensures var r := Arch.RemoveSubFixed(a, id, forced, fuel);
      && (fuel > 0 && (forced || id !in a.parents || |a.parents[id]| == 1) ==> id !in r.value.parents)
      && (id in a.parents && |a.parents[id]| != 1 && !forced ==> r == Ok(a))
  {
  }

  /** None of `ids[i..]` has an entry left in the parents table. */
  predicate GoneFrom(a: Arch.State, ids: seq<Id>, i: nat)
  {
    forall j :: i <= j < |ids| ==> ids[j] !in a.parents
  }

  /** With fuel, the forced corrected loop over `ids[i..]` removes every one of those ids. */
  lemma {:induction false} RemoveEachFixedGone(a: Arch.State, ids: seq<Id>, i: nat, fuel: nat)
    requires i <= |ids| && fuel > 0
    ensures GoneFrom(Arch.RemoveEachFixed(a, ids, i, true, fuel).value, ids, i)
    decreases |ids| - i
  {
    if i < |ids| {
      RemoveEachFixedGone(Arch.RemoveSubFixed(a, ids[i], true, fuel).value, ids, i + 1, fuel);
      RemoveSubFixedGone(a, ids[i], true, fuel);
    }
  }

  /**
   * On a valid arch, the forced corrected `removeTree` of a node succeeds and
   * removes the node and every one of its children.
   */
  lemma RemoveTreeFixedForced(a: Arch.State, id: Id)
    requires Arch.Valid(a) && id in a.nodes
    ensures var r := Arch.RemoveTreeFixed(a, id, true);
      && r.Ok?
      && id !in r.value.nodes
      && forall c :: c in a.children[id] ==> c !in r.value.nodes
  {
    RemoveEachFixedGone(a, a.children[id], 0, Arch.Fuel(a));
  }

  /**
   * On the shape where the code as written leaves `c` behind, the corrected
   * `removeTree(x)` removes `x`, `b` and `c`.
   */
  lemma RemoveTreeFixedTwoLeaves(a: Arch.State, x: Id, b: Id, c: Id, forced: bool)
    requires Arch.Valid(a) && x in a.nodes
    requires x != b && x != c && b != c
    requires a.children[x] == [b, c] && a.parents[b] == [x] && a.parents[c] == [x]
    requires a.children[b] == [] && a.children[c] == []
    ensures var r := Arch.RemoveTreeFixed(a, x, forced);
      && r.Ok?
      && x !in r.value.nodes && b !in r.value.nodes && c !in r.value.nodes
  {
    RemoveLeafB(a, x, b, c);
    SubFixedLeaf(a, b, forced, Arch.Fuel(a));
    SubFixedLeaf(Arch.RemoveNode(a, b), c, forced, Arch.Fuel(a));
    assert Arch.RemoveEachFixed(a, [b, c], 0, forced, Arch.Fuel(a))
        == Arch.RemoveEachFixed(Arch.RemoveNode(Arch.RemoveNode(a, b), c), [b, c], 2, forced, Arch.Fuel(a));
  }

  /** The corrected `_removeTree` of a childless node with one parent is `removeNode`. */
  lemma SubFixedLeaf(a: Arch.State, id: Id, forced: bool, fuel: nat)
    requires fuel > 0 && id in a.parents && |a.parents[id]| == 1 && Get(a.children, id) == []
    ensures Arch.RemoveSubFixed(a, id, forced, fuel) == Ok(Arch.RemoveNode(a, id))
  {
    assert Arch.RemoveEachFixed(a, [], 0, forced, Spend(fuel)) == Ok(a);
  }

  /** The corrected `removeTree` keeps a valid arch valid. */
  lemma RemoveTreeFixedValid(a: Arch.State, id: Id, forced: bool)
    requires Arch.Valid(a)
    ensures var r := Arch.RemoveTreeFixed(a, id, forced); r.Ok? ==> Arch.Valid(r.value)
  {
    if id in a.nodes && id in a.children {
      EachFixedValid(a, a.children[id], 0, forced, Arch.Fuel(a));
      ArchProps.RemoveNodeExact(Arch.RemoveEachFixed(a, a.children[id], 0, forced, Arch.Fuel(a)).value, id);
    }
  }

  /** The corrected `_removeTree` keeps a valid arch valid. */
  lemma {:induction false} SubFixedValid(a: Arch.State, id: Id, forced: bool, fuel: nat)
    requires Arch.Valid(a)
    ensures Arch.Valid(Arch.RemoveSubFixed(a, id, forced, fuel).value)
    decreases fuel, 0, 0
  {
    if fuel > 0 && id in a.parents && (|a.parents[id]| == 1 || forced) {
      EachFixedValid(a, Get(a.children, id), 0, forced, Spend(fuel));
      ArchProps.RemoveNodeExact(Arch.RemoveEachFixed(a, Get(a.children, id), 0, forced, Spend(fuel)).value, id);
    }
  }

  /** The corrected loop keeps a valid arch valid. */
  lemma {:induction false} EachFixedValid(a: Arch.State, ids: seq<Id>, i: nat, forced: bool, fuel: nat)
    requires i <= |ids| && Arch.Valid(a)
    ensures Arch.Valid(Arch.RemoveEachFixed(a, ids, i, forced, fuel).value)
    decreases fuel, 1, |ids| - i
  {
    if i < |ids| {
      SubFixedValid(a, ids[i], forced, fuel);
      EachFixedValid(Arch.RemoveSubFixed(a, ids[i], forced, fuel).value, ids, i + 1, forced, fuel);
    }
  }
}

=== FILE: asserts.dfy ===
/**
 * The guard predicates of lib/asserts.js. In the source each one throws an
 * Error when its condition does not hold; here each returns `Pass` or
 * `Fail(error)`, and the operations that call them turn a failure into an
 * `Err` result. Each guard takes the plain tables it inspects, so that the
 * arch and the plans can share them.
 */
module Asserts {
  import opened Util

  /** The conditions the guards report. */
  datatype Error =
    | UnknownId(id: Id)              // hasId
    | NoIdGiven                      // hasId of a missing argument, wrapped as `[undefined]`
    | DuplicateId(id: Id)            // absentId
    | NoEntry(id: Id)                // a TypeError: a table has no entry for `id`
    | NoParentsEntry(id: Id)         // twoLinksInArch / twoLinksInPlan
    | NoChildrenEntry(id: Id)
    | BothAbsent(id1: Id, id2: Id)   // oneOfTwoInPlan
    | LoopInParents(id: Id)          // noIdLoop
    | LoopInChildren(id: Id)
    | CrossLoop(id: Id)              // noCrossLoop
    | PlanLocked                     // planDone / planFail
    | TooManyParents
    | TooManyChildren
    | ChildWithoutParents            // planLinksOk
    | ParentWithoutChildren
    | ActiveJob(id: Id)              // notJob
    | DoneJob(id: Id)

  /** The outcome of one guard. */
  datatype Check = Pass | Fail(error: Error)

  /** The outcome of an operation that may throw one of the guard errors. */
  datatype Result<T> = Ok(value: T) | Err(error: Error)

  /** `hasId`: fails exactly when `id` is not a node. */
  function HasId(id: Id, nodes: set<Id>): (r: Check)
    ensures r.Fail? <==> id !in nodes
    ensures r.Fail? ==> r.error == UnknownId(id)
  {
    if id in nodes then Pass else Fail(UnknownId(id))
  }

  /** `absentId`: fails exactly when `id` is already a node. */
  function AbsentId(id: Id, nodes: set<Id>): (r: Check)
    ensures r.Fail? <==> id in nodes
    ensures r.Fail? ==> r.error == DuplicateId(id)
  {
    if id in nodes then Fail(DuplicateId(id)) else Pass
  }

  /**
   * `hasIds`: with an arch, fails on the first id that is not a node; without
   * one (`nodes` is `None`), it checks nothing.
   */
  function HasIds(ids: seq<Id>, nodes: Option<set<Id>>): (r: Check)
    ensures r.Fail? <==> nodes.Some? && exists i :: 0 <= i < |ids| && ids[i] !in nodes.value
    ensures r.Fail? ==> exists i :: 0 <= i < |ids| && r.error == UnknownId(ids[i]) && ids[i] !in nodes.value
  {
    if nodes.None? || |ids| == 0 then Pass
    else if HasId(ids[0], nodes.value).Fail? then HasId(ids[0], nodes.value)
    else
      var rest := HasIds(ids[1..], nodes);
      if rest.Fail? then
        ghost var i :| 0 <= i < |ids[1..]| && rest.error == UnknownId(ids[1..][i]) && ids[1..][i] !in nodes.value;
        assert ids[i + 1] == ids[1..][i];
        rest
      else
        assert forall i :: 1 <= i < |ids| ==> ids[i] == ids[1..][i - 1];
        rest
  }

  /** `twoLinksInArch` / `twoLinksInPlan`: succeeds exactly when `id` has both a parents and a children entry. */
  function TwoLinks(id: Id, parents: Links, children: Links): (r: Check)
    ensures r.Pass? <==> id in parents && id in children
    ensures r.Fail? && id !in parents ==> r.error == NoParentsEntry(id)
  {
    if id !in parents then Fail(NoParentsEntry(id))
    else if id !in children then Fail(NoChildrenEntry(id))
    else Pass
  }

  /** `oneOfTwoInPlan`: fails only when neither id has both entries. */
  function OneOfTwoInPlan(id1: Id, id2: Id, parents: Links, children: Links): (r: Check)
    ensures r.Fail? <==> TwoLinks(id1, parents, children).Fail? && TwoLinks(id2, parents, children).Fail?
  {
    if (id1 !in parents || id1 !in children) && (id2 !in parents || id2 !in children) then
      Fail(BothAbsent(id1, id2))
    else Pass
  }

  /** `noIdLoop`: fails exactly when `id` is listed among the given parents or children. */
  function NoIdLoop(id: Id, parents: Option<seq<Id>>, children: Option<seq<Id>>): (r: Check)
    ensures r.Fail? <==> (parents.Some? && id in parents.value) || (children.Some? && id in children.value)
    ensures r.Fail? && parents.Some? && id in parents.value ==> r.error == LoopInParents(id)
  {
    if parents.Some? && IndexOf(parents.value, id) != -1 then Fail(LoopInParents(id))
    else if children.Some? && IndexOf(children.value, id) != -1 then Fail(LoopInChildren(id))
    else Pass
  }

  /** `noCrossLoop`: with both lists given, fails exactly when they share an id, naming the first shared parent. */
  function NoCrossLoop(parents: Option<seq<Id>>, children: Option<seq<Id>>): (r: Check)
    ensures r.Fail? <==> parents.Some? && children.Some? && exists x :: x in parents.value && x in children.value
    ensures r.Fail? ==> r.error.CrossLoop? && r.error.id in parents.value && r.error.id in children.value
  {
    if parents.Some? && children.Some? then FirstShared(parents.value, children.value) else Pass
  }

  /** The `forEach` of `noCrossLoop`: fails on the first element of `ps` that is in `cs`. */
  function FirstShared(ps: seq<Id>, cs: seq<Id>): (r: Check)
    ensures r.Fail? <==> exists x :: x in ps && x in cs
    ensures r.Fail? ==> r.error.CrossLoop? && r.error.id in ps && r.error.id in cs
  {
    if |ps| == 0 then Pass
    else if IndexOf(cs, ps[0]) != -1 then Fail(CrossLoop(ps[0]))
    else
      var rest := FirstShared(ps[1..], cs);
      assert forall x :: x in ps ==> x == ps[0] || x in ps[1..];
      rest
  }

  /**
   * `planDone`: fails when the plan is locked or when its `parents` or
   * `children` table holds more than one key (only the root may be left).
   */
  function PlanDone(locked: nat, parents: Links, children: Links): (r: Check)
    ensures r.Pass? <==> locked == 0 && |parents.Keys| <= 1 && |children.Keys| <= 1
    ensures locked > 0 ==> r == Fail(PlanLocked)
  {
    if locked > 0 then Fail(PlanLocked)
    else if |parents.Keys| > 1 then Fail(TooManyParents)
    else if |children.Keys| > 1 then Fail(TooManyChildren)
    else Pass
  }

  /** `planFail`: fails exactly when the plan is locked. */
  function PlanFail(locked: nat): (r: Check)
    ensures r.Fail? <==> locked > 0
  {
    if locked > 0 then Fail(PlanLocked) else Pass
  }

  /** `planLinksOk`: succeeds exactly when the key sets of the two tables coincide. */
  function PlanLinksOk(parents: Links, children: Links): (r: Check)
    ensures r.Pass? <==> parents.Keys == children.Keys
    ensures r.Fail? && !(children.Keys <= parents.Keys) ==> r.error == ChildWithoutParents
  {
    if exists k :: k in children && k !in parents then Fail(ChildWithoutParents)
    else if exists k :: k in parents && k !in children then Fail(ParentWithoutChildren)
    else Pass
  }

  /** `notJob`: fails exactly when `id` is an active or a done job. */
  function NotJob(id: Id, activeJobs: seq<Id>, doneJobs: seq<Id>): (r: Check)
    ensures r.Fail? <==> id in activeJobs || id in doneJobs
    ensures id in activeJobs ==> r == Fail(ActiveJob(id))
  {
    if IndexOf(activeJobs, id) != -1 then Fail(ActiveJob(id))
    else if IndexOf(doneJobs, id) != -1 then Fail(DoneJob(id))
    else Pass
  }
}

=== FILE: plan.dfy ===
/**
 * The per-request job state machine of lib/plan.js.
 *
 * A plan keeps its own `parents`/`children` tables, rooted at a synthetic
 * root id, and three id lists: `jobs` (ready to run), `activeJobs`
 * (dispatched) and `doneJobs`. The arch it was created from is passed to the
 * operations that read it, as its `children` table (`ac`) or its node set.
 */
module Plan {
  import opened Util
  import opened Asserts

  /** Plan ids are drawn from a counter starting at 1. */
  type PlanId = nat

  datatype State = State(
    id: PlanId,
    root: Id,
    parents: Links,
    children: Links,
    jobs: seq<Id>,
    activeJobs: seq<Id>,
    doneJobs: seq<Id>,
    locked: nat,
    failed: bool)
  {
    /** `hasNode`: the plan has a parents entry for `x`. */
    predicate HasNode(x: Id)
    {
      x in parents
    }
  }

  /** The three job lists of `p` are duplicate-free and pairwise disjoint. */
  predicate JobsOk(p: State)
  {
    JobListsOk(p.jobs, p.activeJobs, p.doneJobs)
  }

  /** Queued, active and done ids: each list duplicate-free, no id in two lists. */
  predicate JobListsOk(jobs: seq<Id>, active: seq<Id>, done: seq<Id>)
  {
    && NoDup(jobs) && NoDup(active) && NoDup(done)
    && (forall x :: x in jobs ==> x !in active && x !in done)
    && (forall x :: x in active ==> x !in done)
  }

  /** The plan invariant: consistent plan-local links holding the root, and well-formed job lists. */
  predicate Valid(p: State)
  {
    && Consistent(p.parents, p.children)
    && p.root in p.parents
    && p.root !in p.doneJobs
    && JobsOk(p)
  }

  /** Only the links and the ready queue may differ between `p` and `r`. */
  predicate SameJobState(p: State, r: State)
  {
    && r.id == p.id && r.root == p.root
    && r.activeJobs == p.activeJobs && r.doneJobs == p.doneJobs
    && r.locked == p.locked && r.failed == p.failed
  }

  /** The constructor's initial state: only the root, with empty lists. */
  function Empty(id: PlanId, root: Id): (r: State)
    ensures Valid(r)
    ensures r.parents.Keys == {root} && r.children.Keys == {root}
    ensures r.jobs == [] && r.activeJobs == [] && r.doneJobs == []
    ensures r.locked == 0 && !r.failed
  {
    State(id, root, map[root := []], map[root := []], [], [], [], 0, false)
  }

  // ---------------------------------------------------------------------------
  // The ready queue

  /**
   * `addJob`: queues `x` unless it is already done, active or queued, so the
   * job lists stay duplicate-free and disjoint.
   */
  function AddJob(p: State, x: Id): (r: State)
    ensures r == p.(jobs := r.jobs)
    ensures x in r.jobs <==> x in p.jobs || (x !in p.doneJobs && x !in p.activeJobs)
    ensures forall y :: y != x ==> (y in r.jobs <==> y in p.jobs)
    ensures |p.jobs| <= |r.jobs| && r.jobs[..|p.jobs|] == p.jobs
    ensures JobsOk(p) ==> JobsOk(r)
  {
    if IndexOf(p.doneJobs, x) == -1 && IndexOf(p.activeJobs, x) == -1 && IndexOf(p.jobs, x) == -1 then
      p.(jobs := p.jobs + [x])
    else p
  }

  /** `removeJob`: drops `x` from the ready queue if it is there. */
  function RemoveJob(p: State, x: Id): (r: State)
    ensures r == p.(jobs := r.jobs)
    ensures forall y :: y != x ==> (y in r.jobs <==> y in p.jobs)
    ensures NoDup(p.jobs) ==> x !in r.jobs
    ensures JobsOk(p) ==> JobsOk(r)
  {
    p.(jobs := RemoveFirst(p.jobs, x))
  }

  /** `removeJobs`: drops every id of `xs` from the ready queue. */
  function RemoveJobs(p: State, xs: seq<Id>): (r: State)
    ensures r == p.(jobs := r.jobs)
    ensures NoDup(p.jobs) ==> forall y :: y in r.jobs <==> y in p.jobs && y !in xs
    ensures JobsOk(p) ==> JobsOk(r)
    ensures NoDup(p.jobs) ==> NoDup(r.jobs)
    decreases |xs|
  {
    if |xs| == 0 then p
    else
      var rest := RemoveJobs(RemoveJob(p, xs[0]), xs[1..]);
      assert forall y :: y in xs <==> y == xs[0] || y in xs[1..];
      rest
  }

  /**
   * `rescanJobs`, as written: for each id, its plan-parents leave the queue
   * and the id itself is queued when it has no plan-children. There is no
   * check for the root.
   */
  function RescanJobs(p: State, ids: seq<Id>): (r: State)
    ensures r == p.(jobs := r.jobs)
    ensures JobsOk(p) ==> JobsOk(r)
    ensures NoDup(p.jobs) ==> forall y :: y in r.jobs && y !in p.jobs ==> y in ids && Get(p.children, y) == []
    decreases |ids|
  {
    if |ids| == 0 then p
    else
      var x := ids[0];
      var p1 := RemoveJobs(p, Get(p.parents, x));
      var p2 := if |Get(p1.children, x)| == 0 then AddJob(p1, x) else p1;
      RescanJobs(p2, ids[1..])
  }

  /** `isOperable`: jobs are queued and the plan has not failed. */
  predicate IsOperable(p: State)
  {
    |p.jobs| > 0 && !p.failed
  }

  /**
   * `allDone`: nothing queued, nothing active and the root has no children
   * left. The lock test is commented out in the source, so a locked plan can
   * be all done.
   */
  predicate AllDone(p: State)
  {
    |p.jobs| == 0 && |p.activeJobs| == 0 && |Get(p.children, p.root)| == 0
  }

  /** `getOtherJob`: the first queued id that is not excluded. */
  function GetOtherJob(p: State, exclude: Option<set<Id>>): (r: Option<Id>)
    ensures r.Some? ==> r.value in p.jobs && (exclude.None? || r.value !in exclude.value)
    ensures r.Some? ==> forall i :: 0 <= i < IndexOf(p.jobs, r.value) ==> exclude.Some? && p.jobs[i] in exclude.value
    ensures r.None? <==> forall i :: 0 <= i < |p.jobs| ==> exclude.Some? && p.jobs[i] in exclude.value
  {
    FirstNotIn(p.jobs, exclude, 0)
  }

  /** The loop of `getOtherJob` from position `i` on. */
  function FirstNotIn(jobs: seq<Id>, exclude: Option<set<Id>>, i: nat): (r: Option<Id>)
    requires i <= |jobs|
    ensures r.Some? ==> exists k :: i <= k < |jobs| && jobs[k] == r.value
                          && (exclude.None? || r.value !in exclude.value)
                          && forall j :: i <= j < k ==> exclude.Some? && jobs[j] in exclude.value
    ensures r.None? <==> forall k :: i <= k < |jobs| ==> exclude.Some? && jobs[k] in exclude.value
    decreases |jobs| - i
  {
    if i == |jobs| then None
    else if exclude.None? || jobs[i] !in exclude.value then Some(jobs[i])
    else FirstNotIn(jobs, exclude, i + 1)
  }

  /**
   * `nextJob`: nothing when the plan is locked or has no queued job;
   * otherwise the requested id, if queued, or else the head of the queue,
   * moves from `jobs` to the end of `activeJobs`.
   */
  function NextJob(p: State, requested: Option<Id>): (r: (State, Option<Id>))
    ensures p.locked > 0 || |p.jobs| == 0 ==> r == (p, None)
    ensures r.1.None? ==> r.0 == p
    ensures r.1.Some? ==> p.locked == 0 && r.1.value in p.jobs
    ensures r.1.Some? ==> r.0 == p.(jobs := r.0.jobs, activeJobs := p.activeJobs + [r.1.value])
    ensures r.1.Some? && NoDup(p.jobs) ==>
              forall y :: y in r.0.jobs <==> y in p.jobs && y != r.1.value
    ensures requested.Some? ==> (r.1.Some? <==> p.locked == 0 && requested.value in p.jobs)
    ensures requested.Some? && r.1.Some? ==> r.1.value == requested.value
    ensures requested.None? && p.locked == 0 && |p.jobs| > 0 ==> r.1 == Some(p.jobs[0]) && r.0.jobs == p.jobs[1..]
    ensures JobsOk(p) ==> JobsOk(r.0)
  {
    if p.locked == 0 && |p.jobs| > 0 then
      if requested.Some? then
        var i := IndexOf(p.jobs, requested.value);
        if i == -1 then (p, None)
        else (p.(jobs := RemoveFirst(p.jobs, requested.value), activeJobs := p.activeJobs + [requested.value]), requested)
      else
        var x := p.jobs[0];
        assert p.jobs == [x] + p.jobs[1..];
        assert NoDup(p.jobs) ==> x !in p.jobs[1..];
        (p.(jobs := p.jobs[1..], activeJobs := p.activeJobs + [x]), Some(x))
    else (p, None)
  }

  /**
   * `checkNextJob`: the id `nextJob` would hand out, without changing the
   * plan — the requested id, or else the first queued id not excluded.
   */
  function CheckNextJob(p: State, exclude: Option<set<Id>>, requested: Option<Id>): (r: Option<Id>)
    ensures r.Some? ==> p.locked == 0 && r.value in p.jobs
    ensures requested.Some? ==> (r.Some? <==> p.locked == 0 && requested.value in p.jobs)
    ensures requested.None? && r.Some? ==> exclude.None? || r.value !in exclude.value
    ensures requested.None? ==>
              (r.Some? <==> p.locked == 0 && exists i :: 0 <= i < |p.jobs| && (exclude.None? || p.jobs[i] !in exclude.value))
    ensures requested.None? && p.locked == 0 ==> r == GetOtherJob(p, exclude)
    ensures requested.Some? && r.Some? ==> r == requested
  {
    if p.locked == 0 && |p.jobs| > 0 then
      var x := if requested.Some? then requested else GetOtherJob(p, exclude);
      if x.Some? && IndexOf(p.jobs, x.value) != -1 then x else None
    else None
  }

  /** `lock`: one more level of locking. */
  function Lock(p: State): (r: State)
    ensures r == p.(locked := r.locked)
    ensures r.locked > 0
    ensures Unlock(r) == p
  {
    p.(locked := p.locked + 1)
  }

  /** `unlock`: one level less, never below zero. */
  function Unlock(p: State): (r: State)
    ensures r == p.(locked := r.locked)
    ensures p.locked > 0 ==> r.locked + 1 == p.locked
    ensures p.locked == 0 ==> r == p
  {
    if p.locked > 0 then p.(locked := p.locked - 1) else p
  }

  // ---------------------------------------------------------------------------
  // Links

  /** Every key and every link of `p` is still present in `r`. */
  predicate Extends(p: State, r: State)
  {
    LinksExtend(p.parents, r.parents) && LinksExtend(p.children, r.children)
  }

  /** Every key of `m` is a key of `m'`, and every id listed in `m` is still listed under the same key. */
  predicate LinksExtend(m: Links, m': Links)
  {
    m.Keys <= m'.Keys && forall k, y :: k in m && y in m[k] ==> y in m'[k]
  }

  /** `Extends` is transitive. */
  lemma ExtendsTrans(p: State, q: State, r: State)
    requires Extends(p, q) && Extends(q, r)
    ensures Extends(p, r)
  {
  }

  /**
   * `_link`: creates missing entries for both ids, then lists `child` under
   * `parent` and `parent` above `child` unless already listed.
   */
  function LinkEdge(p: State, child: Id, parent: Id): (r: State)
    ensures r == p.(parents := r.parents, children := r.children)
    ensures r.parents.Keys == p.parents.Keys + {parent} + {child}
    ensures r.children.Keys == p.children.Keys + {child} + {parent}
    ensures child in r.children[parent] && parent in r.parents[child]
  {
    var pe := WithEntry(p.parents, parent);
    var ce := WithEntry(p.children, child);
    var ps := Listed(pe, child, parent);
    var cs := Listed(ce, parent, child);
    p.(parents := ps, children := cs)
  }

  /** The table with an entry for `k`, empty if it had none. */
  function WithEntry(m: Links, k: Id): (r: Links)
    ensures r.Keys == m.Keys + {k}
    ensures forall key :: key in m ==> r[key] == m[key]
    ensures r[k] == Get(m, k)
    ensures forall key :: Get(r, key) == Get(m, key)
    ensures ListsNoDup(m) ==> ListsNoDup(r)
  {
    m[k := Get(m, k)]
  }

  /** The table with `v` appended to the list under `k` unless already there. */
  function Listed(m: Links, k: Id, v: Id): (r: Links)
    ensures r.Keys == m.Keys + {k}
    ensures v in r[k]
    ensures forall key, y :: y in Get(r, key) <==> y in Get(m, key) || (key == k && y == v)
    ensures forall key :: key in m && key != k ==> r[key] == m[key]
    ensures ListsNoDup(m) ==> ListsNoDup(r)
  {
    var l := Get(m, k);
    m[k := if IndexOf(l, v) == -1 then l + [v] else l]
  }

  // ---------------------------------------------------------------------------
  // Leaves

  /** The mutable state of `_collectLeaves`: the leaves found, in order, and the loop guard. */
  datatype Walk = Walk(leaves: seq<Id>, wasHere: set<Id>)

  /** Every id an arch children table mentions, as a key or in a list. */
  ghost function Universe(ac: Links): set<Id>
  {
    ac.Keys + set k, y | k in ac && y in ac[k] :: y
  }

  /**
   * `_collectLeaves` from `x`: an id already visited or done is skipped;
   * otherwise it is marked, and it is a leaf when the arch lists no children
   * for it, or else its children are walked in order.
   */
  function Visit(ac: Links, done: seq<Id>, x: Id, w: Walk): (r: Walk)
    requires NoDup(w.leaves) && forall v :: v in w.leaves ==> v in w.wasHere
    ensures w.wasHere <= r.wasHere
    ensures x in r.wasHere || x in done
    ensures forall v :: v in r.wasHere && v !in w.wasHere ==> v !in done
    ensures forall v :: v in r.leaves <==> v in w.leaves || (v in r.wasHere && v !in w.wasHere && Get(ac, v) == [])
    ensures NoDup(r.leaves) && forall v :: v in r.leaves ==> v in r.wasHere
    ensures forall v, c :: v in r.wasHere && v !in w.wasHere && c in Get(ac, v) ==> c in r.wasHere || c in done
    decreases |Universe(ac) + {x} - w.wasHere|, 0, 0
  {
    if x in w.wasHere || IndexOf(done, x) != -1 then w
    else
      var w1 := w.(wasHere := w.wasHere + {x});
      if |Get(ac, x)| == 0 then
        w1.(leaves := w.leaves + [x])
      else
        ProperSubsetCard(Universe(ac) - w1.wasHere, Universe(ac) + {x} - w.wasHere, x);
        VisitList(ac, done, x, 0, w1)
  }

  /** The `for` loop of `_collectLeaves` over the children of `y`, from position `i` on. */
  function VisitList(ac: Links, done: seq<Id>, y: Id, i: nat, w: Walk): (r: Walk)
    requires i <= |Get(ac, y)|
    requires NoDup(w.leaves) && forall v :: v in w.leaves ==> v in w.wasHere
    ensures w.wasHere <= r.wasHere
    ensures forall j :: i <= j < |Get(ac, y)| ==> Get(ac, y)[j] in r.wasHere || Get(ac, y)[j] in done
    ensures forall v :: v in r.wasHere && v !in w.wasHere ==> v !in done
    ensures forall v :: v in r.leaves <==> v in w.leaves || (v in r.wasHere && v !in w.wasHere && Get(ac, v) == [])
    ensures NoDup(r.leaves) && forall v :: v in r.leaves ==> v in r.wasHere
    ensures forall v, c :: v in r.wasHere && v !in w.wasHere && c in Get(ac, v) ==> c in r.wasHere || c in done
    decreases |Universe(ac) - w.wasHere|, 1, |Get(ac, y)| - i
  {
    if i == |Get(ac, y)| then w
    else
      var c := Get(ac, y)[i];
      InUniverse(ac, y, c);
      assert Universe(ac) + {c} == Universe(ac);
      var w' := Visit(ac, done, c, w);
      assert Universe(ac) - w'.wasHere <= Universe(ac) - w.wasHere;
      SubsetCard(Universe(ac) - w'.wasHere, Universe(ac) - w.wasHere);
      VisitList(ac, done, y, i + 1, w')
  }

  lemma InUniverse(ac: Links, k: Id, c: Id)
    requires k in ac && c in ac[k]
    ensures c in Universe(ac)
  {
  }

  /** A subset missing an element of its superset is strictly smaller. */
  lemma ProperSubsetCard<T>(a: set<T>, b: set<T>, x: T)
    requires a <= b && x in b && x !in a
    ensures |a| < |b|
  {
    assert b == a + (b - a);
    assert x in b - a;
  }

  /** A subset is no larger than its superset. */
  lemma SubsetCard<T>(a: set<T>, b: set<T>)
    requires a <= b
    ensures |a| <= |b|
  {
    assert b == a + (b - a);
  }

  /**
   * `collectLeaves`: the leaves of the arch below `x` reached through ids
   * that are not done, each once, in the order the walk meets them.
   */
  function CollectLeaves(ac: Links, done: seq<Id>, x: Id): (r: seq<Id>)
    ensures NoDup(r)
    ensures forall v :: v in r ==> v !in done && Get(ac, v) == []
  {
    Visit(ac, done, x, Walk([], {})).leaves
  }

  /**
   * `refactorJobs`: keeps the queued jobs that have no plan-children, then
   * adds `toAdd`, and drops the active ones; ids are kept once each, in the
   * order first met.
   */
  function RefactorJobs(p: State, toAdd: seq<Id>): (r: State)
    ensures r == p.(jobs := r.jobs)
    ensures NoDup(r.jobs)
    ensures forall y :: y in r.jobs <==> ((y in p.jobs && Get(p.children, y) == []) || y in toAdd) && y !in p.activeJobs
    ensures JobsOk(p) && (forall y :: y in toAdd ==> y !in p.doneJobs) ==> JobsOk(r)
  {
    var keys := AddKeys(ArrayToObject(Childless(p.jobs, p.children)), toAdd);
    p.(jobs := Without(keys, p.activeJobs))
  }

  /** The ids of `jobs` with no entry or an empty entry in `children`, in order. */
  function Childless(jobs: seq<Id>, children: Links): (r: seq<Id>)
    ensures forall y :: y in r <==> y in jobs && Get(children, y) == []
    decreases |jobs|
  {
    if |jobs| == 0 then []
    else
      assert forall y :: y in jobs <==> y == jobs[0] || y in jobs[1..];
      (if |Get(children, jobs[0])| == 0 then [jobs[0]] else []) + Childless(jobs[1..], children)
  }

  // ---------------------------------------------------------------------------
  // Sub-arch injection

  /** Every edge `r` has and `p` lacks is the edge `parent -> child` or an edge of the arch. */
  ghost predicate NewEdgesFrom(p: State, r: State, ac: Links, child: Id, parent: Id)
  {
    forall k, y :: y in Get(r.children, k) && y !in Get(p.children, k) ==> (k == parent && y == child) || y in Get(ac, k)
  }

  /** Every edge `r` has and `p` lacks is an edge of the arch or lists one of `ids` under `parent`. */
  ghost predicate EdgesWithin(p: State, r: State, ac: Links, parent: Id, ids: seq<Id>)
  {
    && (forall k, y :: y in Get(r.children, k) && y !in Get(p.children, k) && k != parent ==> y in Get(ac, k))
    && (forall y :: y in Get(r.children, parent) && y !in Get(p.children, parent) ==> y in ids || y in Get(ac, parent))
  }

  /**
   * `injectSubArch`: when `parent` is in the plan and neither id is done,
   * links `child` under `parent`, injects every arch child of `child` under
   * it, and refactors the queue with the leaves below `child`. The source has
   * no loop guard; `fuel` bounds the depth of the recursion.
   */
  function InjectSubArch(p: State, ac: Links, child: Id, parent: Id, fuel: nat): (r: State)
    ensures SameJobState(p, r)
    ensures fuel == 0 || parent !in p.parents || child in p.doneJobs || parent in p.doneJobs ==> r == p
    ensures JobsOk(p) ==> JobsOk(r)
    decreases fuel, 0, 0
  {
    if fuel > 0 && parent in p.parents && child !in p.doneJobs && parent !in p.doneJobs then
      var p1 := LinkEdge(p, child, parent);
      var p2 := InjectEach(p1, ac, child, Get(ac, child), 0, Spend(fuel));
      RefactorBelow(p2, ac, child)
    else p
  }

  /** The last step of `injectSubArch`: the queue refactored with the leaves below `x`. */
  function RefactorBelow(p: State, ac: Links, x: Id): (r: State)
    ensures r == p.(jobs := r.jobs)
    ensures JobsOk(p) ==> JobsOk(r)
  {
    RefactorJobs(p, CollectLeaves(ac, p.doneJobs, x))
  }

  /** The `forEach` of `injectSubArch`: injects `ids[i..]` under `parent`, in order. */
  function InjectEach(p: State, ac: Links, parent: Id, ids: seq<Id>, i: nat, fuel: nat): (r: State)
    requires i <= |ids|
    ensures SameJobState(p, r)
    ensures JobsOk(p) ==> JobsOk(r)
    decreases fuel, 1, |ids| - i
  {
    if i == |ids| then p
    else InjectEach(InjectSubArch(p, ac, ids[i], parent, fuel), ac, parent, ids, i + 1, fuel)
  }

  /**
   * `link`: injects every child under every parent, children in the outer
   * loop; without parents the plan root is the parent.
   */
  function Link(p: State, ac: Links, children: seq<Id>, parents: IdArg, fuel: nat): (r: State)
    ensures SameJobState(p, r)
    ensures JobsOk(p) ==> JobsOk(r)
  {
    LinkAll(p, ac, children, if parents.Absent? then [p.root] else ToArray(parents), fuel)
  }

  /** The two nested loops of `link`. */
  function LinkAll(p: State, ac: Links, children: seq<Id>, parents: seq<Id>, fuel: nat): (r: State)
    ensures SameJobState(p, r)
    ensures JobsOk(p) ==> JobsOk(r)
    decreases |children|
  {
    if |children| == 0 then p
    else LinkAll(LinkUnder(p, ac, children[0], parents, fuel), ac, children[1..], parents, fuel)
  }

  /** The inner loop of `link`: injects `child` under each of `parents`. */
  function LinkUnder(p: State, ac: Links, child: Id, parents: seq<Id>, fuel: nat): (r: State)
    ensures SameJobState(p, r)
    ensures JobsOk(p) ==> JobsOk(r)
    decreases |parents|
  {
    if |parents| == 0 then p
    else LinkUnder(InjectSubArch(p, ac, child, parents[0], fuel), ac, child, parents[1..], fuel)
  }

  // ---------------------------------------------------------------------------
  // Construction

  /**
   * `_gatherIDs`: links every arch child of `id` under it and recurses into
   * it. The source has no loop guard; `fuel` bounds the depth.
   */
  function GatherIDs(p: State, ac: Links, id: Id, fuel: nat): (r: State)
    ensures SameJobState(p, r)
    ensures JobsOk(p) ==> JobsOk(r)
    decreases fuel, 0
  {
    if fuel == 0 then p else GatherEach(p, ac, id, Get(ac, id), 0, Spend(fuel))
  }

  /** The loop of `_gatherIDs` over `ids[i..]`, the arch children of `parent`. */
  function GatherEach(p: State, ac: Links, parent: Id, ids: seq<Id>, i: nat, fuel: nat): (r: State)
    requires i <= |ids|
    ensures SameJobState(p, r)
    ensures JobsOk(p) ==> JobsOk(r)
    decreases fuel, 1, |ids| - i
  {
    if i == |ids| then p
    else
      var p1 := Link(p, ac, [ids[i]], One(parent), fuel);
      GatherEach(GatherIDs(p1, ac, ids[i], fuel), ac, parent, ids, i + 1, fuel)
  }

  /** `init`: each distinct target, in order, is linked under the root and its arch subtree gathered. */
  function Init(p: State, ac: Links, targets: seq<Id>, fuel: nat): (r: State)
    ensures SameJobState(p, r)
    ensures JobsOk(p) ==> JobsOk(r)
  {
    InitEach(p, ac, ArrayToObject(targets), fuel)
  }

  /** The `for … in` loop of `init` over the distinct targets. */
  function InitEach(p: State, ac: Links, ids: seq<Id>, fuel: nat): (r: State)
    ensures SameJobState(p, r)
    ensures JobsOk(p) ==> JobsOk(r)
    decreases |ids|
  {
    if |ids| == 0 then p
    else InitEach(GatherIDs(Link(p, ac, [ids[0]], Absent, fuel), ac, ids[0], fuel), ac, ids[1..], fuel)
  }

  /** The constructor: an empty plan rooted at `root`, initialised with `targets`. */
  function New(id: PlanId, root: Id, ac: Links, targets: seq<Id>, fuel: nat): (r: State)
    ensures r.id == id && r.root == root
    ensures r.activeJobs == [] && r.doneJobs == [] && r.locked == 0 && !r.failed
    ensures JobsOk(r)
  {
    Init(Empty(id, root), ac, targets, fuel)
  }
}

=== FILE: plan_build.dfy ===
/**
 * Properties of `link`, `_gatherIDs`, `init` and the constructor: they keep
 * the plan valid, only ever add edges, link every requested child under every
 * requested parent, and add no edge the arch does not have except those the
 * caller asked for.
 */
module PlanBuild {
  import opened Util
  import opened Plan
  import opened PlanLinks

  /** Every edge `r` has and `p` lacks is an arch edge or lists one of `cs` under one of `ps`. */
  ghost predicate AddsOnly(p: State, r: State, ac: Links, cs: seq<Id>, ps: seq<Id>)
  {
    forall k, y :: y in Get(r.children, k) && y !in Get(p.children, k) ==> y in Get(ac, k) || Requested(k, y, cs, ps)
  }

  /** The edge `k -> y` lists one of `cs` under one of `ps`. */
  predicate Requested(k: Id, y: Id, cs: seq<Id>, ps: seq<Id>)
  {
    k in ps && y in cs
  }

  /** An edge of `p` is still an edge of any state that extends it. */
  lemma ExtendsEdge(p: State, r: State, k: Id, y: Id)
    requires Extends(p, r) && y in Get(p.children, k)
    ensures y in Get(r.children, k)
  {
    assert k in p.children;
  }

  /** `AddsOnly` composes along a sequence of steps. */
  lemma AddsOnlyTrans(p: State, q: State, r: State, ac: Links, cs: seq<Id>, ps: seq<Id>)
    requires AddsOnly(p, q, ac, cs, ps) && AddsOnly(q, r, ac, cs, ps)
    ensures AddsOnly(p, r, ac, cs, ps)
  {
    forall k, y | y in Get(r.children, k) && y !in Get(p.children, k)
      ensures y in Get(ac, k) || Requested(k, y, cs, ps)
    {
      if y in Get(q.children, k) {
      }
    }
  }

  /** `AddsOnly` allows more once the requested children and parents grow. */
  lemma AddsOnlyWiden(p: State, r: State, ac: Links, cs: seq<Id>, ps: seq<Id>, cs': seq<Id>, ps': seq<Id>)
    requires AddsOnly(p, r, ac, cs, ps)
    requires forall x :: x in cs ==> x in cs'
    requires forall x :: x in ps ==> x in ps'
    ensures AddsOnly(p, r, ac, cs', ps')
  {
  }

  // ---------------------------------------------------------------------------
  // link

  /** The inner loop of `link` keeps every edge. */
  lemma {:induction false} LinkUnderExtends(p: State, ac: Links, child: Id, parents: seq<Id>, fuel: nat)
    ensures Extends(p, LinkUnder(p, ac, child, parents, fuel))
    decreases |parents|
  {
    if |parents| == 0 {
      ExtendsRefl(p);
    } else {
      var q := InjectSubArch(p, ac, child, parents[0], fuel);
      InjectExtends(p, ac, child, parents[0], fuel);
      LinkUnderExtends(q, ac, child, parents[1..], fuel);
      ExtendsTrans(p, q, LinkUnder(q, ac, child, parents[1..], fuel));
    }
  }

  /** The inner loop of `link` lists `child` under each parent that is in the plan and not done. */
  lemma {:induction false} LinkUnderEdges(p: State, ac: Links, child: Id, parents: seq<Id>, fuel: nat)
    ensures forall j :: 0 <= j < |parents| && fuel > 0 && parents[j] in p.parents && child !in p.doneJobs && parents[j] !in p.doneJobs ==>
      child in Get(LinkUnder(p, ac, child, parents, fuel).children, parents[j])
    decreases |parents|
  {
    if |parents| > 0 {
      var q := InjectSubArch(p, ac, child, parents[0], fuel);
      var rest := parents[1..];
      var r := LinkUnder(q, ac, child, rest, fuel);
      InjectExtends(p, ac, child, parents[0], fuel);
      LinkUnderExtends(q, ac, child, rest, fuel);
      LinkUnderEdges(q, ac, child, rest, fuel);
      forall j | 0 <= j < |parents| && fuel > 0 && parents[j] in p.parents && child !in p.doneJobs && parents[j] !in p.doneJobs
        ensures child in Get(r.children, parents[j])
      {
        if j == 0 {
          ExtendsEdge(q, r, parents[0], child);
        } else {
          assert parents[j] == rest[j - 1];
        }
      }
    }
  }

  /** The inner loop of `link` adds only arch edges and edges from one of `parents` to `child`. */
  lemma {:induction false} LinkUnderAdds(p: State, ac: Links, child: Id, parents: seq<Id>, fuel: nat)
    ensures AddsOnly(p, LinkUnder(p, ac, child, parents, fuel), ac, [child], parents)
    decreases |parents|
  {
    if |parents| > 0 {
      var q := InjectSubArch(p, ac, child, parents[0], fuel);
      var rest := parents[1..];
      InjectNewEdges(p, ac, child, parents[0], fuel);
      assert AddsOnly(p, q, ac, [child], parents);
      LinkUnderAdds(q, ac, child, rest, fuel);
      AddsOnlyWiden(q, LinkUnder(q, ac, child, rest, fuel), ac, [child], rest, [child], parents);
      AddsOnlyTrans(p, q, LinkUnder(q, ac, child, rest, fuel), ac, [child], parents);
    }
  }

  /** The inner loop of `link` keeps a valid plan valid. */
  lemma {:induction false} LinkUnderValid(p: State, ac: Links, child: Id, parents: seq<Id>, fuel: nat)
    requires Valid(p)
    ensures Valid(LinkUnder(p, ac, child, parents, fuel))
    decreases |parents|
  {
    if |parents| > 0 {
      InjectValid(p, ac, child, parents[0], fuel);
      LinkUnderValid(InjectSubArch(p, ac, child, parents[0], fuel), ac, child, parents[1..], fuel);
    }
  }

  /** Both loops of `link` keep every edge. */
  lemma {:induction false} LinkAllExtends(p: State, ac: Links, children: seq<Id>, parents: seq<Id>, fuel: nat)
    ensures Extends(p, LinkAll(p, ac, children, parents, fuel))
    decreases |children|
  {
    if |children| == 0 {
      ExtendsRefl(p);
    } else {
      var q := LinkUnder(p, ac, children[0], parents, fuel);
      LinkUnderExtends(p, ac, children[0], parents, fuel);
      LinkAllExtends(q, ac, children[1..], parents, fuel);
      ExtendsTrans(p, q, LinkAll(q, ac, children[1..], parents, fuel));
    }
  }

  /**
   * `link` lists every child under every parent that is in the plan, when
   * neither is done.
   */
  lemma {:induction false} LinkAllEdges(p: State, ac: Links, children: seq<Id>, parents: seq<Id>, fuel: nat)
    ensures forall i, j :: (0 <= i < |children| && 0 <= j < |parents| && fuel > 0 &&
      parents[j] in p.parents && children[i] !in p.doneJobs && parents[j] !in p.doneJobs) ==>
      children[i] in Get(LinkAll(p, ac, children, parents, fuel).children, parents[j])
    decreases |children|
  {
    if |children| > 0 {
      var q := LinkUnder(p, ac, children[0], parents, fuel);
      var rest := children[1..];
      var r := LinkAll(q, ac, rest, parents, fuel);
      LinkUnderExtends(p, ac, children[0], parents, fuel);
      LinkUnderEdges(p, ac, children[0], parents, fuel);
      LinkAllExtends(q, ac, rest, parents, fuel);
      LinkAllEdges(q, ac, rest, parents, fuel);
      forall i, j | 0 <= i < |children| && 0 <= j < |parents| && fuel > 0 &&
        parents[j] in p.parents && children[i] !in p.doneJobs && parents[j] !in p.doneJobs
        ensures children[i] in Get(r.children, parents[j])
      {
        if i == 0 {
          ExtendsEdge(q, r, parents[j], children[0]);
        } else {
          assert children[i] == rest[i - 1];
        }
      }
    }
  }

  /** `link` adds only arch edges and edges from one of `parents` to one of `children`. */
  lemma {:induction false} LinkAllAdds(p: State, ac: Links, children: seq<Id>, parents: seq<Id>, fuel: nat)
    ensures AddsOnly(p, LinkAll(p, ac, children, parents, fuel), ac, children, parents)
    decreases |children|
  {
    if |children| > 0 {
      var q := LinkUnder(p, ac, children[0], parents, fuel);
      var rest := children[1..];
      var r := LinkAll(q, ac, rest, parents, fuel);
      LinkUnderAdds(p, ac, children[0], parents, fuel);
      AddsOnlyWiden(p, q, ac, [children[0]], parents, children, parents);
      LinkAllAdds(q, ac, rest, parents, fuel);
      AddsOnlyWiden(q, r, ac, rest, parents, children, parents);
      AddsOnlyTrans(p, q, r, ac, children, parents);
    }
  }

  /** Both loops of `link` keep a valid plan valid. */
  lemma {:induction false} LinkAllValid(p: State, ac: Links, children: seq<Id>, parents: seq<Id>, fuel: nat)
    requires Valid(p)
    ensures Valid(LinkAll(p, ac, children, parents, fuel))
    decreases |children|
  {
    if |children| > 0 {
      LinkUnderValid(p, ac, children[0], parents, fuel);
      LinkAllValid(LinkUnder(p, ac, children[0], parents, fuel), ac, children[1..], parents, fuel);
    }
  }

  /**
   * `link`: the plan stays valid and keeps its edges, every child ends up
   * under every parent (the root when none is given) that is in the plan
   * and not done, and no other edge is added except arch edges.
   */
  lemma LinkProperties(p: State, ac: Links, children: seq<Id>, parents: IdArg, fuel: nat)
    ensures var r := Link(p, ac, children, parents, fuel);
      var ps := if parents.Absent? then [p.root] else ToArray(parents);
      && Extends(p, r)
      && (Valid(p) ==> Valid(r))
      && AddsOnly(p, r, ac, children, ps)
      && (forall i, j :: (0 <= i < |children| && 0 <= j < |ps| && fuel > 0 &&
            ps[j] in p.parents && children[i] !in p.doneJobs && ps[j] !in p.doneJobs) ==>
            children[i] in Get(r.children, ps[j]))
  {
    var ps := if parents.Absent? then [p.root] else ToArray(parents);
    LinkAllExtends(p, ac, children, ps, fuel);
    if Valid(p) {
      LinkAllValid(p, ac, children, ps, fuel);
    }
    LinkAllAdds(p, ac, children, ps, fuel);
    LinkAllEdges(p, ac, children, ps, fuel);
  }

  /** `link` of one child under the root, or under one parent, is one `injectSubArch`. */
  lemma LinkOne(p: State, ac: Links, c: Id, parents: IdArg, fuel: nat)
    requires parents.Absent? || parents.One?
    ensures Link(p, ac, [c], parents, fuel) == InjectSubArch(p, ac, c, if parents.Absent? then p.root else parents.id, fuel)
  {
    var q := if parents.Absent? then p.root else parents.id;
    assert (if parents.Absent? then [p.root] else ToArray(parents)) == [q];
    var p1 := InjectSubArch(p, ac, c, q, fuel);
    assert [q][1..] == [];
    assert LinkUnder(p, ac, c, [q], fuel) == LinkUnder(p1, ac, c, [], fuel) == p1;
    assert [c][1..] == [];
    assert LinkAll(p, ac, [c], [q], fuel) == LinkAll(p1, ac, [], [q], fuel) == p1;
  }

  /** Edges that list a child under a parent the arch lists it under are arch edges. */
  lemma AddsOnlyArch(p: State, r: State, ac: Links, c: Id, q: Id)
    requires AddsOnly(p, r, ac, [c], [q]) && c in Get(ac, q)
    ensures AddsOnly(p, r, ac, [], [])
  {
  }

  // ---------------------------------------------------------------------------
  // _gatherIDs

  /** One unfolding of `_gatherIDs`. */
  lemma GatherUnfold(p: State, ac: Links, id: Id, fuel: nat)
    requires fuel > 0
    ensures GatherIDs(p, ac, id, fuel) == GatherEach(p, ac, id, Get(ac, id), 0, Spend(fuel))
  {
  }

  lemma ExtendsEq(p: State, x: State, y: State)
    requires Extends(p, x) && x == y
    ensures Extends(p, y)
  {
  }

  lemma ValidEq(x: State, y: State)
    requires Valid(x) && x == y
    ensures Valid(y)
  {
  }

  lemma AddsOnlyEq(p: State, x: State, y: State, ac: Links)
    requires AddsOnly(p, x, ac, [], []) && x == y
    ensures AddsOnly(p, y, ac, [], [])
  {
  }

  /** `_gatherIDs` keeps every edge. */
  lemma {:induction false} GatherExtends(p: State, ac: Links, id: Id, fuel: nat)
    ensures Extends(p, GatherIDs(p, ac, id, fuel))
    decreases fuel, 0
  {
    if fuel == 0 {
      ExtendsRefl(p);
    } else {
      var ids := Get(ac, id);
      var f := Spend(fuel);
      GatherEachExtends(p, ac, id, ids, 0, f);
      GatherUnfold(p, ac, id, fuel);
      ExtendsEq(p, GatherEach(p, ac, id, ids, 0, f), GatherIDs(p, ac, id, fuel));
    }
  }

  /** The loop of `_gatherIDs` keeps every edge. */
  lemma {:induction false} GatherEachExtends(p: State, ac: Links, parent: Id, ids: seq<Id>, i: nat, fuel: nat)
    requires i <= |ids|
    ensures Extends(p, GatherEach(p, ac, parent, ids, i, fuel))
    decreases fuel, 1, |ids| - i
  {
    if i == |ids| {
      ExtendsRefl(p);
    } else {
      var p1 := Link(p, ac, [ids[i]], One(parent), fuel);
      var p2 := GatherIDs(p1, ac, ids[i], fuel);
      LinkProperties(p, ac, [ids[i]], One(parent), fuel);
      GatherExtends(p1, ac, ids[i], fuel);
      GatherEachExtends(p2, ac, parent, ids, i + 1, fuel);
      ExtendsTrans(p, p1, p2);
      ExtendsTrans(p, p2, GatherEach(p2, ac, parent, ids, i + 1, fuel));
    }
  }

  /** `_gatherIDs` keeps a valid plan valid. */
  lemma {:induction false} GatherValid(p: State, ac: Links, id: Id, fuel: nat)
    requires Valid(p)
    ensures Valid(GatherIDs(p, ac, id, fuel))
    decreases fuel, 0
  {
    if fuel == 0 {
      assert GatherIDs(p, ac, id, fuel) == p;
      ValidEq(p, GatherIDs(p, ac, id, fuel));
    } else {
      GatherEachValid(p, ac, id, Get(ac, id), 0, Spend(fuel));
      GatherUnfold(p, ac, id, fuel);
      ValidEq(GatherEach(p, ac, id, Get(ac, id), 0, Spend(fuel)), GatherIDs(p, ac, id, fuel));
    }
  }

  /** The loop of `_gatherIDs` keeps a valid plan valid. */
  lemma {:induction false} GatherEachValid(p: State, ac: Links, parent: Id, ids: seq<Id>, i: nat, fuel: nat)
    requires i <= |ids|
    requires Valid(p)
    ensures Valid(GatherEach(p, ac, parent, ids, i, fuel))
    decreases fuel, 1, |ids| - i
  {
    if i < |ids| {
      var p1 := Link(p, ac, [ids[i]], One(parent), fuel);
      LinkProperties(p, ac, [ids[i]], One(parent), fuel);
      GatherValid(p1, ac, ids[i], fuel);
      GatherEachValid(GatherIDs(p1, ac, ids[i], fuel), ac, parent, ids, i + 1, fuel);
    }
  }

  /** `_gatherIDs` adds arch edges only. */
  lemma {:induction false} GatherAdds(p: State, ac: Links, id: Id, fuel: nat)
    ensures AddsOnly(p, GatherIDs(p, ac, id, fuel), ac, [], [])
    decreases fuel, 0
  {
    if fuel > 0 {
      var ids := Get(ac, id);
      var f := Spend(fuel);
      GatherEachAdds(p, ac, id, ids, 0, f);
      GatherUnfold(p, ac, id, fuel);
      AddsOnlyEq(p, GatherEach(p, ac, id, ids, 0, f), GatherIDs(p, ac, id, fuel), ac);
    }
  }

  /** The loop of `_gatherIDs` over arch children of `parent` adds arch edges only. */
  lemma {:induction false} GatherEachAdds(p: State, ac: Links, parent: Id, ids: seq<Id>, i: nat, fuel: nat)
    requires i <= |ids|
    requires forall x :: x in ids ==> x in Get(ac, parent)
    ensures AddsOnly(p, GatherEach(p, ac, parent, ids, i, fuel), ac, [], [])
    decreases fuel, 1, |ids| - i
  {
    if i < |ids| {
      var p1 := Link(p, ac, [ids[i]], One(parent), fuel);
      var p2 := GatherIDs(p1, ac, ids[i], fuel);
      LinkProperties(p, ac, [ids[i]], One(parent), fuel);
      assert ToArray(One(parent)) == [parent];
      AddsOnlyArch(p, p1, ac, ids[i], parent);
      GatherAdds(p1, ac, ids[i], fuel);
      AddsOnlyTrans(p, p1, p2, ac, [], []);
      GatherEachAdds(p2, ac, parent, ids, i + 1, fuel);
      AddsOnlyTrans(p, p2, GatherEach(p2, ac, parent, ids, i + 1, fuel), ac, [], []);
    }
  }

  // ---------------------------------------------------------------------------
  // init and the constructor

  /** One round of `init`: `id` linked under the root, then its arch subtree gathered. */
  lemma InitStep(p: State, ac: Links, id: Id, fuel: nat)
    ensures var r := GatherIDs(Link(p, ac, [id], Absent, fuel), ac, id, fuel);
      && r.root == p.root && r.doneJobs == p.doneJobs
      && Extends(p, r)
      && (Valid(p) ==> Valid(r))
      && AddsOnly(p, r, ac, [id], [p.root])
      && (fuel > 0 && p.root in p.parents && id !in p.doneJobs && p.root !in p.doneJobs ==> id in Get(r.children, p.root))
  {
    var p1 := Link(p, ac, [id], Absent, fuel);
    var r := GatherIDs(p1, ac, id, fuel);
    LinkProperties(p, ac, [id], Absent, fuel);
    GatherExtends(p1, ac, id, fuel);
    ExtendsTrans(p, p1, r);
    if Valid(p) {
      GatherValid(p1, ac, id, fuel);
    }
    GatherAdds(p1, ac, id, fuel);
    AddsOnlyWiden(p1, r, ac, [], [], [id], [p.root]);
    AddsOnlyTrans(p, p1, r, ac, [id], [p.root]);
    if fuel > 0 && p.root in p.parents && id !in p.doneJobs && p.root !in p.doneJobs {
      assert [id][0] == id && [p.root][0] == p.root;
      ExtendsEdge(p1, r, p.root, id);
    }
  }

  /**
   * The loop of `init`: keeps the plan valid and its edges, lists every id
   * under the root, and adds no other edge except arch edges.
   */
  lemma {:induction false} InitEachProperties(p: State, ac: Links, ids: seq<Id>, fuel: nat)
    ensures var r := InitEach(p, ac, ids, fuel);
      && Extends(p, r)
      && (Valid(p) ==> Valid(r))
      && AddsOnly(p, r, ac, ids, [p.root])
      && (fuel > 0 && p.root in p.parents && p.root !in p.doneJobs ==>
            forall t :: t in ids && t !in p.doneJobs ==> t in Get(r.children, p.root))
    decreases |ids|
  {
    if |ids| == 0 {
      ExtendsRefl(p);
    } else {
      var q := GatherIDs(Link(p, ac, [ids[0]], Absent, fuel), ac, ids[0], fuel);
      var rest := ids[1..];
      var r := InitEach(q, ac, rest, fuel);
      InitStep(p, ac, ids[0], fuel);
      InitEachProperties(q, ac, rest, fuel);
      ExtendsTrans(p, q, r);
      AddsOnlyWiden(p, q, ac, [ids[0]], [p.root], ids, [p.root]);
      AddsOnlyWiden(q, r, ac, rest, [p.root], ids, [p.root]);
      AddsOnlyTrans(p, q, r, ac, ids, [p.root]);
      if fuel > 0 && p.root in p.parents && p.root !in p.doneJobs {
        forall t | t in ids && t !in p.doneJobs
          ensures t in Get(r.children, p.root)
        {
          if t == ids[0] {
            ExtendsEdge(q, r, p.root, t);
          } else {
            assert t in rest;
          }
        }
      }
    }
  }

  /** Every edge of `p` is an edge of `ac` or an edge from the root to one of `targets`. */
  ghost predicate EdgesFrom(p: State, ac: Links, targets: seq<Id>)
  {
    forall k, y :: y in Get(p.children, k) ==> y in Get(ac, k) || (k == p.root && y in targets)
  }

  /**
   * The constructor builds a valid plan in which, given any fuel, every
   * target is a child of the root, and every edge is an arch edge or an
   * edge from the root to a target.
   */
  lemma NewPlan(id: PlanId, root: Id, ac: Links, targets: seq<Id>, fuel: nat)
    ensures var r := New(id, root, ac, targets, fuel);
      && Valid(r)
      && (fuel > 0 ==> forall t :: t in targets ==> t in Get(r.children, root))
      && EdgesFrom(r, ac, targets)
  {
    var e := Empty(id, root);
    var ids := ArrayToObject(targets);
    InitEachProperties(e, ac, ids, fuel);
    var r := New(id, root, ac, targets, fuel);
    forall k, y | y in Get(r.children, k)
      ensures y in Get(ac, k) || (k == root && y in targets)
    {
      assert Get(e.children, k) == [];
      if y !in Get(ac, k) {
        assert Requested(k, y, ids, [root]);
      }
    }
  }
}

=== FILE: plan_done.dfy ===
/**
 * Properties of the plan's `onJobDone`: on a valid plan, a finished leaf job
 * leaves every list it was in, its parents left without children are queued
 * (the root excepted), and the plan stays valid.
 */
module PlanFinish {
  import opened Util
  import opened Asserts
  import opened Plan
  import opened PlanEdit

  /** Every parent in `ps[i..]` has a children entry that lists `x`. */
  predicate ListsChild(p: State, x: Id, ps: seq<Id>, i: nat)
    requires i <= |ps|
  {
    forall j :: i <= j < |ps| ==> ps[j] in p.children && x in p.children[ps[j]]
  }

  /** The children table after `x` leaves the lists of `ps`. */
  predicate Released(m: Links, r: Links, x: Id, ps: seq<Id>)
  {
    forall k :: k in m ==> k in r && r[k] == (if k in ps then RemoveFirst(m[k], x) else m[k])
  }

  /**
   * When every parent in `ps[i..]` lists `x` as a child, the loop succeeds
   * and takes `x` out of exactly those lists.
   */
  lemma {:induction false} ReleaseChildren(p: State, x: Id, ps: seq<Id>, i: nat)
    requires i <= |ps| && NoDup(ps) && ListsChild(p, x, ps, i)
    ensures ReleaseParents(p, x, ps, i).Ok?
    ensures Released(p.children, ReleaseParents(p, x, ps, i).value.children, x, ps[i..])
    decreases |ps| - i
  {
    if i < |ps| {
      ReleaseOneKeeps(p, x, ps, i);
      ReleaseChildren(ReleaseOne(p, x, ps[i]), x, ps, i + 1);
      ReleaseChildrenStep(p, x, ps, i);
    }
  }

  /** The lists the remaining turns of the loop need are untouched by the current turn. */
  lemma ReleaseOneKeeps(p: State, x: Id, ps: seq<Id>, i: nat)
    requires i < |ps| && NoDup(ps) && ListsChild(p, x, ps, i)
    ensures ListsChild(ReleaseOne(p, x, ps[i]), x, ps, i + 1)
  {
    forall j | i + 1 <= j < |ps|
      ensures ps[j] != ps[i]
    {
    }
  }

  /** Composes the current turn of the loop with the turns after it, for the children table. */
  lemma ReleaseChildrenStep(p: State, x: Id, ps: seq<Id>, i: nat)
    requires i < |ps| && NoDup(ps) && ListsChild(p, x, ps, i)
    requires ReleaseParents(ReleaseOne(p, x, ps[i]), x, ps, i + 1).Ok?
    requires Released(ReleaseOne(p, x, ps[i]).children,
                      ReleaseParents(ReleaseOne(p, x, ps[i]), x, ps, i + 1).value.children, x, ps[i + 1..])
    ensures ReleaseParents(p, x, ps, i).Ok?
    ensures Released(p.children, ReleaseParents(p, x, ps, i).value.children, x, ps[i..])
  {
    ReleasedCompose(p.children, ReleaseOne(p, x, ps[i]).children,
                    ReleaseParents(ReleaseOne(p, x, ps[i]), x, ps, i + 1).value.children, x, ps, i);
  }

  /** On the tables alone: splicing `x` out under `ps[i]`, then out of `ps[i + 1..]`, releases `ps[i..]`. */
  lemma ReleasedCompose(m: Links, m1: Links, r: Links, x: Id, ps: seq<Id>, i: nat)
    requires i < |ps| && NoDup(ps) && ps[i] in m && x in m[ps[i]]
    requires m1 == m[ps[i] := SpliceIndexOf(m[ps[i]], x)]
    requires Released(m1, r, x, ps[i + 1..])
    ensures Released(m, r, x, ps[i..])
  {
    assert ps[i..] == [ps[i]] + ps[i + 1..];
    assert ps[i] !in ps[i + 1..];
  }

  /** Whether `y` is one of `ps`, other than the root, neither done nor active, with `x` as its only child. */
  predicate Freed(p: State, x: Id, ps: seq<Id>, y: Id)
  {
    && y in ps && y != p.root && y !in p.doneJobs && y !in p.activeJobs
    && y in p.children && |p.children[y]| == 1
  }

  /**
   * When every parent in `ps[i..]` lists `x` as a child, the loop queues
   * exactly the parents that `x` was the only child of, the root and done
   * or active ids excepted.
   */
  lemma {:induction false} ReleaseJobs(p: State, x: Id, ps: seq<Id>, i: nat)
    requires i <= |ps| && NoDup(ps) && ListsChild(p, x, ps, i)
    ensures ReleaseParents(p, x, ps, i).Ok?
    ensures forall y :: y in ReleaseParents(p, x, ps, i).value.jobs <==> (y in p.jobs || Freed(p, x, ps[i..], y))
    decreases |ps| - i
  {
    ReleaseChildren(p, x, ps, i);
    if i < |ps| {
      ReleaseOneKeeps(p, x, ps, i);
      ReleaseJobs(ReleaseOne(p, x, ps[i]), x, ps, i + 1);
      JobsCompose(p, ReleaseOne(p, x, ps[i]), ReleaseParents(ReleaseOne(p, x, ps[i]), x, ps, i + 1).value.jobs, x, ps, i);
    }
  }

  /** On the queue alone: the current turn's queueing composed with the turns after it. */
  lemma JobsCompose(p: State, p1: State, rj: seq<Id>, x: Id, ps: seq<Id>, i: nat)
    requires i < |ps| && NoDup(ps) && ps[i] in p.children && x in p.children[ps[i]]
    requires p1.root == p.root && p1.doneJobs == p.doneJobs && p1.activeJobs == p.activeJobs
    requires p1.children == p.children[ps[i] := SpliceIndexOf(p.children[ps[i]], x)]
    requires forall y :: y in p1.jobs <==> (y in p.jobs || (y == ps[i] && ps[i] != p.root &&
      |SpliceIndexOf(p.children[ps[i]], x)| == 0 && ps[i] !in p.doneJobs && ps[i] !in p.activeJobs))
    requires forall y :: y in rj <==> (y in p1.jobs || Freed(p1, x, ps[i + 1..], y))
    ensures forall y :: y in rj <==> (y in p.jobs || Freed(p, x, ps[i..], y))
  {
    assert ps[i..] == [ps[i]] + ps[i + 1..];
    assert ps[i] !in ps[i + 1..];
    forall y
      ensures y in rj <==> (y in p.jobs || Freed(p, x, ps[i..], y))
    {
      if y != ps[i] && y in ps[i + 1..] && y in p.children {
        assert p1.children[y] == p.children[y];
      }
    }
  }

  /**
   * `onJobDone` of an active leaf job other than the root keeps a valid
   * plan valid: `x` leaves every list, and the queue gains exactly the
   * parents that `x` was the only child of, the root and done or active ids
   * excepted.
   */
  lemma OnJobDoneValid(p: State, archNodes: set<Id>, x: Id)
    requires Valid(p) && x in archNodes && x in p.parents && x != p.root
    requires x in p.activeJobs && Get(p.children, x) == []
    ensures var r := OnJobDone(p, archNodes, x);
      && (r.Ok? ==> Valid(r.value))
      && (r.Ok? ==> forall k :: k in r.value.children ==> r.value.children[k] == RemoveFirst(p.children[k], x))
      && (r.Ok? ==> forall y :: y in r.value.jobs <==> (y in p.jobs || Freed(p, x, p.parents[x], y)))
  {
    assert ListsChild(p, x, p.parents[x], 0);
    ReleaseChildren(p, x, p.parents[x], 0);
    ReleaseJobs(p, x, p.parents[x], 0);
    assert p.parents[x][0..] == p.parents[x];
    DoneResult(p, archNodes, x);
  }

  /** Carries the facts about the released state over to the result of `onJobDone`. */
  lemma DoneResult(p: State, archNodes: set<Id>, x: Id)
    requires Valid(p) && x in archNodes && x in p.parents && x != p.root && x in p.activeJobs && Get(p.children, x) == []
    requires ReleaseParents(p, x, p.parents[x], 0).Ok?
    requires Released(p.children, ReleaseParents(p, x, p.parents[x], 0).value.children, x, p.parents[x])
    ensures var r := OnJobDone(p, archNodes, x);
      && (r.Ok? ==> Valid(r.value))
      && (r.Ok? ==> forall k :: k in r.value.children ==> r.value.children[k] == RemoveFirst(p.children[k], x))
      && (r.Ok? ==> r.value.jobs == ReleaseParents(p, x, p.parents[x], 0).value.jobs)
  {
    DoneState(p, x, ReleaseParents(p, x, p.parents[x], 0).value);
  }

  /** The state `onJobDone` builds once the loop over the parents of `x` has released it. */
  lemma DoneState(p: State, x: Id, q: State)
    requires Valid(p) && x in p.parents && x != p.root && x in p.activeJobs && Get(p.children, x) == []
    requires q == p.(children := q.children, jobs := q.jobs) && JobsOk(q)
    requires Released(p.children, q.children, x, p.parents[x]) && q.children.Keys == p.children.Keys
    ensures var d := q.(parents := q.parents - {x}, children := q.children - {x},
                        activeJobs := SpliceIndexOf(q.activeJobs, x), doneJobs := q.doneJobs + [x]);
      && Valid(d)
      && forall k :: k in d.children ==> d.children[k] == RemoveFirst(p.children[k], x)
  {
    var d := q.(parents := q.parents - {x}, children := q.children - {x},
                activeJobs := SpliceIndexOf(q.activeJobs, x), doneJobs := q.doneJobs + [x]);
    forall k | k in d.children
      ensures d.children[k] == RemoveFirst(p.children[k], x)
    {
      if k !in p.parents[x] {
        assert x !in p.children[k];
      }
    }
    forall k | k in d.parents
      ensures d.parents[k] == RemoveFirst(p.parents[k], x)
    {
      assert x !in p.parents[k];
    }
    RemoveEverywhere(p.parents, p.children, d.parents, d.children, x);
    assert x !in q.jobs;
    assert x !in d.activeJobs;
  }
}

=== FILE: plan_edit.dfy ===
/**
 * The plan operations that take edges and nodes out again, or finish a job:
 * `hasParents`/`hasChildren`, `unlink`, `removeNode`, `removeTree`,
 * `onJobDone` and `onJobFail` of lib/plan.js.
 */
module PlanEdit {
  import opened Util
  import opened Asserts
  import opened Plan

  // ---------------------------------------------------------------------------
  // Queries

  /**
   * `hasParents`: `id` must be in the plan; then whether the given ids are
   * all parents of it. A missing argument is wrapped as `[undefined]`, which
   * no list holds, and an empty array is answered false.
   */
  function HasParents(p: State, id: Id, parents: IdArg): (r: Result<bool>)
    ensures r.Err? <==> id !in p.parents
    ensures r.Err? ==> r.error == UnknownId(id)
    ensures r.Ok? ==> (r.value <==> Given(parents) && |ToArray(parents)| > 0 &&
                                     forall y :: y in ToArray(parents) ==> y in Get(p.parents, id))
  {
    var c := HasId(id, p.parents.Keys);
    if c.Fail? then Err(c.error)
    else Ok(Given(parents) && HasLink(p.HasNode(id), Get(p.parents, id), ToArray(parents)))
  }

  /** `hasChildren`: as `hasParents`, against the children list of `id`. */
  function HasChildren(p: State, id: Id, children: IdArg): (r: Result<bool>)
    ensures r.Err? <==> id !in p.parents
    ensures r.Err? ==> r.error == UnknownId(id)
    ensures r.Ok? ==> (r.value <==> Given(children) && |ToArray(children)| > 0 &&
                                     forall y :: y in ToArray(children) ==> y in Get(p.children, id))
  {
    var c := HasId(id, p.parents.Keys);
    if c.Fail? then Err(c.error)
    else Ok(Given(children) && HasLink(p.HasNode(id), Get(p.children, id), ToArray(children)))
  }

  // ---------------------------------------------------------------------------
  // unlink

  /**
   * The two `util.unlink` calls of `unlink`: `id2` leaves the parent and
   * child lists of `id1`, then `id1` leaves those of `id2`.
   */
  function UnlinkPair(p: State, id1: Id, id2: Id): (r: State)
    requires id1 in p.parents && id2 in p.parents && id1 in p.children && id2 in p.children
    ensures r == p.(parents := r.parents, children := r.children)
    ensures r.parents.Keys == p.parents.Keys && r.children.Keys == p.children.Keys
  {
    var l1 := Util.Unlink(p.parents[id1], p.children[id1], id2);
    var pa := p.parents[id1 := l1.0];
    var ch := p.children[id1 := l1.1];
    var l2 := Util.Unlink(pa[id2], ch[id2], id1);
    p.(parents := pa[id2 := l2.0], children := ch[id2 := l2.1])
  }

  /**
   * `unlink`: both ids must be in the plan. The edge between them is removed
   * in both directions; an id left without parents is linked under the root
   * again; then both ids are rescanned.
   */
  function Unlink(p: State, ac: Links, id1: Id, id2: Id, fuel: nat): (r: Result<State>)
    ensures r.Err? <==> id1 !in p.parents || id2 !in p.parents || id1 !in p.children || id2 !in p.children
    ensures id1 !in p.parents ==> r == Err(UnknownId(id1))
    ensures r.Ok? ==> SameJobState(p, r.value)
    ensures r.Ok? && JobsOk(p) ==> JobsOk(r.value)
  {
    if id1 !in p.parents then Err(UnknownId(id1))
    else if id2 !in p.parents then Err(UnknownId(id2))
    else if id1 !in p.children then Err(NoEntry(id1))
    else if id2 !in p.children then Err(NoEntry(id2))
    else
      var q := UnlinkPair(p, id1, id2);
      Ok(RescanJobs(Relink(q, ac, id1, id2, fuel), [id1, id2]))
  }

  /** The two re-link steps of `unlink`: each id left without parents goes under the root again. */
  function Relink(q: State, ac: Links, id1: Id, id2: Id, fuel: nat): (r: State)
    ensures SameJobState(q, r)
    ensures JobsOk(q) ==> JobsOk(r)
  {
    var q1 := if |Get(q.parents, id1)| == 0 then Link(q, ac, [id1], One(q.root), fuel) else q;
    if |Get(q1.parents, id2)| == 0 then Link(q1, ac, [id2], One(q1.root), fuel) else q1
  }

  // ---------------------------------------------------------------------------
  // removeNode

  /**
   * `removeNode`: `x` must be in the plan. It is taken out of both tables
   * and of its neighbours' lists, dropped from the queue, and its former
   * parents are rescanned.
   */
  function RemoveNode(p: State, x: Id): (r: Result<State>)
    ensures r.Err? <==> x !in p.parents
    ensures r.Err? ==> r.error == UnknownId(x)
    ensures r.Ok? ==> r.value.parents.Keys == p.parents.Keys - {x} && r.value.children.Keys == p.children.Keys - {x}
    ensures r.Ok? ==> SameJobState(p, r.value)
    ensures r.Ok? && JobsOk(p) ==> JobsOk(r.value)
  {
    if x !in p.parents then Err(UnknownId(x))
    else
      var t := Util.RemoveNode(p.children, p.parents, x);
      var q := p.(children := t.0, parents := t.1);
      Ok(RescanJobs(RemoveJob(q, x), p.parents[x]))
  }

  // ---------------------------------------------------------------------------
  // removeTree, as written

  /**
   * `removeTree`: `id` must be in the plan. Each child is handed to
   * `_removeTree`, then `id` itself is removed. The loop runs over the live
   * children list of `id`, which the removals shorten as it goes.
   */
  function RemoveTree(p: State, id: Id, forced: bool, fuel: nat): (r: Result<State>)
    ensures id !in p.parents ==> r == Err(UnknownId(id))
    ensures r.Ok? ==> r.value.parents.Keys <= p.parents.Keys - {id}
    ensures r.Ok? ==> SameJobState(p, r.value)
    ensures r.Ok? && JobsOk(p) ==> JobsOk(r.value)
  {
    if id !in p.parents then Err(UnknownId(id))
    else if id !in p.children then Err(NoEntry(id))
    else
      var q := RemoveEachLive(p, id, |p.children[id]|, 0, forced, fuel);
      if q.Err? then q else RemoveNode(q.value, id)
  }

  /**
   * `_removeTree`: a node with exactly one parent, or any node when
   * `forced`, has its children handed down the same way and is then
   * removed. The source has no loop guard; `fuel` bounds the depth.
   */
  function RemoveSubLive(p: State, id: Id, forced: bool, fuel: nat): (r: Result<State>)
    ensures r.Ok? ==> r.value.parents.Keys <= p.parents.Keys
    ensures r.Ok? ==> SameJobState(p, r.value)
    ensures r.Ok? && JobsOk(p) ==> JobsOk(r.value)
    decreases fuel, 0, 0
  {
    if fuel == 0 then Ok(p)
    else if id !in p.parents then Err(NoEntry(id))
    else if |p.parents[id]| == 1 || forced then
      if id !in p.children then Err(NoEntry(id))
      else
        var q := RemoveEachLive(p, id, |p.children[id]|, 0, forced, Spend(fuel));
        if q.Err? then q else RemoveNode(q.value, id)
    else Ok(p)
  }

  /**
   * The `forEach` over the children of `parent`: its length `len` is fixed
   * when the loop starts, and position `i` is read from the list as it is
   * now; a position past the current end is skipped.
   */
  function RemoveEachLive(p: State, parent: Id, len: nat, i: nat, forced: bool, fuel: nat): (r: Result<State>)
    ensures r.Ok? ==> r.value.parents.Keys <= p.parents.Keys
    ensures r.Ok? ==> SameJobState(p, r.value)
    ensures r.Ok? && JobsOk(p) ==> JobsOk(r.value)
    decreases fuel, 1, len - i
  {
    if i >= len then Ok(p)
    else if i >= |Get(p.children, parent)| then RemoveEachLive(p, parent, len, i + 1, forced, fuel)
    else
      var q := RemoveSubLive(p, Get(p.children, parent)[i], forced, fuel);
      if q.Err? then q else RemoveEachLive(q.value, parent, len, i + 1, forced, fuel)
  }

  // ---------------------------------------------------------------------------
  // removeTree, corrected

  /**
   * `removeTree` as its documentation describes it: the loop runs over the
   * children list as it was when the loop started, so a removal does not
   * shift a sibling out of reach.
   */
  function RemoveTreeFixed(p: State, id: Id, forced: bool, fuel: nat): (r: Result<State>)
    ensures id !in p.parents ==> r == Err(UnknownId(id))
    ensures r.Ok? ==> r.value.parents.Keys <= p.parents.Keys - {id}
    ensures r.Ok? ==> SameJobState(p, r.value)
    ensures r.Ok? && JobsOk(p) ==> JobsOk(r.value)
  {
    if id !in p.parents then Err(UnknownId(id))
    else if id !in p.children then Err(NoEntry(id))
    else
      var q := RemoveEachFixed(p, p.children[id], 0, forced, fuel);
      if q.Err? then q else RemoveNode(q.value, id)
  }

  /**
   * `_removeTree` over a snapshot of the children. An id that an earlier
   * sibling's subtree already removed is passed over.
   */
  function RemoveSubFixed(p: State, id: Id, forced: bool, fuel: nat): (r: Result<State>)
    ensures r.Ok? ==> r.value.parents.Keys <= p.parents.Keys
    ensures r.Ok? ==> SameJobState(p, r.value)
    ensures r.Ok? && JobsOk(p) ==> JobsOk(r.value)
    decreases fuel, 0, 0
  {
    if fuel == 0 || id !in p.parents then Ok(p)
    else if |p.parents[id]| == 1 || forced then
      var q := RemoveEachFixed(p, Get(p.children, id), 0, forced, Spend(fuel));
      if q.Err? then q else RemoveNode(q.value, id)
    else Ok(p)
  }

  /** The loop over the snapshot `ids[i..]`. */
  function RemoveEachFixed(p: State, ids: seq<Id>, i: nat, forced: bool, fuel: nat): (r: Result<State>)
    requires i <= |ids|
    ensures r.Ok? ==> r.value.parents.Keys <= p.parents.Keys
    ensures r.Ok? ==> SameJobState(p, r.value)
    ensures r.Ok? && JobsOk(p) ==> JobsOk(r.value)
    decreases fuel, 1, |ids| - i
  {
    if i == |ids| then Ok(p)
    else
      var q := RemoveSubFixed(p, ids[i], forced, fuel);
      if q.Err? then q else RemoveEachFixed(q.value, ids, i + 1, forced, fuel)
  }

  // ---------------------------------------------------------------------------
  // Finishing jobs

  /**
   * `onJobDone`: `x` must be an arch node and in the plan. It leaves the
   * children list of each of its plan-parents, and a parent other than the
   * root left without children is queued; then `x` loses its entries, leaves
   * `activeJobs` and is appended to `doneJobs`. When everything is done,
   * `planDone` must pass.
   */
  function OnJobDone(p: State, archNodes: set<Id>, x: Id): (r: Result<State>)
    ensures x !in archNodes ==> r == Err(UnknownId(x))
    ensures r.Ok? ==> x !in r.value.parents && x !in r.value.children
    ensures r.Ok? ==> r.value.doneJobs == p.doneJobs + [x]
    ensures r.Ok? ==> r.value.parents == p.parents - {x}
    ensures r.Ok? && x in p.activeJobs ==> r.value.activeJobs == RemoveFirst(p.activeJobs, x)
    ensures r.Ok? ==> r.value.id == p.id && r.value.root == p.root && r.value.locked == p.locked && r.value.failed == p.failed
    ensures r.Ok? && AllDone(r.value) ==> PlanDone(p.locked, r.value.parents, r.value.children).Pass?
  {
    if x !in archNodes then Err(UnknownId(x))
    else if x !in p.parents then Err(NoEntry(x))
    else
      var q := ReleaseParents(p, x, p.parents[x], 0);
      if q.Err? then q
      else
        var d := q.value.(parents := q.value.parents - {x}, children := q.value.children - {x},
                          activeJobs := SpliceIndexOf(q.value.activeJobs, x),
                          doneJobs := q.value.doneJobs + [x]);
        if AllDone(d) then
          var c := PlanDone(d.locked, d.parents, d.children);
          if c.Fail? then Err(c.error) else Ok(d)
        else Ok(d)
  }

  /**
   * The `forEach` of `onJobDone` over the parents `ps[i..]` of `x`: `x` is
   * spliced out of each parent's children list, and a parent other than the
   * root left empty is queued.
   */
  function ReleaseParents(p: State, x: Id, ps: seq<Id>, i: nat): (r: Result<State>)
    requires i <= |ps|
    ensures r.Err? <==> exists j :: i <= j < |ps| && ps[j] !in p.children
    ensures r.Ok? ==> r.value == p.(children := r.value.children, jobs := r.value.jobs)
    ensures r.Ok? ==> r.value.children.Keys == p.children.Keys
    ensures r.Ok? ==> forall k :: k in p.children && k !in ps[i..] ==> r.value.children[k] == p.children[k]
    ensures r.Ok? && JobsOk(p) ==> JobsOk(r.value)
    decreases |ps| - i
  {
    if i == |ps| then Ok(p)
    else if ps[i] !in p.children then Err(NoEntry(ps[i]))
    else ReleaseParents(ReleaseOne(p, x, ps[i]), x, ps, i + 1)
  }

  /**
   * One turn of that loop: `x` is spliced out of the children list of `q`,
   * and `q` is queued if that list is now empty and `q` is not the root.
   */
  function ReleaseOne(p: State, x: Id, q: Id): (r: State)
    requires q in p.children
    ensures r == p.(children := r.children, jobs := r.jobs)
    ensures r.children == p.children[q := SpliceIndexOf(p.children[q], x)]
    ensures forall y :: y in r.jobs <==> (y in p.jobs ||
      (y == q && q != p.root && |SpliceIndexOf(p.children[q], x)| == 0 && q !in p.doneJobs && q !in p.activeJobs))
    ensures JobsOk(p) ==> JobsOk(r)
  {
    var left := SpliceIndexOf(p.children[q], x);
    var p1 := p.(children := p.children[q := left]);
    if |left| == 0 && q != p.root then AddJob(p1, q) else p1
  }

  /** `onJobFail`: marks the plan failed; `planFail` then refuses a locked plan. */
  function OnJobFail(p: State): (r: Result<State>)
    ensures r.Err? <==> p.locked > 0
    ensures r.Ok? ==> r.value == p.(failed := true)
    ensures r.Ok? ==> !IsOperable(r.value)
  {
    var c := PlanFail(p.locked);
    if c.Fail? then Err(c.error) else Ok(p.(failed := true))
  }
}

=== FILE: plan_edit_props.dfy ===
/**
 * Properties of the plan's `hasParents`/`hasChildren`, `unlink` and
 * `removeNode`: they agree with each other on consistent tables, keep a
 * valid plan valid, and remove exactly the edges or the node they name.
 */
module PlanEditProps {
  import opened Util
  import opened Asserts
  import opened Plan
  import opened PlanLinks
  import opened PlanBuild
  import opened PlanEdit

  /** On a valid plan, `q` is a parent of `c` exactly when `c` is a child of `q`. */
  lemma HasLinkMirror(p: State, c: Id, q: Id)
    requires Valid(p) && c in p.parents && q in p.parents
    ensures HasParents(p, c, One(q)) == HasChildren(p, q, One(c))
  {
    assert ToArray(One(q)) == [q] && ToArray(One(c)) == [c];
    if q in p.parents[c] {
      assert c in p.children[q];
    }
    if c in p.children[q] {
      assert q in p.parents[c];
    }
  }

  // ---------------------------------------------------------------------------
  // unlink

  /** Whether `k -> y` is one of the two edges between `id1` and `id2`, read as a list entry under `k`. */
  predicate Between(k: Id, y: Id, id1: Id, id2: Id)
  {
    (k == id1 && y == id2) || (k == id2 && y == id1)
  }

  /** On duplicate-free lists, the two `util.unlink` calls remove exactly the entries between the two ids. */
  lemma UnlinkPairLists(p: State, id1: Id, id2: Id)
    requires id1 in p.parents && id2 in p.parents && id1 in p.children && id2 in p.children
    requires ListsNoDup(p.parents) && ListsNoDup(p.children)
    ensures var r := UnlinkPair(p, id1, id2);
      && (forall k, y :: y in Get(r.parents, k) <==> y in Get(p.parents, k) && !Between(k, y, id1, id2))
      && (forall k, y :: y in Get(r.children, k) <==> y in Get(p.children, k) && !Between(k, y, id1, id2))
      && ListsNoDup(r.parents) && ListsNoDup(r.children)
  {
    var r := UnlinkPair(p, id1, id2);
    UnlinkTableLists(p.parents, r.parents, id1, id2);
    UnlinkTableLists(p.children, r.children, id1, id2);
  }

  /** One table of `UnlinkPair`: `id2` leaves the list of `id1`, then `id1` the list of `id2`. */
  lemma UnlinkTableLists(m: Links, r: Links, id1: Id, id2: Id)
    requires id1 in m && id2 in m && ListsNoDup(m)
    requires r == (var m1 := m[id1 := RemoveFirst(m[id1], id2)]; m1[id2 := RemoveFirst(m1[id2], id1)])
    ensures forall k, y :: y in Get(r, k) <==> y in Get(m, k) && !Between(k, y, id1, id2)
    ensures ListsNoDup(r)
  {
    var m1 := m[id1 := RemoveFirst(m[id1], id2)];
    forall k, y
      ensures y in Get(r, k) <==> y in Get(m, k) && !Between(k, y, id1, id2)
    {
      RemoveFirstKeeps(m[id1], id2, y);
      RemoveFirstKeeps(m1[id2], id1, y);
      if id1 == id2 && k == id1 {
        RemoveFirstKeeps(m[id1], id1, y);
      }
    }
  }

  /** The two `util.unlink` calls keep consistent tables consistent. */
  lemma UnlinkPairConsistent(p: State, id1: Id, id2: Id)
    requires id1 in p.parents && id2 in p.parents && id1 in p.children && id2 in p.children
    requires Consistent(p.parents, p.children)
    ensures var r := UnlinkPair(p, id1, id2); Consistent(r.parents, r.children)
  {
    var r := UnlinkPair(p, id1, id2);
    UnlinkPairLists(p, id1, id2);
    UnlinkTablesConsistent(p.parents, p.children, r.parents, r.children, id1, id2);
  }

  /**
   * On the two tables alone: taking the entries between `id1` and `id2` out
   * of both keeps consistent tables consistent.
   */
  lemma UnlinkTablesConsistent(pa: Links, ch: Links, pa': Links, ch': Links, id1: Id, id2: Id)
    requires Consistent(pa, ch) && id1 in pa && id2 in pa
    requires pa' == (var m1 := pa[id1 := RemoveFirst(pa[id1], id2)]; m1[id2 := RemoveFirst(m1[id2], id1)])
    requires ch' == (var m1 := ch[id1 := RemoveFirst(ch[id1], id2)]; m1[id2 := RemoveFirst(m1[id2], id1)])
    ensures Consistent(pa', ch')
    ensures forall k, y :: y in Get(pa', k) <==> y in Get(pa, k) && !Between(k, y, id1, id2)
    ensures forall k, y :: y in Get(ch', k) <==> y in Get(ch, k) && !Between(k, y, id1, id2)
  {
    UnlinkTableLists(pa, pa', id1, id2);
    UnlinkTableLists(ch, ch', id1, id2);
    assert pa'.Keys == pa.Keys && ch'.Keys == ch.Keys;
    MirroredWithout(ch, pa, ch', pa', id1, id2);
    MirroredWithout(pa, ch, pa', ch', id1, id2);
  }

  /** Dropping the entries between two ids from a table and from its mirror keeps the mirroring. */
  lemma MirroredWithout(m: Links, back: Links, m': Links, back': Links, id1: Id, id2: Id)
    requires Mirrored(m, back) && m'.Keys == m.Keys && back'.Keys == back.Keys
    requires forall k, y :: y in Get(m', k) <==> y in Get(m, k) && !Between(k, y, id1, id2)
    requires forall k, y :: y in Get(back', k) <==> y in Get(back, k) && !Between(k, y, id1, id2)
    ensures Mirrored(m', back')
  {
    forall k, x | k in m' && x in m'[k]
      ensures x in back' && k in back'[x]
    {
      assert x in Get(m', k);
      assert k in Get(back, x);
      assert k in Get(back', x);
    }
  }

  /** `Relink` keeps a valid plan valid and only adds edges. */
  lemma RelinkValid(q: State, ac: Links, id1: Id, id2: Id, fuel: nat)
    ensures var r := Relink(q, ac, id1, id2, fuel);
      Extends(q, r) && (Valid(q) ==> Valid(r))
  {
    var q1 := if |Get(q.parents, id1)| == 0 then Link(q, ac, [id1], One(q.root), fuel) else q;
    if |Get(q.parents, id1)| == 0 {
      LinkProperties(q, ac, [id1], One(q.root), fuel);
    } else {
      ExtendsRefl(q);
    }
    var r := Relink(q, ac, id1, id2, fuel);
    if |Get(q1.parents, id2)| == 0 {
      LinkProperties(q1, ac, [id2], One(q1.root), fuel);
    } else {
      ExtendsRefl(q1);
    }
    ExtendsTrans(q, q1, r);
  }

  /** `unlink` keeps a valid plan valid. */
  lemma UnlinkValid(p: State, ac: Links, id1: Id, id2: Id, fuel: nat)
    requires Valid(p)
    ensures var r := PlanEdit.Unlink(p, ac, id1, id2, fuel); r.Ok? ==> Valid(r.value)
  {
    if id1 in p.parents && id2 in p.parents && id1 in p.children && id2 in p.children {
      var q := UnlinkPair(p, id1, id2);
      UnlinkPairConsistent(p, id1, id2);
      assert Valid(q);
      RelinkValid(q, ac, id1, id2, fuel);
      var q2 := Relink(q, ac, id1, id2, fuel);
      ValidJobsOnly(q2, RescanJobs(q2, [id1, id2]));
    }
  }

  /**
   * When each id keeps another parent, `unlink` removes exactly the two
   * list entries between the ids, in both tables, and nothing else.
   */
  lemma UnlinkRemovesEdge(p: State, ac: Links, id1: Id, id2: Id, fuel: nat)
    requires Valid(p) && id1 in p.parents && id2 in p.parents
    requires exists y :: y in p.parents[id1] && y != id2
    requires exists y :: y in p.parents[id2] && y != id1
    ensures var r := PlanEdit.Unlink(p, ac, id1, id2, fuel);
      && r.Ok?
      && (forall k, y :: y in Get(r.value.parents, k) <==> y in Get(p.parents, k) && !Between(k, y, id1, id2))
      && (forall k, y :: y in Get(r.value.children, k) <==> y in Get(p.children, k) && !Between(k, y, id1, id2))
  {
    var q := UnlinkPair(p, id1, id2);
    UnlinkPairLists(p, id1, id2);
    var y1 :| y1 in p.parents[id1] && y1 != id2;
    var y2 :| y2 in p.parents[id2] && y2 != id1;
    assert y1 in Get(q.parents, id1);
    assert y2 in Get(q.parents, id2);
    assert Relink(q, ac, id1, id2, fuel) == q;
  }

  /**
   * A second `unlink` of the same pair leaves the tables as the first one
   * left them.
   */
  lemma UnlinkTwice(p: State, ac: Links, id1: Id, id2: Id, fuel: nat)
    requires Valid(p) && id1 in p.parents && id2 in p.parents
    requires exists y :: y in p.parents[id1] && y != id2
    requires exists y :: y in p.parents[id2] && y != id1
    ensures var r := PlanEdit.Unlink(p, ac, id1, id2, fuel);
      && r.Ok?
      && var r2 := PlanEdit.Unlink(r.value, ac, id1, id2, fuel);
      && r2.Ok?
      && r2.value.parents == r.value.parents && r2.value.children == r.value.children
  {
    UnlinkRemovesEdge(p, ac, id1, id2, fuel);
    var r := PlanEdit.Unlink(p, ac, id1, id2, fuel).value;
    var y1 :| y1 in p.parents[id1] && y1 != id2;
    var y2 :| y2 in p.parents[id2] && y2 != id1;
    assert y1 in Get(r.parents, id1) && y2 in Get(r.parents, id2);
    assert id2 !in Get(r.parents, id1) && id1 !in Get(r.parents, id2);
    assert id2 !in Get(r.children, id1) && id1 !in Get(r.children, id2);
    UnlinkPairNoop(r, id1, id2);
    assert Relink(r, ac, id1, id2, fuel) == r;
  }

  /** With no entry between the ids left, the two `util.unlink` calls change nothing. */
  lemma UnlinkPairNoop(p: State, id1: Id, id2: Id)
    requires id1 in p.parents && id2 in p.parents && id1 in p.children && id2 in p.children
    requires id2 !in p.parents[id1] && id1 !in p.parents[id2]
    requires id2 !in p.children[id1] && id1 !in p.children[id2]
    ensures UnlinkPair(p, id1, id2) == p
  {
    assert p.parents[id1 := p.parents[id1]] == p.parents;
    assert p.children[id1 := p.children[id1]] == p.children;
    assert p.parents[id2 := p.parents[id2]] == p.parents;
    assert p.children[id2 := p.children[id2]] == p.children;
  }

  /** A non-empty list holds its first element. */
  lemma HeadIn(s: seq<Id>)
    ensures |s| == 0 || s[0] in s
  {
  }

  /**
   * An id whose only parent was the other id is linked under the root again,
   * given fuel and unless it is done.
   */
  lemma UnlinkRelinks(p: State, ac: Links, id1: Id, id2: Id, fuel: nat)
    requires Valid(p) && id1 in p.parents && id2 in p.parents
    requires forall y :: y in p.parents[id1] ==> y == id2
    requires fuel > 0 && id1 !in p.doneJobs
    ensures var r := PlanEdit.Unlink(p, ac, id1, id2, fuel); r.Ok? && id1 in Get(r.value.children, p.root)
  {
    var q := UnlinkPair(p, id1, id2);
    UnlinkPairLists(p, id1, id2);
    var s := Get(q.parents, id1);
    HeadIn(s);
    assert |s| == 0;
    var q1 := Link(q, ac, [id1], One(q.root), fuel);
    LinkProperties(q, ac, [id1], One(q.root), fuel);
    assert ToArray(One(q.root)) == [q.root];
    assert id1 in Get(q1.children, q.root);
    var q2 := Relink(q, ac, id1, id2, fuel);
    if |Get(q1.parents, id2)| == 0 {
      LinkProperties(q1, ac, [id2], One(q1.root), fuel);
      ExtendsEdge(q1, q2, q.root, id1);
    }
  }
}

=== FILE: plan_leaves.dfy ===
/**
 * What `collectLeaves` finds: exactly the ids without arch children that
 * can be reached from the start through arch edges, along ids none of which
 * is done.
 */
module PlanLeaves {
  import opened Util
  import opened Plan

  /** `path` follows arch edges and passes through no done id. */
  ghost predicate IsWalk(ac: Links, done: seq<Id>, path: seq<Id>)
  {
    && |path| > 0
    && (forall i :: 0 <= i < |path| ==> path[i] !in done)
    && (forall i :: 0 <= i < |path| - 1 ==> path[i + 1] in Get(ac, path[i]))
  }

  /** Some walk leads from `x` to `v`. */
  ghost predicate Reaches(ac: Links, done: seq<Id>, x: Id, v: Id)
  {
    exists path :: IsWalk(ac, done, path) && path[0] == x && path[|path| - 1] == v
  }

  /** An id that is not done reaches itself. */
  lemma ReachesSelf(ac: Links, done: seq<Id>, x: Id)
    requires x !in done
    ensures Reaches(ac, done, x, x)
  {
    assert IsWalk(ac, done, [x]);
  }

  /** A walk from an arch child of `x` extends to a walk from `x`. */
  lemma ReachesCons(ac: Links, done: seq<Id>, x: Id, c: Id, v: Id)
    requires x !in done && c in Get(ac, x) && Reaches(ac, done, c, v)
    ensures Reaches(ac, done, x, v)
  {
    var path :| IsWalk(ac, done, path) && path[0] == c && path[|path| - 1] == v;
    var path' := [x] + path;
    forall i | 0 <= i < |path'| - 1
      ensures path'[i + 1] in Get(ac, path'[i])
    {
      if i > 0 {
        assert path'[i] == path[i - 1] && path'[i + 1] == path[i];
      }
    }
    assert IsWalk(ac, done, path');
    assert path'[|path'| - 1] == v;
  }

  /** A walk that starts in a set closed under not-done arch children stays in it. */
  lemma {:induction false} WalkInside(ac: Links, done: seq<Id>, s: set<Id>, path: seq<Id>, n: nat)
    requires IsWalk(ac, done, path) && path[0] in s
    requires forall v, c :: v in s && c in Get(ac, v) ==> c in s || c in done
    requires n < |path|
    ensures path[n] in s
    decreases n
  {
    if n > 0 {
      WalkInside(ac, done, s, path, n - 1);
      assert path[n] in Get(ac, path[n - 1]);
    }
  }

  /** Every id `Visit` marks is reached from its start. */
  lemma {:induction false} VisitSound(ac: Links, done: seq<Id>, x: Id, w: Walk)
    requires NoDup(w.leaves) && forall v :: v in w.leaves ==> v in w.wasHere
    ensures forall v :: v in Visit(ac, done, x, w).wasHere && v !in w.wasHere ==> Reaches(ac, done, x, v)
    decreases |Universe(ac) + {x} - w.wasHere|, 0, 0
  {
    if x !in w.wasHere && IndexOf(done, x) == -1 {
      var w1 := w.(wasHere := w.wasHere + {x});
      ReachesSelf(ac, done, x);
      if |Get(ac, x)| != 0 {
        ProperSubsetCard(Universe(ac) - w1.wasHere, Universe(ac) + {x} - w.wasHere, x);
        VisitListSound(ac, done, x, 0, w1);
        forall v | v in Visit(ac, done, x, w).wasHere && v !in w.wasHere
          ensures Reaches(ac, done, x, v)
        {
          if v != x {
            var j :| 0 <= j < |Get(ac, x)| && Reaches(ac, done, Get(ac, x)[j], v);
            ReachesCons(ac, done, x, Get(ac, x)[j], v);
          }
        }
      }
    }
  }

  /** Every id `VisitList` marks is reached from one of the children it walks. */
  lemma {:induction false} VisitListSound(ac: Links, done: seq<Id>, y: Id, i: nat, w: Walk)
    requires i <= |Get(ac, y)|
    requires NoDup(w.leaves) && forall v :: v in w.leaves ==> v in w.wasHere
    ensures forall v :: v in VisitList(ac, done, y, i, w).wasHere && v !in w.wasHere ==>
      exists j :: i <= j < |Get(ac, y)| && Reaches(ac, done, Get(ac, y)[j], v)
    decreases |Universe(ac) - w.wasHere|, 1, |Get(ac, y)| - i
  {
    if i < |Get(ac, y)| {
      var c := Get(ac, y)[i];
      InUniverse(ac, y, c);
      assert Universe(ac) + {c} == Universe(ac);
      var w' := Visit(ac, done, c, w);
      assert Universe(ac) - w'.wasHere <= Universe(ac) - w.wasHere;
      SubsetCard(Universe(ac) - w'.wasHere, Universe(ac) - w.wasHere);
      VisitSound(ac, done, c, w);
      VisitListSound(ac, done, y, i + 1, w');
      forall v | v in VisitList(ac, done, y, i, w).wasHere && v !in w.wasHere
        ensures exists j :: i <= j < |Get(ac, y)| && Reaches(ac, done, Get(ac, y)[j], v)
      {
        if v in w'.wasHere {
          assert Reaches(ac, done, Get(ac, y)[i], v);
        } else {
          var j :| i + 1 <= j < |Get(ac, y)| && Reaches(ac, done, Get(ac, y)[j], v);
          assert i <= j;
        }
      }
    }
  }

  /**
   * `collectLeaves` from `x` returns, each once, exactly the ids without
   * arch children that a walk through ids that are not done reaches from `x`.
   */
  lemma CollectLeavesExact(ac: Links, done: seq<Id>, x: Id)
    ensures NoDup(CollectLeaves(ac, done, x))
    ensures forall v :: v in CollectLeaves(ac, done, x) <==> Reaches(ac, done, x, v) && Get(ac, v) == []
  {
    var w := Walk([], {});
    var r := Visit(ac, done, x, w);
    VisitSound(ac, done, x, w);
    forall v | Reaches(ac, done, x, v) && Get(ac, v) == []
      ensures v in r.leaves
    {
      var path :| IsWalk(ac, done, path) && path[0] == x && path[|path| - 1] == v;
      assert x !in done;
      WalkInside(ac, done, r.wasHere, path, |path| - 1);
    }
  }
}

=== FILE: plan_links.dfy ===
/**
 * Properties of the plan's link operations: `_link`, `injectSubArch`,
 * `link` and `init` keep the plan valid, only ever add edges, and add only
 * edges the arch has or the caller asked for.
 */
module PlanLinks {
  import opened Util
  import opened Plan

  /**
   * `_link` adds exactly the edge `parent -> child`, in both tables: every
   * other list keeps its members.
   */
  lemma LinkEdgeLists(p: State, child: Id, parent: Id)
    ensures var r := LinkEdge(p, child, parent);
      && (forall k, y :: y in Get(r.children, k) <==> y in Get(p.children, k) || (k == parent && y == child))
      && (forall k, y :: y in Get(r.parents, k) <==> y in Get(p.parents, k) || (k == child && y == parent))
  {
  }

  /** `_link` keeps every old edge. */
  lemma LinkEdgeExtends(p: State, child: Id, parent: Id)
    ensures Extends(p, LinkEdge(p, child, parent))
  {
    var r := LinkEdge(p, child, parent);
    LinkEdgeLists(p, child, parent);
    forall k, y | k in p.parents && y in p.parents[k]
      ensures y in r.parents[k]
    {
      assert y in Get(p.parents, k);
    }
    forall k, y | k in p.children && y in p.children[k]
      ensures y in r.children[k]
    {
      assert y in Get(p.children, k);
    }
  }

  /** `_link` keeps mutually consistent tables mutually consistent. */
  lemma LinkEdgeConsistent(p: State, child: Id, parent: Id)
    requires Consistent(p.parents, p.children)
    ensures var r := LinkEdge(p, child, parent); Consistent(r.parents, r.children)
  {
    LinkEdgeMirrorsDown(p, child, parent);
    LinkEdgeMirrorsUp(p, child, parent);
  }

  /** Every child list of the linked tables is mirrored in the parent lists. */
  lemma LinkEdgeMirrorsDown(p: State, child: Id, parent: Id)
    requires Mirrored(p.children, p.parents)
    ensures var r := LinkEdge(p, child, parent); Mirrored(r.children, r.parents)
  {
    var r := LinkEdge(p, child, parent);
    LinkEdgeLists(p, child, parent);
    forall k, x | k in r.children && x in r.children[k]
      ensures x in r.parents && k in r.parents[x]
    {
      assert x in Get(r.children, k);
      if x in Get(p.children, k) {
        assert k in Get(p.parents, x);
      }
      assert k in Get(r.parents, x);
    }
  }

  /** Every parent list of the linked tables is mirrored in the child lists. */
  lemma LinkEdgeMirrorsUp(p: State, child: Id, parent: Id)
    requires Mirrored(p.parents, p.children)
    ensures var r := LinkEdge(p, child, parent); Mirrored(r.parents, r.children)
  {
    var r := LinkEdge(p, child, parent);
    LinkEdgeLists(p, child, parent);
    forall k, x | k in r.parents && x in r.parents[k]
      ensures x in r.children && k in r.children[x]
    {
      assert x in Get(r.parents, k);
      if x in Get(p.parents, k) {
        assert k in Get(p.children, x);
      }
      assert k in Get(r.children, x);
    }
  }

  /** Linking the same pair a second time changes nothing. */
  lemma LinkEdgeIdempotent(p: State, child: Id, parent: Id)
    ensures var r := LinkEdge(p, child, parent); LinkEdge(r, child, parent) == r
  {
    var r := LinkEdge(p, child, parent);
    WithEntrySame(r.parents, parent);
    ListedAgain(r.parents, child, parent);
    WithEntrySame(r.children, child);
    ListedAgain(r.children, parent, child);
  }

  /** `WithEntry` leaves a table that already has the entry as it is. */
  lemma WithEntrySame(m: Links, k: Id)
    requires k in m
    ensures WithEntry(m, k) == m
  {
  }

  /** A table that already lists `v` under `k` is left as it is by `WithEntry` and `Listed`. */
  lemma ListedAgain(m: Links, k: Id, v: Id)
    requires k in m && v in m[k]
    ensures WithEntry(m, k) == m && Listed(m, k, v) == m
  {
    assert WithEntry(m, k) == m;
    assert IndexOf(m[k], v) != -1;
  }

  /** A state extends itself. */
  lemma ExtendsRefl(p: State)
    ensures Extends(p, p)
  {
  }

  /**
   * `injectSubArch` keeps every edge, and adds the requested edge when its
   * guard holds and fuel is left.
   */
  lemma {:induction false} InjectExtends(p: State, ac: Links, child: Id, parent: Id, fuel: nat)
    ensures var r := InjectSubArch(p, ac, child, parent, fuel);
      && Extends(p, r)
      && (fuel > 0 && parent in p.parents && child !in p.doneJobs && parent !in p.doneJobs ==>
            child in Get(r.children, parent) && parent in Get(r.parents, child))
    decreases fuel, 0, 0
  {
    if fuel > 0 && parent in p.parents && child !in p.doneJobs && parent !in p.doneJobs {
      var p1 := LinkEdge(p, child, parent);
      LinkEdgeExtends(p, child, parent);
      var ids := Get(ac, child);
      InjectEachExtends(p1, ac, child, ids, 0, Spend(fuel));
      ExtendsTrans(p, p1, InjectEach(p1, ac, child, ids, 0, Spend(fuel)));
    } else {
      ExtendsRefl(p);
    }
  }

  /** The loop over the arch children keeps every edge. */
  lemma {:induction false} InjectEachExtends(p: State, ac: Links, parent: Id, ids: seq<Id>, i: nat, fuel: nat)
    requires i <= |ids|
    ensures Extends(p, InjectEach(p, ac, parent, ids, i, fuel))
    decreases fuel, 1, |ids| - i
  {
    if i == |ids| {
      ExtendsRefl(p);
    } else {
      var p1 := InjectSubArch(p, ac, ids[i], parent, fuel);
      InjectExtends(p, ac, ids[i], parent, fuel);
      InjectEachExtends(p1, ac, parent, ids, i + 1, fuel);
      ExtendsTrans(p, p1, InjectEach(p1, ac, parent, ids, i + 1, fuel));
    }
  }

  /** Every edge `injectSubArch` adds is the requested edge or an edge of the arch. */
  lemma {:induction false} InjectNewEdges(p: State, ac: Links, child: Id, parent: Id, fuel: nat)
    ensures NewEdgesFrom(p, InjectSubArch(p, ac, child, parent, fuel), ac, child, parent)
    decreases fuel, 0, 0
  {
    if fuel > 0 && parent in p.parents && child !in p.doneJobs && parent !in p.doneJobs {
      var p1 := LinkEdge(p, child, parent);
      var ids := Get(ac, child);
      InjectEachNewEdges(p1, ac, child, ids, 0, Spend(fuel));
      var p2 := InjectEach(p1, ac, child, ids, 0, Spend(fuel));
      NewEdgesStep(p, p1, p2, InjectSubArch(p, ac, child, parent, fuel), ac, child, parent);
    }
  }

  /** Composes the edges `_link` adds with those the loop over the arch children adds. */
  lemma NewEdgesStep(p: State, p1: State, p2: State, r: State, ac: Links, child: Id, parent: Id)
    requires p1 == LinkEdge(p, child, parent)
    requires EdgesWithin(p1, p2, ac, child, Get(ac, child))
    requires r.children == p2.children
    ensures NewEdgesFrom(p, r, ac, child, parent)
  {
    LinkEdgeLists(p, child, parent);
    forall k, y | y in Get(r.children, k) && y !in Get(p.children, k)
      ensures (k == parent && y == child) || y in Get(ac, k)
    {
      if y !in Get(p1.children, k) {
        assert y in Get(p2.children, k);
        assert (k == child && y in Get(ac, child)) || y in Get(ac, k);
      }
    }
  }

  /** Every edge the loop over the arch children adds lists one of `ids` under `parent` or is an arch edge. */
  lemma {:induction false} InjectEachNewEdges(p: State, ac: Links, parent: Id, ids: seq<Id>, i: nat, fuel: nat)
    requires i <= |ids|
    ensures EdgesWithin(p, InjectEach(p, ac, parent, ids, i, fuel), ac, parent, ids)
    decreases fuel, 1, |ids| - i
  {
    if i < |ids| {
      var p1 := InjectSubArch(p, ac, ids[i], parent, fuel);
      InjectNewEdges(p, ac, ids[i], parent, fuel);
      var r := InjectEach(p1, ac, parent, ids, i + 1, fuel);
      InjectEachNewEdges(p1, ac, parent, ids, i + 1, fuel);
      assert ids[i] in ids;
      forall k, y | y in Get(r.children, k) && y !in Get(p.children, k)
        ensures (k == parent && y in ids) || y in Get(ac, k)
      {
        if y in Get(p1.children, k) {
          assert (k == parent && y == ids[i]) || y in Get(ac, k);
        } else {
          assert y in Get(r.children, k) && y !in Get(p1.children, k);
        }
      }
    }
  }

  /** `injectSubArch` keeps a valid plan valid. */
  lemma {:induction false} InjectValid(p: State, ac: Links, child: Id, parent: Id, fuel: nat)
    requires Valid(p)
    ensures Valid(InjectSubArch(p, ac, child, parent, fuel))
    decreases fuel, 0, 0
  {
    if fuel > 0 && parent in p.parents && child !in p.doneJobs && parent !in p.doneJobs {
      LinkEdgeValid(p, child, parent);
      var p1 := LinkEdge(p, child, parent);
      var ids := Get(ac, child);
      InjectEachValid(p1, ac, child, ids, 0, Spend(fuel));
      ValidJobsOnly(InjectEach(p1, ac, child, ids, 0, Spend(fuel)), InjectSubArch(p, ac, child, parent, fuel));
    }
  }

  lemma ValidJobsOnly(p: State, r: State)
    requires Valid(p) && r == p.(jobs := r.jobs) && JobsOk(r)
    ensures Valid(r)
  {
  }

  lemma LinkEdgeValid(p: State, child: Id, parent: Id)
    requires Valid(p)
    ensures Valid(LinkEdge(p, child, parent))
  {
    LinkEdgeConsistent(p, child, parent);
  }


  /** The loop over the arch children keeps a valid plan valid. */
  lemma {:induction false} InjectEachValid(p: State, ac: Links, parent: Id, ids: seq<Id>, i: nat, fuel: nat)
    requires i <= |ids|
    requires Valid(p)
    ensures Valid(InjectEach(p, ac, parent, ids, i, fuel))
    decreases fuel, 1, |ids| - i
  {
    if i < |ids| {
      InjectValid(p, ac, ids[i], parent, fuel);
      InjectEachValid(InjectSubArch(p, ac, ids[i], parent, fuel), ac, parent, ids, i + 1, fuel);
    }
  }
}

=== FILE: plan_new.dfy ===
/**
 * What the constructor of lib/plan.js builds: with fuel above the size of
 * the arch, every arch edge below a target is an edge of the plan, and the
 * ready queue holds exactly the ids without arch children that the targets
 * reach.
 */
module PlanNew {
  import opened Util
  import opened Plan
  import opened PlanLinks
  import opened PlanBuild
  import opened PlanLeaves

  // ---------------------------------------------------------------------------
  // Edges

  /** Every arch edge out of `k` to an id not in `done` is an edge of `r`. */
  ghost predicate EdgesOut(ac: Links, done: seq<Id>, k: Id, r: State)
  {
    forall y :: y in Get(ac, k) && y !in done ==> y in Get(r.children, k)
  }

  /**
   * Every walk of at most `n` ids from `x` that avoids `done` ends at an id
   * whose arch edges to ids not in `done` are all edges of `r`.
   */
  ghost predicate Covers(ac: Links, done: seq<Id>, x: Id, n: nat, r: State)
  {
    forall path: seq<Id> :: IsWalk(ac, done, path) && path[0] == x && |path| <= n ==> EdgesOut(ac, done, path[|path| - 1], r)
  }

  /** A walk without its first id is a walk. */
  lemma WalkTail(ac: Links, done: seq<Id>, path: seq<Id>)
    requires IsWalk(ac, done, path) && |path| > 1
    ensures IsWalk(ac, done, path[1..]) && path[1] in Get(ac, path[0])
  {
    var rest := path[1..];
    forall i | 0 <= i < |rest| - 1
      ensures rest[i + 1] in Get(ac, rest[i])
    {
      assert rest[i] == path[i + 1] && rest[i + 1] == path[i + 2];
    }
  }

  /** Covering `x` to depth `n` is covering its own edges and each arch child not in `done` to depth `n - 1`. */
  lemma CoversStep(ac: Links, done: seq<Id>, x: Id, n: nat, r: State)
    requires n > 0 && EdgesOut(ac, done, x, r)
    requires forall y :: y in Get(ac, x) && y !in done ==> Covers(ac, done, y, n - 1, r)
    ensures Covers(ac, done, x, n, r)
  {
    forall path: seq<Id> | IsWalk(ac, done, path) && path[0] == x && |path| <= n
      ensures EdgesOut(ac, done, path[|path| - 1], r)
    {
      if |path| > 1 {
        WalkTail(ac, done, path);
        assert path[1..][|path| - 2] == path[|path| - 1];
      }
    }
  }

  /** Edges covered in `p` stay covered in any state extending it. */
  lemma CoversExtends(ac: Links, done: seq<Id>, x: Id, n: nat, p: State, r: State)
    requires Covers(ac, done, x, n, p) && Extends(p, r)
    ensures Covers(ac, done, x, n, r)
  {
    forall path: seq<Id> | IsWalk(ac, done, path) && path[0] == x && |path| <= n
      ensures EdgesOut(ac, done, path[|path| - 1], r)
    {
      var k := path[|path| - 1];
      forall y | y in Get(ac, k) && y !in done
        ensures y in Get(r.children, k)
      {
        ExtendsEdge(p, r, k, y);
      }
    }
  }

  /**
   * `injectSubArch` of a child that is not done, under a parent of the plan
   * that is not done, covers the arch below `child` to one level less than
   * its fuel.
   */
  lemma {:induction false} InjectCovers(p: State, ac: Links, child: Id, parent: Id, fuel: nat)
    ensures fuel > 0 && parent in p.parents && child !in p.doneJobs && parent !in p.doneJobs ==>
      Covers(ac, p.doneJobs, child, Spend(fuel), InjectSubArch(p, ac, child, parent, fuel))
    decreases fuel, 0, 0
  {
    if fuel > 0 && parent in p.parents && child !in p.doneJobs && parent !in p.doneJobs {
      var p1 := LinkEdge(p, child, parent);
      var ids := Get(ac, child);
      var f := Spend(fuel);
      var q := InjectEach(p1, ac, child, ids, 0, f);
      InjectEachCovers(p1, ac, child, ids, 0, f);
      var r := InjectSubArch(p, ac, child, parent, fuel);
      assert r.children == q.children;
      if f > 0 {
        ListedSameChildren(ac, p.doneJobs, child, ids, 0, Spend(f), q, r);
        CoversListed(ac, p.doneJobs, child, f, r);
      }
    }
  }

  /** Covering `x` to depth `n` is listing each arch child not in `done` under it, covered to depth `n - 1`. */
  lemma CoversListed(ac: Links, done: seq<Id>, x: Id, n: nat, r: State)
    requires n > 0 && ListedBelow(ac, done, x, Get(ac, x), 0, n - 1, r)
    ensures Covers(ac, done, x, n, r)
  {
    var ids := Get(ac, x);
    forall y | y in ids && y !in done
      ensures y in Get(r.children, x) && Covers(ac, done, y, n - 1, r)
    {
      var j :| 0 <= j < |ids| && ids[j] == y;
    }
    CoversStep(ac, done, x, n, r);
  }

  /** Listing and covering depend on the plan's children table only. */
  lemma ListedSameChildren(ac: Links, done: seq<Id>, parent: Id, ids: seq<Id>, i: nat, n: nat, q: State, r: State)
    requires q.children == r.children && ListedBelow(ac, done, parent, ids, i, n, q)
    ensures ListedBelow(ac, done, parent, ids, i, n, r)
  {
    forall j | i <= j < |ids| && ids[j] !in done
      ensures ids[j] in Get(r.children, parent) && Covers(ac, done, ids[j], n, r)
    {
      forall path: seq<Id> | IsWalk(ac, done, path) && path[0] == ids[j] && |path| <= n
        ensures EdgesOut(ac, done, path[|path| - 1], r)
      {
        assert EdgesOut(ac, done, path[|path| - 1], q);
      }
    }
  }

  /** Each of `ids[i..]` not in `done` is listed under `parent` in `r` and covered to depth `n`. */
  ghost predicate ListedBelow(ac: Links, done: seq<Id>, parent: Id, ids: seq<Id>, i: nat, n: nat, r: State)
  {
    forall j :: i <= j < |ids| && ids[j] !in done ==> ids[j] in Get(r.children, parent) && Covers(ac, done, ids[j], n, r)
  }

  /** The loop of `injectSubArch` lists each arch child not done under `parent` and covers the arch below it. */
  lemma {:induction false} InjectEachCovers(p: State, ac: Links, parent: Id, ids: seq<Id>, i: nat, fuel: nat)
    requires i <= |ids| && parent !in p.doneJobs && parent in p.parents
    ensures fuel > 0 ==> ListedBelow(ac, p.doneJobs, parent, ids, i, Spend(fuel), InjectEach(p, ac, parent, ids, i, fuel))
    decreases fuel, 1, |ids| - i
  {
    if i < |ids| && fuel > 0 {
      var p1 := InjectSubArch(p, ac, ids[i], parent, fuel);
      InjectCovers(p, ac, ids[i], parent, fuel);
      InjectExtends(p, ac, ids[i], parent, fuel);
      var r := InjectEach(p1, ac, parent, ids, i + 1, fuel);
      InjectEachCovers(p1, ac, parent, ids, i + 1, fuel);
      InjectEachExtends(p1, ac, parent, ids, i + 1, fuel);
      CoversKept(ac, p.doneJobs, parent, ids, i, Spend(fuel), p1, r);
    }
  }

  /** One turn of the loop of `injectSubArch`: the child it handled stays listed and covered. */
  lemma CoversKept(ac: Links, done: seq<Id>, parent: Id, ids: seq<Id>, i: nat, n: nat, p1: State, r: State)
    requires i < |ids| && Extends(p1, r)
    requires ids[i] !in done ==> ids[i] in Get(p1.children, parent) && Covers(ac, done, ids[i], n, p1)
    requires ListedBelow(ac, done, parent, ids, i + 1, n, r)
    ensures ListedBelow(ac, done, parent, ids, i, n, r)
  {
    if ids[i] !in done {
      ExtendsEdge(p1, r, parent, ids[i]);
      CoversExtends(ac, done, ids[i], n, p1, r);
    }
    forall j | i <= j < |ids| && ids[j] !in done
      ensures ids[j] in Get(r.children, parent) && Covers(ac, done, ids[j], n, r)
    {
      if j > i {
        assert i + 1 <= j;
      }
    }
  }

  /** The loop of `init` covers the arch below every target not done to one level less than its fuel. */
  lemma {:induction false} InitEachCovers(p: State, ac: Links, ids: seq<Id>, fuel: nat)
    requires p.root in p.parents && p.root !in p.doneJobs
    ensures fuel > 0 ==> forall t :: t in ids && t !in p.doneJobs ==> Covers(ac, p.doneJobs, t, Spend(fuel), InitEach(p, ac, ids, fuel))
    decreases |ids|
  {
    if |ids| > 0 && fuel > 0 {
      var p1 := Link(p, ac, [ids[0]], Absent, fuel);
      LinkOne(p, ac, ids[0], Absent, fuel);
      InjectCovers(p, ac, ids[0], p.root, fuel);
      InjectExtends(p, ac, ids[0], p.root, fuel);
      var q := GatherIDs(p1, ac, ids[0], fuel);
      GatherExtends(p1, ac, ids[0], fuel);
      var r := InitEach(q, ac, ids[1..], fuel);
      InitEachCovers(q, ac, ids[1..], fuel);
      InitEachProperties(q, ac, ids[1..], fuel);
      ExtendsTrans(p1, q, r);
      if ids[0] !in p.doneJobs {
        CoversExtends(ac, p.doneJobs, ids[0], Spend(fuel), p1, r);
      }
      forall t | t in ids && t !in p.doneJobs
        ensures Covers(ac, p.doneJobs, t, Spend(fuel), r)
      {
        if t != ids[0] {
          assert t in ids[1..];
        }
      }
    }
  }

  // ---------------------------------------------------------------------------
  // Short walks

  /** Cutting out the part of a walk between two visits of one id leaves a walk with the same ends. */
  lemma CutWalk(ac: Links, done: seq<Id>, path: seq<Id>, i: nat, j: nat)
    requires IsWalk(ac, done, path) && i < j < |path| && path[i] == path[j]
    ensures var q := path[..i] + path[j..];
      && IsWalk(ac, done, q) && |q| < |path|
      && q[0] == path[0] && q[|q| - 1] == path[|path| - 1]
  {
    var q := path[..i] + path[j..];
    forall k | 0 <= k < |q|
      ensures q[k] == if k < i then path[k] else path[k - i + j]
    {
    }
    forall k | 0 <= k < |q| - 1
      ensures q[k + 1] in Get(ac, q[k])
    {
      if k + 1 < i {
        assert q[k] == path[k] && q[k + 1] == path[k + 1];
      } else if k + 1 == i {
        assert q[k] == path[i - 1] && q[k + 1] == path[i];
      } else {
        assert q[k] == path[k - i + j] && q[k + 1] == path[k - i + j + 1];
      }
    }
  }

  /** Every walk can be shortened to one that visits no id twice, with the same ends. */
  lemma {:induction false} SimpleWalk(ac: Links, done: seq<Id>, path: seq<Id>)
    requires IsWalk(ac, done, path)
    ensures exists q: seq<Id> :: IsWalk(ac, done, q) && NoDup(q) && q[0] == path[0] && q[|q| - 1] == path[|path| - 1]
    decreases |path|
  {
    if !NoDup(path) {
      var i, j :| 0 <= i < j < |path| && path[i] == path[j];
      CutWalk(ac, done, path, i, j);
      SimpleWalk(ac, done, path[..i] + path[j..]);
    }
  }

  /** The ids of a sequence without repeats are as many as its length. */
  lemma {:induction false} NoDupCard(s: seq<Id>)
    requires NoDup(s)
    ensures |set x | x in s| == |s|
    decreases |s|
  {
    if |s| > 0 {
      var rest := s[1..];
      assert NoDup(rest) by {
        forall i, j | 0 <= i < j < |rest|
          ensures rest[i] != rest[j]
        {
          assert rest[i] == s[i + 1] && rest[j] == s[j + 1];
        }
      }
      NoDupCard(rest);
      assert (set x | x in s) == (set x | x in rest) + {s[0]};
      assert s[0] !in rest by {
        forall j | 0 <= j < |rest|
          ensures rest[j] != s[0]
        {
          assert rest[j] == s[j + 1];
        }
      }
    }
  }

  /** A walk without repeats that starts at an arch key is no longer than the arch has ids. */
  lemma SimpleWalkBound(ac: Links, path: seq<Id>)
    requires IsWalk(ac, [], path) && NoDup(path) && path[0] in ac
    ensures |path| <= |Universe(ac)|
  {
    forall i | 0 <= i < |path|
      ensures path[i] in Universe(ac)
    {
      if i > 0 {
        assert path[i] in Get(ac, path[i - 1]);
        InUniverse(ac, path[i - 1], path[i]);
      }
    }
    NoDupCard(path);
    SubsetCard((set x | x in path), Universe(ac));
  }

  /** The constructor covers the arch below every target to one level less than its fuel. */
  lemma NewCovers(id: PlanId, root: Id, ac: Links, targets: seq<Id>, fuel: nat)
    ensures fuel > 0 ==> forall t :: t in targets ==> Covers(ac, [], t, Spend(fuel), New(id, root, ac, targets, fuel))
  {
    var e := Empty(id, root);
    var ids := ArrayToObject(targets);
    InitEachCovers(e, ac, ids, fuel);
    assert New(id, root, ac, targets, fuel) == InitEach(e, ac, ids, fuel);
  }

  /** Covering every target to the number of ids in the arch covers every id the targets reach. */
  lemma CoversReach(ac: Links, targets: seq<Id>, n: nat, r: State)
    requires n >= |Universe(ac)|
    requires forall t :: t in targets ==> t in ac && Covers(ac, [], t, n, r)
    ensures forall t, k, y :: t in targets && Reaches(ac, [], t, k) && y in Get(ac, k) ==> y in Get(r.children, k)
  {
    forall t, k, y | t in targets && Reaches(ac, [], t, k) && y in Get(ac, k)
      ensures y in Get(r.children, k)
    {
      var path: seq<Id> :| IsWalk(ac, [], path) && path[0] == t && path[|path| - 1] == k;
      SimpleWalk(ac, [], path);
      var q: seq<Id> :| IsWalk(ac, [], q) && NoDup(q) && q[0] == t && q[|q| - 1] == k;
      SimpleWalkBound(ac, q);
      assert EdgesOut(ac, [], q[|q| - 1], r);
    }
  }

  /**
   * With fuel above the number of ids in the arch, the constructor links
   * every arch edge out of every id a target reaches.
   */
  lemma NewEdges(id: PlanId, root: Id, ac: Links, targets: seq<Id>, fuel: nat)
    requires fuel > |Universe(ac)|
    requires forall t :: t in targets ==> t in ac
    ensures var r := New(id, root, ac, targets, fuel);
      forall t, k, y :: t in targets && Reaches(ac, [], t, k) && y in Get(ac, k) ==> y in Get(r.children, k)
  {
    NewCovers(id, root, ac, targets, fuel);
    CoversReach(ac, targets, Spend(fuel), New(id, root, ac, targets, fuel));
  }
}

=== FILE: plan_queue.dfy ===
/**
 * The ready queue the constructor of lib/plan.js leaves behind: when the
 * root is not an id of the arch, it holds exactly the ids without arch
 * children that the targets reach.
 */
module PlanQueue {
  import opened Util
  import opened Plan
  import opened PlanLinks
  import opened PlanBuild
  import opened PlanLeaves

  /** Every edge of the plan hangs under the root or is an edge of the arch. */
  ghost predicate ArchEdges(p: State, ac: Links)
  {
    forall k, y :: y in Get(p.children, k) ==> k == p.root || y in Get(ac, k)
  }

  /** Every queued id is an id without arch children, other than the root. */
  ghost predicate LeafJobs(p: State, ac: Links)
  {
    forall y :: y in p.jobs ==> Get(ac, y) == [] && y != p.root
  }

  /** What the building steps keep: edges as above, queued ids as above, and no active job. */
  ghost predicate Building(p: State, ac: Links)
  {
    ArchEdges(p, ac) && LeafJobs(p, ac) && p.activeJobs == [] && p.root !in Universe(ac)
  }

  /**
   * From `p` to `r` the queue only grows, by ids that one of `xs` reaches,
   * and the building invariant holds in `r`.
   */
  ghost predicate Grows(p: State, r: State, ac: Links, xs: seq<Id>)
  {
    && Building(r, ac)
    && (forall y :: y in p.jobs ==> y in r.jobs)
    && (forall y :: y in r.jobs && y !in p.jobs ==> exists x :: x in xs && Reaches(ac, [], x, y))
  }

  /** Every id without arch children that `x` reaches past `done` is queued in `r`. */
  ghost predicate Full(r: State, ac: Links, done: seq<Id>, x: Id)
  {
    forall y :: Get(ac, y) == [] && Reaches(ac, done, x, y) ==> y in r.jobs
  }

  /** A walk that avoids `done` is a walk. */
  lemma ReachesAny(ac: Links, done: seq<Id>, x: Id, y: Id)
    requires Reaches(ac, done, x, y)
    ensures Reaches(ac, [], x, y)
  {
    var path: seq<Id> :| IsWalk(ac, done, path) && path[0] == x && path[|path| - 1] == y;
    assert IsWalk(ac, [], path);
  }

  /** An id other than the root, and not in the arch, reaches only ids other than the root. */
  lemma NotRoot(ac: Links, x: Id, y: Id, root: Id)
    requires Reaches(ac, [], x, y) && x != root && root !in Universe(ac)
    ensures y != root
  {
    var path: seq<Id> :| IsWalk(ac, [], path) && path[0] == x && path[|path| - 1] == y;
    if |path| > 1 {
      var k := path[|path| - 2];
      assert y in Get(ac, k);
      InUniverse(ac, k, y);
    }
  }

  /** The arch children of an id are ids of the arch, so none of them is the root. */
  lemma ChildNotRoot(ac: Links, k: Id, c: Id, root: Id)
    requires c in Get(ac, k) && root !in Universe(ac)
    ensures c != root
  {
    InUniverse(ac, k, c);
  }

  lemma GrowsRefl(p: State, ac: Links, xs: seq<Id>)
    requires Building(p, ac)
    ensures Grows(p, p, ac, xs)
  {
  }

  lemma GrowsTrans(p: State, q: State, r: State, ac: Links, xs: seq<Id>, ys: seq<Id>, zs: seq<Id>)
    requires Grows(p, q, ac, xs) && Grows(q, r, ac, ys)
    requires forall x :: x in xs ==> x in zs
    requires forall x :: x in ys ==> x in zs
    ensures Grows(p, r, ac, zs)
  {
  }

  /** Growth by ids that arch children of `x` reach is growth by ids that `x` reaches. */
  lemma GrowsUp(p: State, r: State, ac: Links, x: Id, ys: seq<Id>)
    requires Grows(p, r, ac, ys)
    requires forall c :: c in ys ==> c in Get(ac, x)
    ensures Grows(p, r, ac, [x])
  {
    forall y | y in r.jobs && y !in p.jobs
      ensures exists x' :: x' in [x] && Reaches(ac, [], x', y)
    {
      var c :| c in ys && Reaches(ac, [], c, y);
      ReachesCons(ac, [], x, c, y);
      assert x in [x];
    }
  }

  /** A full queue stays full while the queue only grows. */
  lemma FullKept(p: State, r: State, ac: Links, done: seq<Id>, x: Id)
    requires Full(p, ac, done, x) && forall y :: y in p.jobs ==> y in r.jobs
    ensures Full(r, ac, done, x)
  {
  }

  /**
   * `refactorJobs` after an injection under `x`: no queued id has plan
   * children, so none is dropped, and every id without arch children that
   * `x` reaches is queued.
   */
  lemma RefactorGrows(p: State, ac: Links, x: Id)
    requires Building(p, ac) && x != p.root
    ensures var r := RefactorBelow(p, ac, x);
      Grows(p, r, ac, [x]) && Full(r, ac, p.doneJobs, x)
  {
    var leaves := CollectLeaves(ac, p.doneJobs, x);
    var r := RefactorBelow(p, ac, x);
    CollectLeavesExact(ac, p.doneJobs, x);
    assert r == RefactorJobs(p, leaves);
    forall y | y in p.jobs
      ensures y in r.jobs
    {
      if Get(p.children, y) != [] {
        Heads(Get(p.children, y));
        assert false;
      }
    }
    forall y | y in r.jobs && y !in p.jobs
      ensures Get(ac, y) == [] && y != p.root && exists x' :: x' in [x] && Reaches(ac, [], x', y)
    {
      assert y in leaves;
      ReachesAny(ac, p.doneJobs, x, y);
      NotRoot(ac, x, y, p.root);
      assert x in [x];
    }
  }

  /** Linking `child` under the root, or under one of its arch parents, keeps the building invariant. */
  lemma LinkEdgeBuilding(p: State, ac: Links, child: Id, parent: Id)
    requires Building(p, ac) && (parent == p.root || child in Get(ac, parent))
    ensures Building(LinkEdge(p, child, parent), ac)
  {
    LinkEdgeLists(p, child, parent);
  }

  /**
   * `injectSubArch` of `child` under the root or one of its arch parents
   * only queues ids that `child` reaches, and when it runs at all, queues
   * every id without arch children that `child` reaches.
   */
  lemma {:induction false} InjectGrows(p: State, ac: Links, child: Id, parent: Id, fuel: nat)
    requires Building(p, ac) && child != p.root
    requires parent == p.root || child in Get(ac, parent)
    ensures var r := InjectSubArch(p, ac, child, parent, fuel);
      && Grows(p, r, ac, [child])
      && (fuel > 0 && parent in p.parents && child !in p.doneJobs && parent !in p.doneJobs ==> Full(r, ac, p.doneJobs, child))
    decreases fuel, 0, 0
  {
    var r := InjectSubArch(p, ac, child, parent, fuel);
    if fuel > 0 && parent in p.parents && child !in p.doneJobs && parent !in p.doneJobs {
      var p1 := LinkEdge(p, child, parent);
      LinkEdgeBuilding(p, ac, child, parent);
      var ids := Get(ac, child);
      var p2 := InjectEach(p1, ac, child, ids, 0, Spend(fuel));
      InjectEachGrows(p1, ac, child, ids, 0, Spend(fuel));
      GrowsUp(p1, p2, ac, child, ids);
      assert r == RefactorBelow(p2, ac, child);
      RefactorGrows(p2, ac, child);
      GrowsTrans(p1, p2, r, ac, [child], [child], [child]);
    } else {
      GrowsRefl(p, ac, [child]);
    }
  }

  /** The loop of `injectSubArch` over arch children of `parent` only queues ids they reach. */
  lemma {:induction false} InjectEachGrows(p: State, ac: Links, parent: Id, ids: seq<Id>, i: nat, fuel: nat)
    requires i <= |ids| && Building(p, ac)
    requires forall c :: c in ids ==> c in Get(ac, parent)
    ensures Grows(p, InjectEach(p, ac, parent, ids, i, fuel), ac, ids)
    decreases fuel, 1, |ids| - i
  {
    if i == |ids| {
      GrowsRefl(p, ac, ids);
    } else {
      ChildNotRoot(ac, parent, ids[i], p.root);
      var p1 := InjectSubArch(p, ac, ids[i], parent, fuel);
      InjectGrows(p, ac, ids[i], parent, fuel);
      InjectEachGrows(p1, ac, parent, ids, i + 1, fuel);
      GrowsTrans(p, p1, InjectEach(p1, ac, parent, ids, i + 1, fuel), ac, [ids[i]], ids, ids);
    }
  }

  /** `_gatherIDs` from `id` only queues ids that `id` reaches. */
  lemma {:induction false} GatherGrows(p: State, ac: Links, id: Id, fuel: nat)
    requires Building(p, ac)
    ensures Grows(p, GatherIDs(p, ac, id, fuel), ac, [id])
    decreases fuel, 0
  {
    if fuel == 0 {
      GrowsRefl(p, ac, [id]);
    } else {
      var ids := Get(ac, id);
      var r := GatherEach(p, ac, id, ids, 0, Spend(fuel));
      GatherEachGrows(p, ac, id, ids, 0, Spend(fuel));
      GrowsUp(p, r, ac, id, ids);
      GatherUnfold(p, ac, id, fuel);
    }
  }

  /** The loop of `_gatherIDs` over arch children of `parent` only queues ids they reach. */
  lemma {:induction false} GatherEachGrows(p: State, ac: Links, parent: Id, ids: seq<Id>, i: nat, fuel: nat)
    requires i <= |ids| && Building(p, ac)
    requires forall c :: c in ids ==> c in Get(ac, parent)
    ensures Grows(p, GatherEach(p, ac, parent, ids, i, fuel), ac, ids)
    decreases fuel, 1, |ids| - i
  {
    if i == |ids| {
      GrowsRefl(p, ac, ids);
    } else {
      ChildNotRoot(ac, parent, ids[i], p.root);
      var p1 := Link(p, ac, [ids[i]], One(parent), fuel);
      LinkOne(p, ac, ids[i], One(parent), fuel);
      InjectGrows(p, ac, ids[i], parent, fuel);
      var q := GatherIDs(p1, ac, ids[i], fuel);
      GatherGrows(p1, ac, ids[i], fuel);
      GrowsTrans(p, p1, q, ac, [ids[i]], [ids[i]], [ids[i]]);
      GatherEachGrows(q, ac, parent, ids, i + 1, fuel);
      GrowsTrans(p, q, GatherEach(q, ac, parent, ids, i + 1, fuel), ac, [ids[i]], ids, ids);
    }
  }

  /**
   * The loop of `init` only queues ids the targets reach, and, when the
   * root is a live parent, queues every id without arch children that a
   * target not done reaches.
   */
  lemma {:induction false} InitEachGrows(p: State, ac: Links, ids: seq<Id>, fuel: nat)
    requires Building(p, ac) && p.root !in ids
    ensures var r := InitEach(p, ac, ids, fuel);
      && Grows(p, r, ac, ids)
      && (fuel > 0 && p.root in p.parents && p.root !in p.doneJobs ==>
            forall t :: t in ids && t !in p.doneJobs ==> Full(r, ac, p.doneJobs, t))
    decreases |ids|
  {
    var r := InitEach(p, ac, ids, fuel);
    if |ids| == 0 {
      GrowsRefl(p, ac, ids);
    } else {
      var t0 := ids[0];
      var p1 := Link(p, ac, [t0], Absent, fuel);
      LinkOne(p, ac, t0, Absent, fuel);
      InjectGrows(p, ac, t0, p.root, fuel);
      var q := GatherIDs(p1, ac, t0, fuel);
      GatherGrows(p1, ac, t0, fuel);
      GrowsTrans(p, p1, q, ac, [t0], [t0], ids);
      InjectExtends(p, ac, t0, p.root, fuel);
      GatherExtends(p1, ac, t0, fuel);
      ExtendsTrans(p, p1, q);
      assert p.root !in ids[1..];
      InitEachGrows(q, ac, ids[1..], fuel);
      assert r == InitEach(q, ac, ids[1..], fuel);
      GrowsTrans(p, q, r, ac, ids, ids[1..], ids);
      if fuel > 0 && p.root in p.parents && p.root !in p.doneJobs {
        forall t | t in ids && t !in p.doneJobs
          ensures Full(r, ac, p.doneJobs, t)
        {
          if t == t0 {
            assert forall y :: y in p1.jobs ==> y in r.jobs;
            FullKept(p1, r, ac, p.doneJobs, t0);
          } else {
            assert t in ids[1..];
          }
        }
      }
    }
  }

  /**
   * When the root is not an id of the arch nor a target, the constructor's
   * ready queue holds exactly the ids without arch children that some
   * target reaches.
   */
  lemma NewQueue(id: PlanId, root: Id, ac: Links, targets: seq<Id>, fuel: nat)
    requires root !in Universe(ac) && root !in targets && fuel > 0
    ensures var r := New(id, root, ac, targets, fuel);
      forall y :: y in r.jobs <==> Get(ac, y) == [] && exists t :: t in targets && Reaches(ac, [], t, y)
  {
    var e := Empty(id, root);
    var ids := ArrayToObject(targets);
    var r := New(id, root, ac, targets, fuel);
    assert Building(e, ac);
    InitEachGrows(e, ac, ids, fuel);
    assert r == InitEach(e, ac, ids, fuel);
    forall y
      ensures y in r.jobs <==> Get(ac, y) == [] && exists t :: t in targets && Reaches(ac, [], t, y)
    {
      if Get(ac, y) == [] && exists t :: t in targets && Reaches(ac, [], t, y) {
        var t :| t in targets && Reaches(ac, [], t, y);
        assert t in ids;
        assert Full(r, ac, [], t);
      }
    }
  }

  /** The arch `A -> B -> C` of the test suite, as its children table. */
  function SimpleArch(): (r: Links)
    ensures r.Keys == {"A", "B", "C"}
  {
    map["A" := ["B"], "B" := ["C"], "C" := []]
  }

  /** A plan on the arch `A -> B -> C` for the target `A` queues only `C`. */
  lemma SimpleArchQueue(id: PlanId, root: Id, fuel: nat)
    requires root !in {"A", "B", "C"} && fuel > 0
    ensures New(id, root, SimpleArch(), ["A"], fuel).jobs == ["C"]
  {
    SimpleArchLeaves();
    QueueOfOne(id, root, SimpleArch(), ["A"], "C", fuel);
  }

  /** When the targets reach exactly one id without arch children, the constructor queues just that id. */
  lemma QueueOfOne(id: PlanId, root: Id, ac: Links, ts: seq<Id>, c: Id, fuel: nat)
    requires root !in Universe(ac) && root !in ts && fuel > 0
    requires forall y :: Get(ac, y) == [] && (exists t :: t in ts && Reaches(ac, [], t, y)) <==> y == c
    ensures New(id, root, ac, ts, fuel).jobs == [c]
  {
    var r := New(id, root, ac, ts, fuel);
    NewQueue(id, root, ac, ts, fuel);
    OnlyReached(r.jobs, ac, ts, c);
  }

  /** A list without repeats that holds exactly the reached leaves, when `c` is the only one, is `[c]`. */
  lemma OnlyReached(jobs: seq<Id>, ac: Links, ts: seq<Id>, c: Id)
    requires NoDup(jobs)
    requires forall y :: y in jobs <==> Get(ac, y) == [] && exists t :: t in ts && Reaches(ac, [], t, y)
    requires forall y :: Get(ac, y) == [] && (exists t :: t in ts && Reaches(ac, [], t, y)) <==> y == c
    ensures jobs == [c]
  {
    assert Get(ac, c) == [] && exists t :: t in ts && Reaches(ac, [], t, c);
    OnlyOne(jobs, c);
  }

  /** In the arch `A -> B -> C` the ids are `A`, `B` and `C`, and `C` is the one id without children that `A` reaches. */
  lemma SimpleArchLeaves()
    ensures Universe(SimpleArch()) == {"A", "B", "C"}
    ensures forall y :: Get(SimpleArch(), y) == [] && (exists t :: t in ["A"] && Reaches(SimpleArch(), [], t, y)) <==> y == "C"
  {
    var ac := SimpleArch();
    var s: set<Id> := {"A", "B", "C"};
    assert IsWalk(ac, [], ["A", "B", "C"]);
    assert Reaches(ac, [], "A", "C") && Get(ac, "C") == [];
    assert "A" in ["A"];
    forall y | Get(ac, y) == [] && (exists t :: t in ["A"] && Reaches(ac, [], t, y))
      ensures y == "C"
    {
      var path: seq<Id> :| IsWalk(ac, [], path) && path[0] == "A" && path[|path| - 1] == y;
      WalkInside(ac, [], s, path, |path| - 1);
    }
  }

  /** A sequence without repeats whose only element is `c` is `[c]`. */
  lemma OnlyOne(s: seq<Id>, c: Id)
    requires NoDup(s) && c in s && forall y :: y in s ==> y == c
    ensures s == [c]
  {
    if |s| > 1 {
      Heads(s);
      assert false;
    }
  }

  /** The first two ids of a sequence are in it. */
  lemma Heads(s: seq<Id>)
    requires |s| > 0
    ensures s[0] in s && (|s| > 1 ==> s[1] in s)
  {
  }
}

=== FILE: plan_remove.dfy ===
/**
 * Properties of the plan's `removeNode` and `removeTree`: on consistent
 * tables `removeNode` takes exactly one id out of every list, `removeTree`
 * as written can leave a sibling behind, and the corrected loop removes
 * every child it is asked to.
 */
module PlanRemove {
  import opened Util
  import opened Asserts
  import opened Plan
  import opened PlanLinks
  import opened PlanEdit

  /**
   * On consistent tables, `removeNode` succeeds, takes `x` out of every
   * remaining list and changes nothing else in them, and keeps the tables
   * consistent.
   */
  lemma RemoveNodeExact(p: State, x: Id)
    requires Consistent(p.parents, p.children) && x in p.parents
    ensures var r := PlanEdit.RemoveNode(p, x);
      && r.Ok?
      && (forall k :: k in r.value.parents ==> r.value.parents[k] == RemoveFirst(p.parents[k], x))
      && (forall k :: k in r.value.children ==> r.value.children[k] == RemoveFirst(p.children[k], x))
      && (forall k :: k in r.value.children ==> x !in r.value.children[k] && x !in r.value.parents[k])
      && Consistent(r.value.parents, r.value.children)
  {
    Util.RemoveNodeConsistent(p.children, p.parents, x);
  }

  /** `removeNode` of an id other than the root keeps a valid plan valid. */
  lemma RemoveNodeValid(p: State, x: Id)
    requires Valid(p) && x in p.parents && x != p.root
    ensures var r := PlanEdit.RemoveNode(p, x); r.Ok? && Valid(r.value)
  {
    RemoveNodeExact(p, x);
    var t := Util.RemoveNode(p.children, p.parents, x);
    var q := p.(children := t.0, parents := t.1);
    assert Valid(q);
    ValidJobsOnly(q, RescanJobs(RemoveJob(q, x), p.parents[x]));
  }

  /**
   * `rescanJobs` has no root guard: removing the last child of the root
   * queues the root itself as a job.
   */
  lemma RemoveNodeQueuesRoot(p: State, x: Id)
    requires Valid(p) && x in p.parents && x != p.root
    requires p.parents[x] == [p.root] && p.children[p.root] == [x]
    requires p.root !in p.activeJobs
    ensures var r := PlanEdit.RemoveNode(p, x); r.Ok? && p.root in r.value.jobs
  {
    RemoveNodeExact(p, x);
    var t := Util.RemoveNode(p.children, p.parents, x);
    var q := RemoveJob(p.(children := t.0, parents := t.1), x);
    assert q.children[p.root] == [];
    var q1 := RemoveJobs(q, Get(q.parents, p.root));
    assert Get(q1.children, p.root) == [];
    assert RescanJobs(q, [p.root]) == RescanJobs(AddJob(q1, p.root), []);
  }

  // ---------------------------------------------------------------------------
  // removeTree as written

  /**
   * A node `a` with two childless children `b` and `c`, each with `a` as its
   * only parent: removing `b` shortens the live list of `a` to `[c]`, the
   * loop's next position is past its end, and `c` survives `removeTree(a)`
   * with no parent left.
   */
  lemma RemoveTreeLeavesSibling(p: State, a: Id, b: Id, c: Id, forced: bool, fuel: nat)
    requires Consistent(p.parents, p.children) && a in p.parents
    requires a != b && a != c && b != c
    requires p.children[a] == [b, c] && p.parents[b] == [a] && p.parents[c] == [a]
    requires Get(p.children, b) == [] && fuel > 0
    ensures var r := RemoveTree(p, a, forced, fuel);
      && r.Ok?
      && a !in r.value.parents && b !in r.value.parents
      && c in r.value.parents && r.value.parents[c] == []
  {
    RemoveLeafB(p, a, b, c);
    SubLiveLeaf(p, b, forced, fuel);
    EachLivePast(PlanEdit.RemoveNode(p, b).value, a, 2, 1, forced, fuel);
    RemoveNodeExact(PlanEdit.RemoveNode(p, b).value, a);
    assert RemoveFirst([a], a) == [];
  }

  /** Removing the leaf `b` leaves `[c]` under `a` and `a` as the only parent of `c`. */
  lemma RemoveLeafB(p: State, a: Id, b: Id, c: Id)
    requires Consistent(p.parents, p.children) && a in p.parents
    requires a != b && a != c && b != c
    requires p.children[a] == [b, c] && p.parents[b] == [a] && p.parents[c] == [a]
    ensures var r := PlanEdit.RemoveNode(p, b);
      && r.Ok? && Consistent(r.value.parents, r.value.children)
      && a in r.value.parents && r.value.children[a] == [c] && r.value.parents[c] == [a]
      && b !in r.value.parents
      && (Get(p.children, c) == [] ==> Get(r.value.children, c) == [])
  {
    RemoveNodeExact(p, b);
    assert RemoveFirst([b, c], b) == [c];
  }

  /** `_removeTree` of a childless node with one parent is `removeNode`. */
  lemma SubLiveLeaf(p: State, x: Id, forced: bool, fuel: nat)
    requires fuel > 0 && x in p.parents && |p.parents[x]| == 1 && x in p.children && p.children[x] == []
    ensures RemoveSubLive(p, x, forced, fuel) == PlanEdit.RemoveNode(p, x)
  {
    assert RemoveEachLive(p, x, 0, 0, forced, Spend(fuel)) == Ok(p);
  }

  /** Positions past the end of the live list are all skipped. */
  lemma {:induction false} EachLivePast(p: State, parent: Id, len: nat, i: nat, forced: bool, fuel: nat)
    requires |Get(p.children, parent)| <= i
    ensures RemoveEachLive(p, parent, len, i, forced, fuel) == Ok(p)
    decreases len - i
  {
    if i < len {
      EachLivePast(p, parent, len, i + 1, forced, fuel);
    }
  }

  // ---------------------------------------------------------------------------
  // removeTree, corrected

  /**
   * With fuel, a successful `_removeTree` over a snapshot leaves `id` out of
   * the plan when it is forced, when `id` had a single parent, or when it was
   * already gone; a node with several parents is kept by the unforced form.
   */
  lemma {:induction false} RemoveSubFixedGone(p: State, id: Id, forced: bool, fuel: nat)
    ensures var r := RemoveSubFixed(p, id, forced, fuel);
      && (fuel > 0 && r.Ok? && (forced || id !in p.parents || |p.parents[id]| == 1) ==> id !in r.value.parents)
      && (id in p.parents && |p.parents[id]| != 1 && !forced ==> r == Ok(p))
  {
  }

  /** A successful result holds none of `ids[i..]`. */
  predicate GoneFrom(r: Result<State>, ids: seq<Id>, i: nat)
  {
    r.Ok? ==> forall j :: i <= j < |ids| ==> ids[j] !in r.value.parents
  }

  /**
   * With fuel, a successful forced loop over the snapshot `ids[i..]` leaves
   * none of those ids in the plan.
   */
  lemma {:induction false} RemoveEachFixedGone(p: State, ids: seq<Id>, i: nat, fuel: nat)
    requires i <= |ids|
    ensures fuel > 0 ==> GoneFrom(RemoveEachFixed(p, ids, i, true, fuel), ids, i)
    decreases |ids| - i
  {
    if i < |ids| && fuel > 0 {
      var q := RemoveSubFixed(p, ids[i], true, fuel);
      var j := i + 1;
      if q.Ok? {
        RemoveEachFixedGone(q.value, ids, j, fuel);
      }
      EachFixedGoneStep(p, ids, i, j, fuel, q);
    }
  }

  /** One turn of the forced loop: the removed id joins those the rest of the loop removes. */
  lemma EachFixedGoneStep(p: State, ids: seq<Id>, i: nat, j: nat, fuel: nat, q: Result<State>)
    requires i < |ids| && fuel > 0 && j == i + 1
    requires q == RemoveSubFixed(p, ids[i], true, fuel)
    requires q.Ok? ==> GoneFrom(RemoveEachFixed(q.value, ids, j, true, fuel), ids, j)
    ensures GoneFrom(RemoveEachFixed(p, ids, i, true, fuel), ids, i)
  {
    RemoveSubFixedGone(p, ids[i], true, fuel);
  }

  /**
   * The forced, corrected `removeTree` with fuel removes `id` and every one
   * of its children when it succeeds.
   */
  lemma RemoveTreeFixedForced(p: State, id: Id, fuel: nat)
    requires fuel > 0
    ensures var r := RemoveTreeFixed(p, id, true, fuel);
      r.Ok? ==> id !in r.value.parents && forall c :: c in p.children[id] ==> c !in r.value.parents
  {
    if id in p.parents && id in p.children {
      RemoveEachFixedGone(p, p.children[id], 0, fuel);
    }
  }

  /**
   * On the shape where the code as written leaves `c` behind, the corrected
   * `removeTree(a)` succeeds and removes `a`, `b` and `c`.
   */
  lemma RemoveTreeFixedTwoLeaves(p: State, a: Id, b: Id, c: Id, forced: bool, fuel: nat)
    requires Consistent(p.parents, p.children) && a in p.parents
    requires a != b && a != c && b != c
    requires p.children[a] == [b, c] && p.parents[b] == [a] && p.parents[c] == [a]
    requires Get(p.children, b) == [] && Get(p.children, c) == [] && fuel > 0
    ensures var r := RemoveTreeFixed(p, a, forced, fuel);
      && r.Ok?
      && a !in r.value.parents && b !in r.value.parents && c !in r.value.parents
  {
    RemoveLeafB(p, a, b, c);
    SubFixedLeaf(p, b, forced, fuel);
    EachFixedUnfold(p, [b, c], 0, forced, fuel, PlanEdit.RemoveNode(p, b).value);
    SubFixedLeaf(PlanEdit.RemoveNode(p, b).value, c, forced, fuel);
    RemoveNodeExact(PlanEdit.RemoveNode(p, b).value, c);
    EachFixedUnfold(PlanEdit.RemoveNode(p, b).value, [b, c], 1, forced, fuel,
                    PlanEdit.RemoveNode(PlanEdit.RemoveNode(p, b).value, c).value);
    RemoveNodeExact(PlanEdit.RemoveNode(PlanEdit.RemoveNode(p, b).value, c).value, a);
  }

  /** The corrected `_removeTree` of a childless node with one parent is `removeNode`. */
  lemma SubFixedLeaf(p: State, x: Id, forced: bool, fuel: nat)
    requires fuel > 0 && x in p.parents && |p.parents[x]| == 1 && x in p.children && p.children[x] == []
    ensures RemoveSubFixed(p, x, forced, fuel) == PlanEdit.RemoveNode(p, x)
  {
    assert RemoveEachFixed(p, [], 0, forced, Spend(fuel)) == Ok(p);
  }

  /** One successful turn of the corrected loop hands its result to the next turn. */
  lemma EachFixedUnfold(p: State, ids: seq<Id>, i: nat, forced: bool, fuel: nat, q: State)
    requires i < |ids| && RemoveSubFixed(p, ids[i], forced, fuel) == Ok(q)
    ensures RemoveEachFixed(p, ids, i, forced, fuel) == RemoveEachFixed(q, ids, i + 1, forced, fuel)
  {
  }
}

=== FILE: util.dfy ===
/**
 * List and map surgery shared by the arch and the plans (lib/util.js).
 *
 * Ids are strings. An adjacency table (`parents` or `children`) maps an id to
 * the list of ids linked to it; JavaScript arrays become sequences and
 * JavaScript objects used as sets or tables become Dafny sets and maps.
 */
module Util {

  /**
   * A node id. The source tests ids for truthiness in several places, where
   * the empty string would count as missing; the model rules it out.
   */
  type Id = s: string | |s| > 0 witness "_"

  /** An adjacency table: id to the ordered list of its parents or children. */
  type Links = map<Id, seq<Id>>

  /** A value that may be missing (`undefined` in the source). */
  datatype Option<T> = None | Some(value: T)

  /** An argument the source accepts either as one id or as an array of ids. */
  datatype IdArg = Absent | One(id: Id) | Many(ids: seq<Id>)

  /** JavaScript truthiness of an optional id argument: `undefined` is falsy, every id and every array is truthy. */
  predicate Given(a: IdArg)
  {
    !a.Absent?
  }

  /** No element occurs twice. */
  predicate NoDup<T(==)>(s: seq<T>)
  {
    forall i, j :: 0 <= i < j < |s| ==> s[i] != s[j]
  }

  /** The elements of `s` that are not in `excl`, in order. */
  function Without(s: seq<Id>, excl: seq<Id>): (r: seq<Id>)
    ensures forall x :: x in r <==> x in s && x !in excl
    ensures NoDup(s) ==> NoDup(r)
    ensures |r| <= |s|
  {
    if |s| == 0 then []
    else
      var rest := Without(s[1..], excl);
      assert forall x :: x in s <==> x == s[0] || x in s[1..];
      if IndexOf(excl, s[0]) == -1 then
        assert NoDup(s) ==> s[0] !in s[1..] && NoDup(s[1..]);
        [s[0]] + rest
      else rest
  }

  /**
   * One unit of recursion fuel spent. The model bounds the recursions the
   * source leaves unguarded by a `fuel` count; spending it through this
   * function rather than writing `fuel - 1` keeps every recursive call on
   * the same argument term.
   */
  function Spend(fuel: nat): (r: nat)
    requires fuel > 0
    ensures r < fuel
  {
    fuel - 1
  }

  /** The list stored under `k`, or the empty list when there is no entry. */
  function Get(m: Links, k: Id): (r: seq<Id>)
    ensures k in m ==> r == m[k]
    ensures k !in m ==> r == []
  {
    if k in m then m[k] else []
  }

  /** `toArray`: an array argument is returned as is, a single id is wrapped in a singleton. */
  function ToArray(a: IdArg): (r: seq<Id>)
    requires !a.Absent?
    ensures a.Many? ==> r == a.ids
    ensures a.One? ==> |r| == 1 && r[0] == a.id
  {
    match a
    case One(id) => [id]
    case Many(ids) => ids
  }

  /**
   * `arrayToObject`: the keys of the object built from `a`, in the order in
   * which they were first inserted.
   */
  function ArrayToObject(a: seq<Id>): (r: seq<Id>)
    ensures forall x :: x in r <==> x in a
    ensures NoDup(r)
  {
    AddKeys([], a)
  }

  /** Appends to `keys` every element of `a` not yet present, in order. */
  function AddKeys(keys: seq<Id>, a: seq<Id>): (r: seq<Id>)
    requires NoDup(keys)
    ensures forall x :: x in r <==> x in keys || x in a
    ensures NoDup(r)
    ensures |keys| <= |r| && r[..|keys|] == keys
    decreases |a|
  {
    if |a| == 0 then keys
    else if a[0] in keys then AddKeys(keys, a[1..])
    else AddKeys(keys + [a[0]], a[1..])
  }

  /** `Array.prototype.indexOf`: the first position of `x`, or -1. */
  function IndexOf<T(==,!new)>(s: seq<T>, x: T): (r: int)
    ensures -1 <= r < |s|
    ensures r == -1 <==> x !in s
    ensures 0 <= r ==> s[r] == x && x !in s[..r]
  {
    if |s| == 0 then -1
    else if s[0] == x then 0
    else
      var i := IndexOf(s[1..], x);
      assert s[1..][..if i < 0 then 0 else i] == s[1..1 + if i < 0 then 0 else i];
      if i == -1 then -1 else i + 1
  }

  /** The guarded splice `i !== -1 && arr.splice(i, 1)`: drops the first occurrence of `x`, if any. */
  function RemoveFirst<T(==,!new)>(s: seq<T>, x: T): (r: seq<T>)
    ensures x !in s ==> r == s
    ensures x in s ==> |r| == |s| - 1
    ensures NoDup(s) ==> x !in r && NoDup(r)
    ensures forall y :: y != x ==> (y in r <==> y in s)
  {
    var i := IndexOf(s, x);
    if i == -1 then s
    else
      assert s == s[..i] + [s[i]] + s[i + 1..];
      SliceOutNoDup(s, i);
      s[..i] + s[i + 1..]
  }

  /** Cutting position `i` out of a duplicate-free list leaves it duplicate-free and without `s[i]`. */
  lemma SliceOutNoDup<T>(s: seq<T>, i: nat)
    requires i < |s|
    ensures NoDup(s) ==> NoDup(s[..i] + s[i + 1..]) && s[i] !in s[..i] + s[i + 1..]
  {
    if NoDup(s) {
      var r := s[..i] + s[i + 1..];
      forall a, b | 0 <= a < b < |r|
        ensures r[a] != r[b]
      {
        var a' := if a < i then a else a + 1;
        var b' := if b < i then b else b + 1;
        assert r[a] == s[a'] && r[b] == s[b'];
      }
      forall k | 0 <= k < |r|
        ensures r[k] != s[i]
      {
        var k' := if k < i then k else k + 1;
        assert r[k] == s[k'] && k' != i;
      }
    }
  }

  /**
   * The unguarded splice `arr.splice(arr.indexOf(x), 1)`. When `x` is absent
   * the index is -1 and JavaScript's `splice(-1, 1)` drops the LAST element.
   */
  function SpliceIndexOf<T(==,!new)>(s: seq<T>, x: T): (r: seq<T>)
    ensures x in s ==> r == RemoveFirst(s, x)
    ensures x !in s && |s| > 0 ==> r == s[..|s| - 1]
    ensures x !in s && |s| == 0 ==> r == []
  {
    var i := IndexOf(s, x);
    if i == -1 then (if |s| == 0 then s else s[..|s| - 1])
    else RemoveFirst(s, x)
  }

  /** `unlink`: removes the first occurrence of `id` from a node's parent and child lists. */
  function Unlink(parents: seq<Id>, children: seq<Id>, id: Id): (r: (seq<Id>, seq<Id>))
    ensures id !in parents ==> r.0 == parents
    ensures id !in children ==> r.1 == children
    ensures id in parents ==> |r.0| == |parents| - 1
    ensures id in children ==> |r.1| == |children| - 1
    ensures forall y :: y != id ==> (y in r.0 <==> y in parents) && (y in r.1 <==> y in children)
    ensures NoDup(parents) ==> id !in r.0 && NoDup(r.0)
    ensures NoDup(children) ==> id !in r.1 && NoDup(r.1)
  {
    (RemoveFirst(parents, id), RemoveFirst(children, id))
  }

  /**
   * `_removeNode`: for every neighbour listed in `ids` that has an entry in
   * `all`, the unguarded splice removes `id` from that neighbour's list.
   */
  function RemoveFromNeighbours(ids: seq<Id>, all: Links, id: Id): (r: Links)
    ensures r.Keys == all.Keys
    ensures forall k :: k in all && k !in ids ==> r[k] == all[k]
    ensures NoDup(ids) && (forall n :: n in ids && n in all ==> id in all[n]) ==>
              forall k :: k in ids && k in all ==> r[k] == RemoveFirst(all[k], id)
    decreases |ids|
  {
    if |ids| == 0 then all
    else
      var n := ids[0];
      var all' := if n in all then all[n := SpliceIndexOf(all[n], id)] else all;
      assert NoDup(ids) ==> NoDup(ids[1..]) && n !in ids[1..];
      assert forall k :: k in ids <==> k == n || k in ids[1..];
      RemoveFromNeighbours(ids[1..], all', id)
  }

  /**
   * `removeNode`: detaches `id` from its children's parent lists and its
   * parents' child lists, then deletes its own entries from both tables.
   */
  function RemoveNode(chAll: Links, pAll: Links, id: Id): (r: (Links, Links))
    ensures r.0.Keys == chAll.Keys - {id}
    ensures r.1.Keys == pAll.Keys - {id}
  {
    var pAll' := RemoveFromNeighbours(Get(chAll, id), pAll, id);
    var chAll' := RemoveFromNeighbours(Get(pAll', id), chAll, id);
    (chAll' - {id}, pAll' - {id})
  }

  /**
   * `hasLink` given the node's presence and its link list: false for an absent
   * node or an empty `ids`, otherwise whether every id is in the list.
   */
  function HasLink(present: bool, links: seq<Id>, ids: seq<Id>): (r: bool)
    ensures r <==> present && |ids| > 0 && forall i :: 0 <= i < |ids| ==> ids[i] in links
  {
    present && AllIn(links, ids, 0) && |ids| > 0
  }

  /** The loop of `hasLink` from position `i` on: no id from `i` on is missing. */
  function AllIn(links: seq<Id>, ids: seq<Id>, i: nat): (r: bool)
    requires i <= |ids|
    ensures r <==> forall k :: i <= k < |ids| ==> ids[k] in links
    decreases |ids| - i
  {
    if i == |ids| then true
    else if IndexOf(links, ids[i]) == -1 then false
    else AllIn(links, ids, i + 1)
  }

  /** `isArrayInObject`: every element of `a` is a key of the object. */
  function IsArrayInObject(a: seq<Id>, keys: set<Id>): (r: bool)
    ensures r <==> forall i :: 0 <= i < |a| ==> a[i] in keys
  {
    if |a| == 0 then true
    else a[0] in keys && IsArrayInObject(a[1..], keys)
  }

  /** `addArrayToObject`: every element of `a` becomes a key and existing keys stay. */
  function AddArrayToObject(a: seq<Id>, keys: set<Id>): (r: set<Id>)
    ensures keys <= r
    ensures forall i :: 0 <= i < |a| ==> a[i] in r
    ensures forall x :: x in r ==> x in keys || x in a
  {
    if |a| == 0 then keys
    else AddArrayToObject(a[1..], keys + {a[0]})
  }

  /**
   * The two tables are mutually consistent adjacency: they have the same keys,
   * every listed neighbour has an entry, `c` is a child of `p` exactly when `p`
   * is a parent of `c`, and no list repeats an id.
   */
  predicate Consistent(parents: Links, children: Links)
  {
    && parents.Keys == children.Keys
    && Mirrored(children, parents)
    && Mirrored(parents, children)
    && ListsNoDup(parents)
    && ListsNoDup(children)
  }

  /** Every id listed under `k` in `m` has an entry in `back` listing `k`. */
  predicate Mirrored(m: Links, back: Links)
  {
    forall k, x :: k in m && x in m[k] ==> x in back && k in back[x]
  }

  /** No list of the table repeats an id. */
  predicate ListsNoDup(m: Links)
  {
    forall k :: k in m ==> NoDup(m[k])
  }

  /**
   * On mutually consistent tables, `removeNode` leaves every remaining list
   * equal to its old value with `id` taken out, so the tables stay consistent
   * and `id` is listed nowhere.
   */
  lemma RemoveNodeConsistent(chAll: Links, pAll: Links, id: Id)
    requires Consistent(pAll, chAll)
    ensures var r := RemoveNode(chAll, pAll, id);
      && (forall k :: k in r.0 ==> r.0[k] == RemoveFirst(chAll[k], id))
      && (forall k :: k in r.1 ==> r.1[k] == RemoveFirst(pAll[k], id))
      && Consistent(r.1, r.0)
      && (forall k :: k in r.0 ==> id !in r.0[k] && id !in r.1[k])
  {
    RemoveNodeLists(chAll, pAll, id);
    var r := RemoveNode(chAll, pAll, id);
    RemoveEverywhere(pAll, chAll, r.1, r.0, id);
  }

  /** The list-by-list effect of `removeNode` on consistent tables. */
  lemma RemoveNodeLists(chAll: Links, pAll: Links, id: Id)
    requires Consistent(pAll, chAll)
    ensures var r := RemoveNode(chAll, pAll, id);
      && (forall k :: k in r.0 ==> r.0[k] == RemoveFirst(chAll[k], id))
      && (forall k :: k in r.1 ==> r.1[k] == RemoveFirst(pAll[k], id))
  {
    NeighboursRemoved(Get(chAll, id), pAll, id);
    var ps := Get(RemoveFromNeighbours(Get(chAll, id), pAll, id), id);
    RemovedParentsOfId(chAll, pAll, id);
    NeighboursRemoved(ps, chAll, id);
  }

  /**
   * After the first neighbour walk of `removeNode`, the list under `id` in
   * the parent table still names, without repeats, every list of the child
   * table that holds `id`.
   */
  lemma RemovedParentsOfId(chAll: Links, pAll: Links, id: Id)
    requires Consistent(pAll, chAll)
    ensures var ps := Get(RemoveFromNeighbours(Get(chAll, id), pAll, id), id);
      && NoDup(ps)
      && (forall n :: n in ps && n in chAll ==> id in chAll[n])
      && (forall k :: k in chAll && k !in ps && k != id ==> id !in chAll[k])
  {
    var ps := Get(RemoveFromNeighbours(Get(chAll, id), pAll, id), id);
    if id in pAll {
      RemoveListed(Get(chAll, id), pAll, id, id);
      assert forall q :: q in ps ==> q in pAll[id];
      forall k | k in chAll && k !in ps && k != id
        ensures id !in chAll[k]
      {
        if id in chAll[k] {
          RemoveFirstKeeps(pAll[id], id, k);
        }
      }
    }
  }

  /**
   * When `ids` names, without repeats, every list of `all` that holds `id`
   * (the list under `id` itself aside), the neighbour walk leaves each other
   * list equal to its old value with `id` taken out.
   */
  lemma NeighboursRemoved(ids: seq<Id>, all: Links, id: Id)
    requires NoDup(ids) && ListsNoDup(all)
    requires forall n :: n in ids && n in all ==> id in all[n]
    requires forall k :: k in all && k !in ids && k != id ==> id !in all[k]
    ensures var r := RemoveFromNeighbours(ids, all, id);
      forall k :: k in r && k != id ==> r[k] == RemoveFirst(all[k], id)
  {
  }

  /** The list under `k` after the neighbour walk, for a `k` the walk visits. */
  lemma RemoveListed(ids: seq<Id>, all: Links, id: Id, k: Id)
    requires NoDup(ids) && ListsNoDup(all)
    requires forall n :: n in ids && n in all ==> id in all[n]
    requires k in all
    ensures var r := RemoveFromNeighbours(ids, all, id);
      && (k in ids ==> r[k] == RemoveFirst(all[k], id))
      && (k !in ids ==> r[k] == all[k])
      && NoDup(r[k]) && forall q :: q in r[k] ==> q in all[k]
  {
  }

  /** Taking `id` out of every list and deleting its entries keeps consistent tables consistent. */
  lemma RemoveEverywhere(pa: Links, ch: Links, pa': Links, ch': Links, id: Id)
    requires Consistent(pa, ch)
    requires pa'.Keys == pa.Keys - {id} && ch'.Keys == ch.Keys - {id}
    requires forall k :: k in ch' ==> ch'[k] == RemoveFirst(ch[k], id)
    requires forall k :: k in pa' ==> pa'[k] == RemoveFirst(pa[k], id)
    ensures Consistent(pa', ch')
    ensures forall k :: k in ch' ==> id !in ch'[k] && id !in pa'[k]
  {
    forall k, y | k in ch'
      ensures y in ch'[k] <==> y in ch[k] && y != id
      ensures y in pa'[k] <==> y in pa[k] && y != id
    {
      RemoveFirstKeeps(ch[k], id, y);
      RemoveFirstKeeps(pa[k], id, y);
    }
    RemoveMirrored(ch, pa, ch', pa', id);
    RemoveMirrored(pa, ch, pa', ch', id);
  }

  /** One direction of `RemoveEverywhere`, stated on membership alone. */
  lemma RemoveMirrored(m: Links, back: Links, m': Links, back': Links, id: Id)
    requires Mirrored(m, back)
    requires m'.Keys == m.Keys - {id} && back'.Keys == back.Keys - {id}
    requires forall k, y :: k in m' ==> (y in m'[k] <==> y in m[k] && y != id)
    requires forall k, y :: k in back' ==> (y in back'[k] <==> y in back[k] && y != id)
    ensures Mirrored(m', back')
  {
  }

  /** An element other than `x` survives `RemoveFirst(s, x)` exactly when it was in `s`. */
  lemma RemoveFirstKeeps(s: seq<Id>, x: Id, y: Id)
    ensures NoDup(s) && y in RemoveFirst(s, x) ==> y != x && y in s
    ensures y in s && y != x ==> y in RemoveFirst(s, x)
  {
  }
}

=== FILE: workers.dfy ===
/**
 * The bookkeeping of lib/workers.js: the pool of plans with its round-robin
 * cursor, the pair of finish-listener maps (job to plans, plan to jobs), the
 * global set of jobs in flight and the worker cap. Running a job is not
 * modelled: dispatch puts its id in flight, and a separate `Finish` step
 * stands for the job's promise settling.
 */
module Workers {
  import opened Util
  import opened Asserts
  import Plan
  import PlanEdit

  type PlanId = Plan.PlanId

  /** Used when the constructor is given no (or a zero) worker limit. */
  const DefaultMaxWorkers: nat := 4

  datatype State = State(
    maxWorkers: nat,
    activeWorkers: int,
    activeJobs: set<Id>,                // the ids in flight, across all plans
    jobPlans: map<Id, set<PlanId>>,     // `jobPlanFinishListeners`
    planJobs: map<PlanId, set<Id>>,     // `planJobFinishListeners`
    plans: map<PlanId, Plan.State>,
    plansOrder: seq<PlanId>,
    lastPlanIndex: nat)

  /** The plans listening for job `j`; a missing entry reads as none. */
  function PlansOf(m: map<Id, set<PlanId>>, j: Id): (r: set<PlanId>)
    ensures j !in m ==> r == {}
  {
    if j in m then m[j] else {}
  }

  /** The jobs plan `p` listens for; a missing entry reads as none. */
  function JobsOf(m: map<PlanId, set<Id>>, p: PlanId): (r: set<Id>)
    ensures p !in m ==> r == {}
  {
    if p in m then m[p] else {}
  }

  /** The two listener maps describe the same relation between jobs and plans. */
  ghost predicate Inverse(jp: map<Id, set<PlanId>>, pj: map<PlanId, set<Id>>)
  {
    forall j: Id, p: PlanId {:trigger p in PlansOf(jp, j)} {:trigger j in JobsOf(pj, p)} :: p in PlansOf(jp, j) <==> j in JobsOf(pj, p)
  }

  /** `plansOrder` lists every registered plan exactly once. */
  ghost predicate OrderOk(plans: map<PlanId, Plan.State>, order: seq<PlanId>)
  {
    && NoDup(order)
    && (forall k :: k in plans <==> k in order)
  }

  /**
   * The invariant of the pool: a positive cap that the in-flight jobs and
   * the running workers stay under, `plansOrder` matching the registered
   * plans, each plan under its own id, inverse listener maps, and every
   * listener a registered plan waiting for a job that is in flight globally
   * and active in that plan.
   */
  ghost predicate Valid(w: State)
  {
    && w.maxWorkers > 0
    && |w.activeJobs| <= w.activeWorkers <= w.maxWorkers
    && OrderOk(w.plans, w.plansOrder)
    && (forall k :: k in w.plans ==> w.plans[k].id == k)
    && Wired(w)
    && Attended(w)
  }

  /** Every listener waits for a job that is in flight and that its plan has active. */
  ghost predicate Attended(w: State)
  {
    && (forall p: PlanId, j: Id :: j in JobsOf(w.planJobs, p) ==> j in w.activeJobs)
    && (forall p: PlanId, j: Id :: j in JobsOf(w.planJobs, p) ==> p in w.plans && j in w.plans[p].activeJobs)
  }

  /** The listener maps are inverse and every listener is a registered plan. */
  ghost predicate Wired(w: State)
  {
    && Inverse(w.jobPlans, w.planJobs)
    && (forall p: PlanId, j: Id :: j in JobsOf(w.planJobs, p) ==> p in w.plans)
  }

  /**
   * The constructor: a missing or zero limit becomes the default, and the
   * pool starts empty with nothing in flight. The context object is not
   * modelled.
   */
  function New(maxWorkers: nat): (r: State)
    ensures Valid(r)
    ensures maxWorkers > 0 ==> r.maxWorkers == maxWorkers
    ensures maxWorkers == 0 ==> r.maxWorkers == DefaultMaxWorkers
    ensures r.plans == map[] && r.activeJobs == {} && r.activeWorkers == 0
  {
    State(if maxWorkers == 0 then DefaultMaxWorkers else maxWorkers, 0, {}, map[], map[], map[], [], 0)
  }

  // ---------------------------------------------------------------------------
  // The pool of plans

  /** `addPlan`: a plan already registered under its id is left alone; otherwise it joins the pool and the order. */
  function AddPlan(w: State, p: Plan.State): (r: State)
    ensures r == w.(plans := r.plans, plansOrder := r.plansOrder)
    ensures p.id in r.plans && r.plans.Keys == w.plans.Keys + {p.id}
    ensures forall k :: k in w.plans ==> r.plans[k] == w.plans[k]
    ensures p.id !in w.plans ==> r.plans[p.id] == p && r.plansOrder == w.plansOrder + [p.id]
    ensures OrderOk(w.plans, w.plansOrder) ==> OrderOk(r.plans, r.plansOrder)
  {
    if p.id in w.plans then w
    else w.(plans := w.plans[p.id := p], plansOrder := w.plansOrder + [p.id])
  }

  /**
   * `removePlan`: an absent id changes nothing; a registered one leaves the
   * pool and the order. The splice is unguarded, so a registered id the
   * order does not hold costs the order its last entry.
   */
  function RemovePlan(w: State, id: PlanId): (r: State)
    ensures r == w.(plans := r.plans, plansOrder := r.plansOrder)
    ensures id !in w.plans ==> r == w
    ensures r.plans == w.plans - {id}
    ensures OrderOk(w.plans, w.plansOrder) ==> OrderOk(r.plans, r.plansOrder)
    ensures id in w.plans && OrderOk(w.plans, w.plansOrder) ==> |r.plansOrder| == |w.plansOrder| - 1
    ensures id in w.plans && id in w.plansOrder ==> r.plansOrder == RemoveFirst(w.plansOrder, id)
    ensures id in w.plans && id !in w.plansOrder && |w.plansOrder| > 0 ==>
              r.plansOrder == w.plansOrder[..|w.plansOrder| - 1]
  {
    if id in w.plans then w.(plansOrder := SpliceIndexOf(w.plansOrder, id), plans := w.plans - {id})
    else w
  }

  // ---------------------------------------------------------------------------
  // The round-robin cursor

  /** The position after `c` in a list of length `n`, wrapping to the front. */
  function NextIndex(c: nat, n: nat): (r: nat)
    ensures n > 0 ==> r < n
    ensures c + 1 < n ==> r == c + 1
  {
    if c + 1 >= n then 0 else c + 1
  }

  /** Position `i` of a list of length `n`, read once around the end: `i - n` past the end. */
  function Wrap(i: nat, n: nat): (r: nat)
    ensures i < 2 * n ==> r < n
  {
    if i >= n then i - n else i
  }

  /** The next turn of a scan round. */
  function Turn(k: nat): (r: nat)
    ensures r > k
  {
    k + 1
  }

  /** How many steps forward from position `s` position `c` lies, in a list of length `n`. */
  function Offset(c: nat, s: nat, n: nat): (r: nat)
    requires c < n && s < n
    ensures r < n && Wrap(s + r, n) == c
  {
    if c >= s then c - s else c + n - s
  }

  /**
   * `nextPlanId`: the cursor moves one position on and wraps to the front
   * at the end (or from beyond it); the id under it is returned, nothing
   * when the order is empty.
   */
  function NextPlanId(w: State): (r: (State, Option<PlanId>))
    ensures r.0 == w.(lastPlanIndex := r.0.lastPlanIndex)
    ensures r.0.lastPlanIndex == NextIndex(w.lastPlanIndex, |w.plansOrder|)
    ensures |w.plansOrder| == 0 <==> r.1.None?
    ensures r.1.Some? ==> r.0.lastPlanIndex < |w.plansOrder| && r.1.value == w.plansOrder[r.0.lastPlanIndex]
  {
    var i := NextIndex(w.lastPlanIndex, |w.plansOrder|);
    (w.(lastPlanIndex := i), if i < |w.plansOrder| then Some(w.plansOrder[i]) else None)
  }

  /**
   * Whether `nextOperablePlan` stops at plan `p`: it is operable and, when
   * jobs to exclude are given, has a queued job outside them to hand out.
   */
  predicate Eligible(p: Plan.State, exclude: Option<set<Id>>)
  {
    Plan.IsOperable(p) && (exclude.None? || Plan.CheckNextJob(p, exclude, None).Some?)
  }

  /** The plan `j` positions on from order position `s`, going round. */
  function Ahead(plans: map<PlanId, Plan.State>, order: seq<PlanId>, s: nat, j: nat): (r: Plan.State)
    requires OrderOk(plans, order) && s < |order| && j < |order|
    ensures r == plans[order[Wrap(s + j, |order|)]]
  {
    plans[order[Wrap(s + j, |order|)]]
  }

  /**
   * The `do … while` of `nextOperablePlan`, at its `k`-th turn: the loop
   * started at position `s`, holding `start`, and the cursor is `k`
   * positions further on. It stops at the first eligible plan, or when the
   * cursor comes back to `start`.
   */
  function Scan(w: State, exclude: Option<set<Id>>, start: PlanId, s: nat, k: nat): (r: (State, Option<PlanId>))
    requires OrderOk(w.plans, w.plansOrder) && s < |w.plansOrder| && w.plansOrder[s] == start
    requires k < |w.plansOrder| && w.lastPlanIndex == Wrap(s + k, |w.plansOrder|)
    ensures r.0 == w.(lastPlanIndex := r.0.lastPlanIndex) && r.0.lastPlanIndex < |w.plansOrder|
    ensures r.1.Some? ==> r.1.value == w.plansOrder[r.0.lastPlanIndex] && Eligible(w.plans[r.1.value], exclude)
    decreases |w.plansOrder| - k
  {
    var id := w.plansOrder[w.lastPlanIndex];
    if Eligible(w.plans[id], exclude) then (w, Some(id))
    else
      var (w1, next) := NextPlanId(w);
      if next.value == start then (w1, None)
      else Scan(w1, exclude, start, s, Turn(k))
  }

  /** No plan from `from` up to (not including) `to` positions on from `s` is eligible. */
  ghost predicate Skipped(plans: map<PlanId, Plan.State>, order: seq<PlanId>, exclude: Option<set<Id>>, s: nat, from: nat, to: nat)
    requires OrderOk(plans, order) && s < |order| && to <= |order|
  {
    forall j :: from <= j < to ==> !Eligible(Ahead(plans, order, s, j), exclude)
  }

  /** A plan found ineligible extends the skipped stretch one position back. */
  lemma SkippedBack(plans: map<PlanId, Plan.State>, order: seq<PlanId>, exclude: Option<set<Id>>, s: nat, k: nat, to: nat)
    requires OrderOk(plans, order) && s < |order| && k < to <= |order|
    requires !Eligible(Ahead(plans, order, s, k), exclude) && Skipped(plans, order, exclude, s, Turn(k), to)
    ensures Skipped(plans, order, exclude, s, k, to)
  {
    forall j | k <= j < to
      ensures !Eligible(Ahead(plans, order, s, j), exclude)
    {
      if j != k {
        assert Turn(k) <= j;
      }
    }
  }


  /** The scan stops at the first eligible plan at or after its `k`-th turn. */
  lemma {:induction false} ScanFirst(w: State, exclude: Option<set<Id>>, start: PlanId, s: nat, k: nat)
    requires OrderOk(w.plans, w.plansOrder) && s < |w.plansOrder| && w.plansOrder[s] == start
    requires k < |w.plansOrder| && w.lastPlanIndex == Wrap(s + k, |w.plansOrder|)
    ensures var r := Scan(w, exclude, start, s, k);
      r.1.Some? ==>
        && k <= Offset(r.0.lastPlanIndex, s, |w.plansOrder|)
        && Skipped(w.plans, w.plansOrder, exclude, s, k, Offset(r.0.lastPlanIndex, s, |w.plansOrder|))
    decreases |w.plansOrder| - k
  {
    var n := |w.plansOrder|;
    if !Eligible(w.plans[w.plansOrder[w.lastPlanIndex]], exclude) {
      ScanTurn(w, exclude, start, s, k);
      var w1 := NextPlanId(w).0;
      if NextPlanId(w).1.value != start {
        ScanFirst(w1, exclude, start, s, Turn(k));
        var r := Scan(w1, exclude, start, s, Turn(k));
        if r.1.Some? {
          SkippedBack(w.plans, w.plansOrder, exclude, s, k, Offset(r.0.lastPlanIndex, s, n));
        }
      }
    } else {
      assert Offset(w.lastPlanIndex, s, n) == k;
    }
  }

  /**
   * The scan comes back to `start` having found nothing only when no plan
   * from its `k`-th turn to the end of the round is eligible.
   */
  lemma {:induction false} ScanNone(w: State, exclude: Option<set<Id>>, start: PlanId, s: nat, k: nat)
    requires OrderOk(w.plans, w.plansOrder) && s < |w.plansOrder| && w.plansOrder[s] == start
    requires k < |w.plansOrder| && w.lastPlanIndex == Wrap(s + k, |w.plansOrder|)
    ensures var r := Scan(w, exclude, start, s, k);
      r.1.None? ==>
        && r.0.lastPlanIndex == s
        && Skipped(w.plans, w.plansOrder, exclude, s, k, |w.plansOrder|)
    decreases |w.plansOrder| - k
  {
    var n := |w.plansOrder|;
    if !Eligible(w.plans[w.plansOrder[w.lastPlanIndex]], exclude) {
      ScanTurn(w, exclude, start, s, k);
      var w1 := NextPlanId(w).0;
      if NextPlanId(w).1.value != start {
        ScanNone(w1, exclude, start, s, Turn(k));
      }
      if Scan(w, exclude, start, s, k).1.None? {
        SkippedBack(w.plans, w.plansOrder, exclude, s, k, n);
      }
    }
  }

  /**
   * A turn of the scan that does not stop at the plan under the cursor
   * moves the cursor one position on; the scan ends there when that
   * position holds `start`, which is exactly when the round is complete.
   */
  lemma ScanTurn(w: State, exclude: Option<set<Id>>, start: PlanId, s: nat, k: nat)
    requires OrderOk(w.plans, w.plansOrder) && s < |w.plansOrder| && w.plansOrder[s] == start
    requires k < |w.plansOrder| && w.lastPlanIndex == Wrap(s + k, |w.plansOrder|)
    requires !Eligible(w.plans[w.plansOrder[w.lastPlanIndex]], exclude)
    ensures !Eligible(Ahead(w.plans, w.plansOrder, s, k), exclude)
    ensures NextPlanId(w).1.Some?
    ensures NextPlanId(w).1.value == start <==> k + 1 == |w.plansOrder|
    ensures NextPlanId(w).1.value == start ==> Scan(w, exclude, start, s, k) == (NextPlanId(w).0, None) && NextPlanId(w).0.lastPlanIndex == s
    ensures NextPlanId(w).1.value != start ==>
              && NextPlanId(w).0.lastPlanIndex == Wrap(s + k + 1, |w.plansOrder|)
              && Scan(w, exclude, start, s, k) == Scan(NextPlanId(w).0, exclude, start, s, Turn(k))
  {
    assert NextPlanId(w).0.lastPlanIndex == Wrap(s + k + 1, |w.plansOrder|);
  }

  /**
   * `nextOperablePlan`: the cursor moves on once, and from there the pool
   * is scanned once round for an eligible plan. Stuck-plan detection is not
   * modelled.
   */
  function NextOperablePlan(w: State, exclude: Option<set<Id>>): (r: (State, Option<PlanId>))
    requires OrderOk(w.plans, w.plansOrder)
    ensures r.0 == w.(lastPlanIndex := r.0.lastPlanIndex)
    ensures |w.plansOrder| > 0 ==> r.0.lastPlanIndex < |w.plansOrder|
    ensures r.1.Some? ==> r.1.value in w.plans && r.1.value == w.plansOrder[r.0.lastPlanIndex]
    ensures r.1.Some? ==> Eligible(w.plans[r.1.value], exclude)
  {
    var (w1, first) := NextPlanId(w);
    if first.None? then (w1, None)
    else Scan(w1, exclude, first.value, w1.lastPlanIndex, 0)
  }

  /**
   * `nextOperablePlan` finds a plan exactly when some registered plan is
   * eligible, and the one it finds is the first eligible plan after the
   * cursor, going round.
   */
  lemma NextOperableFirst(w: State, exclude: Option<set<Id>>)
    requires OrderOk(w.plans, w.plansOrder)
    ensures var r := NextOperablePlan(w, exclude);
      && (r.1.None? <==> forall k :: k in w.plans ==> !Eligible(w.plans[k], exclude))
      && (r.1.Some? ==>
            var s := NextIndex(w.lastPlanIndex, |w.plansOrder|);
            forall j :: 0 <= j < Offset(r.0.lastPlanIndex, s, |w.plansOrder|) ==>
              !Eligible(Ahead(w.plans, w.plansOrder, s, j), exclude))
  {
    if |w.plansOrder| > 0 {
      var (w1, first) := NextPlanId(w);
      ScanFirst(w1, exclude, first.value, w1.lastPlanIndex, 0);
      ScanNone(w1, exclude, first.value, w1.lastPlanIndex, 0);
      if Scan(w1, exclude, first.value, w1.lastPlanIndex, 0).1.None? {
        ScanCovers(w, exclude, w1.lastPlanIndex);
      }
    }
  }

  /** A scan that found nothing looked at every registered plan. */
  lemma ScanCovers(w: State, exclude: Option<set<Id>>, s: nat)
    requires OrderOk(w.plans, w.plansOrder) && s < |w.plansOrder|
    requires forall j :: 0 <= j < |w.plansOrder| ==> !Eligible(Ahead(w.plans, w.plansOrder, s, j), exclude)
    ensures forall k :: k in w.plans ==> !Eligible(w.plans[k], exclude)
  {
    forall k | k in w.plans
      ensures !Eligible(w.plans[k], exclude)
    {
      var i := IndexOf(w.plansOrder, k);
      var j := Offset(i, s, |w.plansOrder|);
      assert Ahead(w.plans, w.plansOrder, s, j) == w.plans[k];
    }
  }

  // ---------------------------------------------------------------------------
  // Finish listeners

  /** `addFinishListener`: plan `p` now listens for job `j`, in both maps. */
  function AddFinishListener(w: State, j: Id, p: PlanId): (r: State)
    ensures r == w.(jobPlans := r.jobPlans, planJobs := r.planJobs)
    ensures forall j': Id, p': PlanId :: p' in PlansOf(r.jobPlans, j') <==> p' in PlansOf(w.jobPlans, j') || (j' == j && p' == p)
    ensures forall j': Id, p': PlanId :: j' in JobsOf(r.planJobs, p') <==> j' in JobsOf(w.planJobs, p') || (j' == j && p' == p)
    ensures r.planJobs.Keys == w.planJobs.Keys + {p}
  {
    w.(jobPlans := w.jobPlans[j := PlansOf(w.jobPlans, j) + {p}],
       planJobs := w.planJobs[p := JobsOf(w.planJobs, p) + {j}])
  }

  /**
   * `removeJobFinishListener`: plan `p` stops listening for job `j`. Both
   * entries must exist; the source reads a property of a missing entry
   * otherwise.
   */
  function RemoveJobFinishListener(w: State, j: Id, p: PlanId): (r: State)
    requires j in w.jobPlans && p in w.planJobs
    ensures r == w.(jobPlans := r.jobPlans, planJobs := r.planJobs)
    ensures forall j': Id, p': PlanId :: p' in PlansOf(r.jobPlans, j') <==> p' in PlansOf(w.jobPlans, j') && !(j' == j && p' == p)
    ensures forall j': Id, p': PlanId :: j' in JobsOf(r.planJobs, p') <==> j' in JobsOf(w.planJobs, p') && !(j' == j && p' == p)
    ensures r.jobPlans.Keys == w.jobPlans.Keys && r.planJobs.Keys == w.planJobs.Keys
  {
    w.(jobPlans := w.jobPlans[j := w.jobPlans[j] - {p}],
       planJobs := w.planJobs[p := w.planJobs[p] - {j}])
  }

  /**
   * `removePlanFinishListener`: plan `p` leaves the listener set of every
   * job it listens for, and its own entry is deleted. Each of those jobs
   * must have an entry.
   */
  function RemovePlanFinishListener(w: State, p: PlanId): (r: State)
    requires forall j :: j in JobsOf(w.planJobs, p) ==> j in w.jobPlans
    ensures r == w.(jobPlans := r.jobPlans, planJobs := r.planJobs)
    ensures r.planJobs == w.planJobs - {p}
    ensures forall j': Id, p': PlanId :: p' in PlansOf(r.jobPlans, j') <==>
              p' in PlansOf(w.jobPlans, j') && !(p' == p && j' in JobsOf(w.planJobs, p))
  {
    var ls := JobsOf(w.planJobs, p);
    w.(jobPlans := map j | j in w.jobPlans :: if j in ls then w.jobPlans[j] - {p} else w.jobPlans[j],
       planJobs := w.planJobs - {p})
  }

  /** `terminatePlan`: the plan leaves the pool and stops listening. Settling its promise is not modelled. */
  function TerminatePlan(w: State, p: PlanId): (r: State)
    requires forall j :: j in JobsOf(w.planJobs, p) ==> j in w.jobPlans
    ensures r == w.(plans := r.plans, plansOrder := r.plansOrder, jobPlans := r.jobPlans, planJobs := r.planJobs)
    ensures r.plans == w.plans - {p} && r.planJobs == w.planJobs - {p}
    ensures forall j': Id, p': PlanId :: p' in PlansOf(r.jobPlans, j') <==>
              p' in PlansOf(w.jobPlans, j') && !(p' == p && j' in JobsOf(w.planJobs, p))
    ensures OrderOk(w.plans, w.plansOrder) ==> OrderOk(r.plans, r.plansOrder)
  {
    RemovePlanFinishListener(RemovePlan(w, p), p)
  }

  /**
   * `splice(indexOf(key), 1)` on `plansOrder` with a key the order cannot
   * hold: a `for … in` key is a string, the order holds the numeric ids, so
   * `indexOf` is -1 and the splice drops the last entry.
   */
  function SpliceMissing(s: seq<PlanId>): (r: seq<PlanId>)
    ensures forall x :: x !in s ==> r == SpliceIndexOf(s, x)
  {
    if |s| == 0 then s else s[..|s| - 1]
  }

  /**
   * `removePlan` as `terminatePlan` runs it from `onJobFinished`, handed the
   * `for … in` key of the plan: the key finds the plan in `plans`, but the
   * order loses its last entry instead of the plan's id.
   */
  function RemovePlanByKey(w: State, id: PlanId): (r: State)
    ensures r == w.(plans := r.plans, plansOrder := r.plansOrder)
    ensures id !in w.plans ==> r == w
    ensures r.plans == w.plans - {id}
    ensures id in w.plans ==> r.plansOrder == SpliceMissing(w.plansOrder)
  {
    if id in w.plans then w.(plansOrder := SpliceMissing(w.plansOrder), plans := w.plans - {id})
    else w
  }

  /**
   * `terminatePlan(planId)` as `onJobFinished` calls it, with the key of its
   * `for … in`: the listeners go as in `TerminatePlan`, and so does the plan,
   * but the order loses its last entry.
   */
  function TerminateByKey(w: State, p: PlanId): (r: State)
    requires forall j :: j in JobsOf(w.planJobs, p) ==> j in w.jobPlans
    ensures r == TerminatePlan(w, p).(plansOrder := r.plansOrder)
    ensures p in w.plans ==> r.plansOrder == SpliceMissing(w.plansOrder)
  {
    RemovePlanFinishListener(RemovePlanByKey(w, p), p)
  }

  // ---------------------------------------------------------------------------
  // Dispatch

  /**
   * One turn of the `do … while` of `shiftJobFromPlans`, at plan `pid`: the
   * plan is asked for job `id` by name and, when it hands the job out,
   * listens for it.
   */
  function ShiftVisit(w: State, id: Id, pid: PlanId): (r: State)
    requires pid in w.plans
    ensures r == w.(plans := r.plans, jobPlans := r.jobPlans, planJobs := r.planJobs)
    ensures r.plans == w.plans[pid := Plan.NextJob(w.plans[pid], Some(id)).0]
    ensures forall j': Id, p': PlanId :: p' in PlansOf(r.jobPlans, j') <==>
              p' in PlansOf(w.jobPlans, j') || (j' == id && p' == pid && Plan.NextJob(w.plans[pid], Some(id)).1.Some?)
    ensures forall j': Id, p': PlanId :: j' in JobsOf(r.planJobs, p') <==>
              j' in JobsOf(w.planJobs, p') || (j' == id && p' == pid && Plan.NextJob(w.plans[pid], Some(id)).1.Some?)
  {
    var t := Plan.NextJob(w.plans[pid], Some(id));
    var w1 := w.(plans := w.plans[pid := t.0]);
    if t.1.Some? then AddFinishListener(w1, id, pid) else w1
  }

  /**
   * The `do … while` of `shiftJobFromPlans` from plan `pid` on: after the
   * visit, the next operable plan is visited, until there is none or it was
   * visited already.
   */
  function ShiftLoop(w: State, id: Id, pid: PlanId, visited: set<PlanId>): (r: State)
    requires OrderOk(w.plans, w.plansOrder) && pid in w.plans && pid !in visited && visited <= w.plans.Keys
    ensures r == w.(plans := r.plans, jobPlans := r.jobPlans, planJobs := r.planJobs, lastPlanIndex := r.lastPlanIndex)
    ensures r.plans.Keys == w.plans.Keys
    decreases |w.plans.Keys - visited|
  {
    var w2 := ShiftVisit(w, id, pid);
    var visited' := visited + {pid};
    var (w3, next) := NextOperablePlan(w2, None);
    if next.None? || next.value in visited' then w3
    else
      Shrinks(w.plans.Keys, visited, pid);
      ShiftLoop(w3, id, next.value, visited')
  }

  /** Visiting one more key leaves fewer keys to visit. */
  lemma Shrinks<K>(keys: set<K>, visited: set<K>, x: K)
    requires x in keys && x !in visited
    ensures |keys - (visited + {x})| < |keys - visited|
  {
    assert keys - visited == (keys - (visited + {x})) + {x};
  }

  /** `shiftJobFromPlans`: job `id` is taken out of the queue of every operable plan that has it. */
  function ShiftJobFromPlans(w: State, id: Id): (r: State)
    requires OrderOk(w.plans, w.plansOrder)
    ensures r == w.(plans := r.plans, jobPlans := r.jobPlans, planJobs := r.planJobs, lastPlanIndex := r.lastPlanIndex)
    ensures r.plans.Keys == w.plans.Keys
  {
    var (w1, first) := NextOperablePlan(w, None);
    if first.None? then w1 else ShiftLoop(w1, id, first.value, {})
  }

  /**
   * The `while` of `next`: as long as a worker is free and some plan has a
   * queued job that is not in flight, that job is put in flight, shifted
   * out of every operable plan that has it, and handed to a worker after
   * `planLinksOk` passes on the plan it came from. The source tests again
   * that the job is not in flight; `checkNextJob` has already excluded
   * those, so the test always passes and the model leaves it out. The
   * result lists the dispatched ids in order.
   */
  function NextLoop(w: State): (r: Result<(State, seq<Id>)>)
    requires OrderOk(w.plans, w.plansOrder)
    ensures r.Ok? ==> OrderOk(r.value.0.plans, r.value.0.plansOrder) && r.value.0.plans.Keys == w.plans.Keys
    ensures r.Ok? ==> r.value.0.maxWorkers == w.maxWorkers && r.value.0.activeWorkers == w.activeWorkers + |r.value.1|
    ensures r.Ok? && w.activeWorkers <= w.maxWorkers ==> r.value.0.activeWorkers <= w.maxWorkers
    decreases w.maxWorkers - w.activeWorkers
  {
    if w.activeWorkers >= w.maxWorkers then Ok((w, []))
    else
      var (w1, p) := NextOperablePlan(w, Some(w.activeJobs));
      if p.None? then Ok((w1, []))
      else
        var h := Hand(w1, p.value);
        if h.Err? then Err(h.error)
        else
          var rest := NextLoop(h.value.0);
          if rest.Err? then rest else Ok((rest.value.0, [h.value.1] + rest.value.1))
  }

  /**
   * One turn of the `while` of `next` from plan `pid`: the job is
   * dispatched, `planLinksOk` checks the plan, and a worker takes the job.
   */
  function Hand(w: State, pid: PlanId): (r: Result<(State, Id)>)
    requires OrderOk(w.plans, w.plansOrder) && pid in w.plans
    requires Plan.CheckNextJob(w.plans[pid], Some(w.activeJobs), None).Some?
    ensures r.Ok? ==> r.value.1 !in w.activeJobs && r.value.0.activeJobs == w.activeJobs + {r.value.1}
    ensures r.Ok? ==> r.value.0.activeWorkers == w.activeWorkers + 1 && r.value.0.maxWorkers == w.maxWorkers
    ensures r.Ok? ==> OrderOk(r.value.0.plans, r.value.0.plansOrder) && r.value.0.plans.Keys == w.plans.Keys
    ensures r.Ok? ==> r.value.0 == Dispatch(w, pid).0.(activeWorkers := w.activeWorkers + 1)
  {
    var (w2, job) := Dispatch(w, pid);
    var c := PlanLinksOk(w2.plans[pid].parents, w2.plans[pid].children);
    if c.Fail? then Err(c.error) else Ok((w2.(activeWorkers := w2.activeWorkers + 1), job))
  }

  /**
   * The body of the `while` of `next` up to the hand-over to a worker: the
   * job plan `pid` would hand out, past the jobs in flight, joins them and
   * is shifted out of the operable plans.
   */
  function Dispatch(w: State, pid: PlanId): (r: (State, Id))
    requires OrderOk(w.plans, w.plansOrder) && pid in w.plans
    requires Plan.CheckNextJob(w.plans[pid], Some(w.activeJobs), None).Some?
    ensures r.1 !in w.activeJobs && r.1 in w.plans[pid].jobs
    ensures r.1 == Plan.GetOtherJob(w.plans[pid], Some(w.activeJobs)).value
    ensures forall i :: 0 <= i < IndexOf(w.plans[pid].jobs, r.1) ==> w.plans[pid].jobs[i] in w.activeJobs
    ensures r.0 == ShiftJobFromPlans(w.(activeJobs := w.activeJobs + {r.1}), r.1)
    ensures r.0.activeJobs == w.activeJobs + {r.1} && r.0.activeWorkers == w.activeWorkers && r.0.maxWorkers == w.maxWorkers
    ensures OrderOk(r.0.plans, r.0.plansOrder) && r.0.plans.Keys == w.plans.Keys
  {
    var job := Plan.CheckNextJob(w.plans[pid], Some(w.activeJobs), None).value;
    (ShiftJobFromPlans(w.(activeJobs := w.activeJobs + {job}), job), job)
  }

  /** `next`: dispatches jobs until the workers are all busy or no plan has a job to hand out. */
  function Next(w: State): (r: Result<(State, seq<Id>)>)
    requires OrderOk(w.plans, w.plansOrder)
    ensures r.Ok? ==> OrderOk(r.value.0.plans, r.value.0.plansOrder) && r.value.0.plans.Keys == w.plans.Keys
    ensures r.Ok? ==> r.value.0.maxWorkers == w.maxWorkers && r.value.0.activeWorkers == w.activeWorkers + |r.value.1|
    ensures r.Ok? && w.activeWorkers <= w.maxWorkers ==> r.value.0.activeWorkers <= w.maxWorkers
  {
    NextLoop(w)
  }

  // ---------------------------------------------------------------------------
  // Completion

  /** Whether `m` is the smallest element of `s`. */
  predicate IsMin(s: set<PlanId>, m: PlanId)
  {
    m in s && forall x :: x in s ==> m <= x
  }

  /** The smallest of a non-empty set of plan ids. */
  function MinOf(s: set<PlanId>): (m: PlanId)
    requires s != {}
    ensures m in s && forall x :: x in s ==> m <= x
  {
    HasMin(s);
    var m :| IsMin(s, m);
    m
  }

  /** A non-empty set of plan ids has a smallest element. */
  lemma {:induction false} HasMin(s: set<PlanId>)
    requires s != {}
    ensures exists m :: IsMin(s, m)
    decreases |s|
  {
    var y :| y in s;
    if s == {y} {
      assert IsMin(s, y);
    } else {
      HasMin(s - {y});
      var m :| IsMin(s - {y}, m);
      MinAdd(s - {y}, m, y);
      assert s - {y} + {y} == s;
    }
  }

  /** Adding `y` to a set with smallest element `m` gives the smaller of the two as its smallest. */
  lemma MinAdd(s: set<PlanId>, m: PlanId, y: PlanId)
    requires IsMin(s, m)
    ensures IsMin(s + {y}, if y < m then y else m)
  {
  }

  /** A listening pair is present in both maps, and the plan is registered. */
  lemma ListenerPair(w: State, j: Id, p: PlanId)
    requires Wired(w) && p in PlansOf(w.jobPlans, j)
    ensures j in w.jobPlans && p in w.planJobs && j in w.planJobs[p] && p in w.plans
  {
    assert j in JobsOf(w.planJobs, p);
  }

  /** Removing one listening pair keeps the maps inverse. */
  lemma RemoveListenerWired(w: State, j: Id, p: PlanId)
    requires Wired(w) && j in w.jobPlans && p in w.planJobs
    ensures Wired(RemoveJobFinishListener(w, j, p))
  {
  }

  /** Terminating plan `p` leaves the other listeners of job `j` as they were. */
  lemma TerminateOthers(w: State, p: PlanId, j: Id)
    requires forall j :: j in JobsOf(w.planJobs, p) ==> j in w.jobPlans
    ensures PlansOf(TerminatePlan(w, p).jobPlans, j) - {p} == PlansOf(w.jobPlans, j) - {p}
  {
    var r := TerminatePlan(w, p);
    forall q ensures q in PlansOf(r.jobPlans, j) - {p} <==> q in PlansOf(w.jobPlans, j) - {p} { }
  }

  /** Terminating a plan keeps the maps inverse; every job it listens for has an entry. */
  lemma TerminateWired(w: State, p: PlanId)
    requires Wired(w)
    ensures forall j :: j in JobsOf(w.planJobs, p) ==> j in w.jobPlans
    ensures Wired(TerminatePlan(w, p))
  {
    forall j | j in JobsOf(w.planJobs, p)
      ensures j in w.jobPlans
    {
      assert p in PlansOf(w.jobPlans, j);
    }
    var r := TerminatePlan(w, p);
    forall j, q
      ensures q in PlansOf(r.jobPlans, j) <==> j in JobsOf(r.planJobs, q)
    {
      if q == p {
        assert JobsOf(r.planJobs, q) == {};
      } else {
        assert JobsOf(r.planJobs, q) == JobsOf(w.planJobs, q);
      }
    }
    forall q, j | j in JobsOf(r.planJobs, q)
      ensures q in r.plans
    {
      assert JobsOf(r.planJobs, q) == JobsOf(w.planJobs, q);
    }
  }

  /**
   * One turn of the `for … in` of `onJobFinished`, at plan `pid` listening
   * for job `id`: the plan stops listening, then hears of the job.
   */
  function FinishOne(w: State, archNodes: set<Id>, id: Id, fail: bool, pid: PlanId): (r: Result<State>)
    requires Wired(w) && pid in PlansOf(w.jobPlans, id)
    ensures r.Ok? ==> Wired(r.value)
    ensures r.Ok? ==> PlansOf(r.value.jobPlans, id) == PlansOf(w.jobPlans, id) - {pid}
    ensures r.Ok? ==> r.value.activeJobs == w.activeJobs && r.value.activeWorkers == w.activeWorkers
    ensures r.Ok? ==> r.value.maxWorkers == w.maxWorkers
    ensures r.Ok? && OrderOk(w.plans, w.plansOrder) ==> OrderOk(r.value.plans, r.value.plansOrder)
    ensures r.Ok? ==> r.value.plans.Keys <= w.plans.Keys
    ensures r.Ok? ==> forall k :: k in w.plans && k != pid ==> k in r.value.plans && r.value.plans[k] == w.plans[k]
    ensures r.Ok? && fail ==> pid !in r.value.plans
    ensures r.Ok? && pid in r.value.plans ==> !Plan.AllDone(r.value.plans[pid])
  {
    ListenerPair(w, id, pid);
    RemoveListenerWired(w, id, pid);
    Report(RemoveJobFinishListener(w, id, pid), archNodes, id, fail, pid)
  }

  /**
   * Plan `pid` is told that job `id` is done (or failed), and is terminated
   * when it failed or is all done.
   */
  function Report(w: State, archNodes: set<Id>, id: Id, fail: bool, pid: PlanId): (r: Result<State>)
    requires Wired(w) && pid in w.plans
    ensures r.Ok? ==> Wired(r.value)
    ensures r.Ok? ==> PlansOf(r.value.jobPlans, id) - {pid} == PlansOf(w.jobPlans, id) - {pid}
    ensures r.Ok? && pid !in PlansOf(w.jobPlans, id) ==> pid !in PlansOf(r.value.jobPlans, id)
    ensures r.Ok? ==> r.value.activeJobs == w.activeJobs && r.value.activeWorkers == w.activeWorkers
    ensures r.Ok? ==> r.value.maxWorkers == w.maxWorkers
    ensures r.Ok? && OrderOk(w.plans, w.plansOrder) ==> OrderOk(r.value.plans, r.value.plansOrder)
    ensures r.Ok? ==> r.value.plans.Keys <= w.plans.Keys
    ensures r.Ok? ==> forall k :: k in w.plans && k != pid ==> k in r.value.plans && r.value.plans[k] == w.plans[k]
    ensures r.Ok? && fail ==> pid !in r.value.plans
    ensures r.Ok? && pid in r.value.plans ==> !Plan.AllDone(r.value.plans[pid])
  {
    var pr := if fail then PlanEdit.OnJobFail(w.plans[pid]) else PlanEdit.OnJobDone(w.plans[pid], archNodes, id);
    if pr.Err? then Err(pr.error)
    else
      var w2 := w.(plans := w.plans[pid := pr.value]);
      assert Wired(w2);
      if fail || Plan.AllDone(pr.value) then
        TerminateWired(w2, pid);
        TerminateOthers(w2, pid, id);
        Ok(TerminatePlan(w2, pid))
      else Ok(w2)
  }

  /**
   * The `for … in` of `onJobFinished` over the plans `todo` listening for
   * job `id`, in ascending id order (the order in which the source walks
   * integer-like keys).
   */
  function FinishEach(w: State, archNodes: set<Id>, id: Id, fail: bool, todo: set<PlanId>): (r: Result<State>)
    requires Wired(w) && todo <= PlansOf(w.jobPlans, id)
    ensures r.Ok? ==> Wired(r.value)
    ensures r.Ok? ==> PlansOf(r.value.jobPlans, id) == PlansOf(w.jobPlans, id) - todo
    ensures r.Ok? ==> r.value.activeJobs == w.activeJobs && r.value.activeWorkers == w.activeWorkers
    ensures r.Ok? ==> r.value.maxWorkers == w.maxWorkers
    decreases |todo|
  {
    if todo == {} then Ok(w)
    else
      var pid := MinOf(todo);
      var w1 := FinishOne(w, archNodes, id, fail, pid);
      if w1.Err? then w1
      else
        TakeOne(PlansOf(w.jobPlans, id), todo, pid);
        FinishEach(w1.value, archNodes, id, fail, todo - {pid})
  }

  /** Taking one listener out of both the listeners and the ones still to tell. */
  lemma TakeOne(a: set<PlanId>, todo: set<PlanId>, x: PlanId)
    requires todo <= a && x in todo
    ensures todo - {x} <= a - {x}
    ensures (a - {x}) - (todo - {x}) == a - todo
  { }

  /**
   * The loop keeps the plans it does not visit and their run order, and
   * after a failure none of the plans it visited is left.
   */
  lemma {:induction false} FinishEachKeeps(w: State, archNodes: set<Id>, id: Id, fail: bool, todo: set<PlanId>)
    requires Wired(w) && todo <= PlansOf(w.jobPlans, id)
    ensures var r := FinishEach(w, archNodes, id, fail, todo);
      && (r.Ok? && OrderOk(w.plans, w.plansOrder) ==> OrderOk(r.value.plans, r.value.plansOrder))
      && (r.Ok? ==> r.value.plans.Keys <= w.plans.Keys)
      && (r.Ok? ==> forall k :: k in w.plans && k !in todo ==> k in r.value.plans && r.value.plans[k] == w.plans[k])
      && (r.Ok? && fail ==> forall k :: k in todo ==> k !in r.value.plans)
    decreases |todo|
  {
    if todo != {} {
      var pid := MinOf(todo);
      var w1 := FinishOne(w, archNodes, id, fail, pid);
      if w1.Ok? {
        TakeOne(PlansOf(w.jobPlans, id), todo, pid);
        FinishEachKeeps(w1.value, archNodes, id, fail, todo - {pid});
      }
    }
  }

  /** `onJobFinished`: the job leaves the in-flight set and every plan listening for it is told. */
  function OnJobFinished(w: State, archNodes: set<Id>, id: Id, fail: bool): (r: Result<State>)
    requires Wired(w)
    ensures r.Ok? ==> r.value.activeJobs == w.activeJobs - {id} && r.value.activeWorkers == w.activeWorkers
    ensures r.Ok? ==> r.value.maxWorkers == w.maxWorkers
    ensures r.Ok? && OrderOk(w.plans, w.plansOrder) ==> OrderOk(r.value.plans, r.value.plansOrder)
    ensures r.Ok? ==> Wired(r.value) && PlansOf(r.value.jobPlans, id) == {}
    ensures r.Ok? ==> forall k :: k in w.plans && k !in PlansOf(w.jobPlans, id) ==> k in r.value.plans && r.value.plans[k] == w.plans[k]
    ensures r.Ok? && fail ==> forall k :: k in PlansOf(w.jobPlans, id) ==> k !in r.value.plans
  {
    FinishEachKeeps(w.(activeJobs := w.activeJobs - {id}), archNodes, id, fail, PlansOf(w.jobPlans, id));
    FinishEach(w.(activeJobs := w.activeJobs - {id}), archNodes, id, fail, PlansOf(w.jobPlans, id))
  }

  /** The worker that ran a job goes back to the pool. */
  function Release(w: State): (r: State)
  {
    w.(activeWorkers := w.activeWorkers - 1)
  }

  /**
   * A job's promise settling. On success the worker is released, the job
   * finishes, and `next` dispatches more work; on failure the job finishes
   * as failed and nothing else happens: the worker count is not lowered.
   */
  function Finish(w: State, archNodes: set<Id>, id: Id, ok: bool): (r: Result<(State, seq<Id>)>)
    requires Wired(w) && OrderOk(w.plans, w.plansOrder)
    ensures r.Ok? ==> r.value.0.activeWorkers == w.activeWorkers - (if ok then 1 else 0) + |r.value.1|
    ensures r.Ok? && !ok ==> r.value.1 == [] && r.value.0.activeJobs == w.activeJobs - {id}
  {
    if ok then
      var f := OnJobFinished(Release(w), archNodes, id, false);
      if f.Err? then Err(f.error) else Next(f.value)
    else
      var f := OnJobFinished(w, archNodes, id, true);
      if f.Err? then Err(f.error) else Ok((f.value, []))
  }

  /** `Finish` with the worker released on failure as well, and more work dispatched after it. */
  function FinishFixed(w: State, archNodes: set<Id>, id: Id, ok: bool): (r: Result<(State, seq<Id>)>)
    requires Wired(w) && OrderOk(w.plans, w.plansOrder)
    ensures r.Ok? ==> r.value.0.activeWorkers == w.activeWorkers - 1 + |r.value.1|
  {
    var f := OnJobFinished(Release(w), archNodes, id, !ok);
    if f.Err? then Err(f.error) else Next(f.value)
  }
}

=== FILE: workers_finish.dfy ===
/**
 * Properties of a job finishing in lib/workers.js: `onJobFinished` keeps the
 * pool valid, and the worker count against the jobs in flight. As written, a
 * failed job never gives its worker back, so the count drifts away from the
 * jobs in flight and, once it reaches the cap, nothing is dispatched again;
 * the corrected step releases the worker either way and keeps the two equal.
 */
module WorkersFinish {
  import opened Util
  import opened Asserts
  import opened Workers
  import Plan
  import PlanEdit
  import WorkersProps

  // ---------------------------------------------------------------------------
  // One plan hearing of the job

  /**
   * `Report` only drops listeners, and a plan it keeps has heard of the job
   * as done: it is what `onJobDone` made of it.
   */
  lemma ReportExact(w: State, archNodes: set<Id>, id: Id, fail: bool, pid: PlanId)
    requires Wired(w) && pid in w.plans
    ensures var r := Report(w, archNodes, id, fail, pid);
      r.Ok? ==>
        && (forall j: Id, p: PlanId :: j in JobsOf(r.value.planJobs, p) ==> j in JobsOf(w.planJobs, p))
        && (pid in r.value.plans ==> !fail && r.value.plans[pid] == PlanEdit.OnJobDone(w.plans[pid], archNodes, id).value)
  {
    var r := Report(w, archNodes, id, fail, pid);
    if r.Ok? {
      forall j: Id, p: PlanId | j in JobsOf(r.value.planJobs, p)
        ensures j in JobsOf(w.planJobs, p)
      {
        if p != pid {
          assert JobsOf(r.value.planJobs, p) == JobsOf(w.planJobs, p);
        }
      }
    }
  }

  /**
   * While the loop of `onJobFinished` runs: the job has left the in-flight
   * set and `todo` are the plans still listening for it; every listener is
   * a registered plan that has its job active, and waits, unless it waits
   * for this job, for one in flight.
   */
  ghost predicate Pending(w: State, id: Id, todo: set<PlanId>)
  {
    && Wired(w)
    && PlansOf(w.jobPlans, id) == todo
    && (forall k :: k in w.plans ==> w.plans[k].id == k)
    && (forall p: PlanId, j: Id :: j in JobsOf(w.planJobs, p) ==> p in w.plans && j in w.plans[p].activeJobs)
    && (forall p: PlanId, j: Id :: j in JobsOf(w.planJobs, p) && j != id ==> j in w.activeJobs)
  }

  /** One turn of the loop keeps `Pending`, with `pid` no longer to do. */
  lemma FinishOnePending(w: State, archNodes: set<Id>, id: Id, fail: bool, pid: PlanId, todo: set<PlanId>)
    requires Pending(w, id, todo) && pid in todo
    ensures var r := FinishOne(w, archNodes, id, fail, pid);
      r.Ok? ==> Pending(r.value, id, todo - {pid})
  {
    var r := FinishOne(w, archNodes, id, fail, pid);
    ListenerPair(w, id, pid);
    RemoveListenerWired(w, id, pid);
    var w1 := RemoveJobFinishListener(w, id, pid);
    ReportExact(w1, archNodes, id, fail, pid);
    if r.Ok? {
      assert id in JobsOf(w.planJobs, pid);
      forall p: PlanId, j: Id | j in JobsOf(r.value.planJobs, p)
        ensures p in r.value.plans && j in r.value.plans[p].activeJobs
      {
        assert j in JobsOf(w1.planJobs, p);
        if p == pid {
          assert j != id;
          assert id in w.plans[pid].activeJobs;
        }
      }
      forall p: PlanId, j: Id | j in JobsOf(r.value.planJobs, p) && j != id
        ensures j in r.value.activeJobs
      {
        assert j in JobsOf(w1.planJobs, p);
      }
    }
  }

  /** The whole loop: once it succeeds, nobody listens for the job and every listener waits for a job in flight. */
  lemma {:induction false} FinishEachPending(w: State, archNodes: set<Id>, id: Id, fail: bool, todo: set<PlanId>)
    requires Pending(w, id, todo)
    ensures var r := FinishEach(w, archNodes, id, fail, todo);
      r.Ok? ==> Pending(r.value, id, {})
    decreases |todo|
  {
    if todo != {} {
      var pid := MinOf(todo);
      FinishOnePending(w, archNodes, id, fail, pid, todo);
      var w1 := FinishOne(w, archNodes, id, fail, pid);
      if w1.Ok? {
        FinishEachPending(w1.value, archNodes, id, fail, todo - {pid});
      }
    }
  }

  /** The listener part of `Valid`, which holds whatever the worker count. */
  ghost predicate Listening(w: State)
  {
    && Wired(w) && Attended(w)
    && (forall k :: k in w.plans ==> w.plans[k].id == k)
  }

  /** With the job in flight, dropping it starts the loop in `Pending`. */
  lemma StartPending(w: State, id: Id)
    requires Listening(w) && id in w.activeJobs
    ensures Pending(w.(activeJobs := w.activeJobs - {id}), id, PlansOf(w.jobPlans, id))
  {
  }

  /** `Pending` with nothing to do is the listener half of `Valid`. */
  lemma PendingDone(w: State, id: Id)
    requires Pending(w, id, {})
    ensures Listening(w)
  {
    forall p: PlanId, j: Id | j in JobsOf(w.planJobs, p)
      ensures j in w.activeJobs
    {
      assert p !in PlansOf(w.jobPlans, id);
    }
  }

  /**
   * `onJobFinished` of a job in flight keeps the listener maps inverse, the
   * listeners attended and the plans under their ids, and nobody listens
   * for the job any more.
   */
  lemma OnJobFinishedValid(w: State, archNodes: set<Id>, id: Id, fail: bool)
    requires Listening(w) && id in w.activeJobs
    ensures var r := OnJobFinished(w, archNodes, id, fail);
      r.Ok? ==> Listening(r.value) && PlansOf(r.value.jobPlans, id) == {}
  {
    StartPending(w, id);
    FinishEachPending(w.(activeJobs := w.activeJobs - {id}), archNodes, id, fail, PlansOf(w.jobPlans, id));
    var r := OnJobFinished(w, archNodes, id, fail);
    if r.Ok? {
      PendingDone(r.value, id);
    }
  }

  /** Removing an element of a set shrinks it by one. */
  lemma CardRemove<T>(s: set<T>, x: T)
    requires x in s
    ensures |s - {x}| == |s| - 1
  {
    assert s == (s - {x}) + {x};
  }

  /**
   * `onJobFinished` of a job in flight keeps the pool valid once the worker
   * count bounds the in-flight set without that job.
   */
  lemma OnJobFinishedKeeps(w: State, archNodes: set<Id>, id: Id, fail: bool)
    requires Listening(w) && OrderOk(w.plans, w.plansOrder) && id in w.activeJobs
    requires w.maxWorkers > 0 && |w.activeJobs| - 1 <= w.activeWorkers <= w.maxWorkers
    ensures var r := OnJobFinished(w, archNodes, id, fail); r.Ok? ==> Valid(r.value)
  {
    OnJobFinishedValid(w, archNodes, id, fail);
    CardRemove(w.activeJobs, id);
  }

  /** When `onJobFinished` leaves the pool valid, so does the `next` after it. */
  lemma NextAfter(w: State, archNodes: set<Id>, id: Id, fail: bool)
    requires Wired(w) && OrderOk(w.plans, w.plansOrder)
    requires var f := OnJobFinished(w, archNodes, id, fail); f.Ok? ==> Valid(f.value)
    ensures var f := OnJobFinished(w, archNodes, id, fail);
      f.Ok? ==> var n := Next(f.value); n.Ok? ==> Valid(n.value.0)
  {
    var f := OnJobFinished(w, archNodes, id, fail);
    if f.Ok? {
      WorkersProps.NextValid(f.value);
    }
  }

  /** `Finish` spelled out on success. */
  lemma FinishOkUnfold(w: State, archNodes: set<Id>, id: Id)
    requires Wired(w) && OrderOk(w.plans, w.plansOrder)
    ensures var f := OnJobFinished(Release(w), archNodes, id, false);
      Finish(w, archNodes, id, true) == if f.Err? then Err(f.error) else Next(f.value)
  {
    var w' := Release(w);
    assert w'.jobPlans == w.jobPlans && w'.planJobs == w.planJobs && w'.plans == w.plans && w'.plansOrder == w.plansOrder;
  }

  /**
   * A job in flight settling keeps the pool valid, as written: on success
   * the worker is released before `next` runs; on failure the worker count
   * stays where it was, which still bounds the smaller in-flight set.
   */
  lemma FinishValid(w: State, archNodes: set<Id>, id: Id, ok: bool)
    requires Valid(w) && id in w.activeJobs
    ensures var r := Finish(w, archNodes, id, ok); r.Ok? ==> Valid(r.value.0)
  {
    if ok {
      var w' := Release(w);
      OnJobFinishedKeeps(w', archNodes, id, false);
      NextAfter(w', archNodes, id, false);
      FinishOkUnfold(w, archNodes, id);
    } else {
      OnJobFinishedKeeps(w, archNodes, id, true);
    }
  }

  // ---------------------------------------------------------------------------
  // The worker count against the jobs in flight

  /** One running worker per job in flight: what `workPlan` sets up for every dispatched job. */
  predicate Balanced(w: State)
  {
    w.activeWorkers == |w.activeJobs|
  }

  /** A duplicate-free list of ids outside `a` adds its length to the size of `a`. */
  lemma {:induction false} CardJoin(a: set<Id>, b: set<Id>, sent: seq<Id>)
    requires NoDup(sent) && (forall x :: x in sent ==> x !in a)
    requires forall x :: x in b <==> x in a || x in sent
    ensures |b| == |a| + |sent|
    decreases |sent|
  {
    if |sent| > 0 {
      var x := sent[0];
      assert forall y :: y in sent[1..] ==> y in sent;
      assert x !in sent[1..];
      CardJoin(a, b - {x}, sent[1..]);
      CardRemove(b, x);
    } else {
      assert b == a;
    }
  }

  /** `next` dispatches one worker per job it puts in flight, so it keeps the balance. */
  lemma NextBalanced(w: State)
    requires OrderOk(w.plans, w.plansOrder) && Balanced(w)
    ensures var r := Next(w); r.Ok? ==> Balanced(r.value.0)
  {
    WorkersProps.NextSent(w);
    var r := Next(w);
    if r.Ok? {
      CardJoin(w.activeJobs, r.value.0.activeJobs, r.value.1);
    }
  }

  /**
   * As written, a failed job keeps its worker: from a balanced pool the
   * worker count ends one above the jobs in flight, and nothing new is
   * dispatched.
   */
  lemma FinishFailUnbalanced(w: State, archNodes: set<Id>, id: Id)
    requires Wired(w) && OrderOk(w.plans, w.plansOrder) && Balanced(w) && id in w.activeJobs
    ensures var r := Finish(w, archNodes, id, false);
      r.Ok? ==> r.value.0.activeWorkers == |r.value.0.activeJobs| + 1 && r.value.1 == []
  {
    CardRemove(w.activeJobs, id);
  }

  /**
   * As written, once as many jobs have failed as there are workers, the
   * pool is stuck: nothing is in flight, every worker is still counted as
   * busy, and `next` dispatches nothing, whatever the plans still hold.
   */
  lemma FinishFailStalls(w: State, archNodes: set<Id>, id: Id)
    requires Wired(w) && OrderOk(w.plans, w.plansOrder)
    requires w.activeJobs == {id} && w.activeWorkers == w.maxWorkers
    ensures var r := Finish(w, archNodes, id, false);
      r.Ok? ==>
        && r.value.0.activeJobs == {} && r.value.0.activeWorkers == w.maxWorkers
        && Next(r.value.0) == Ok((r.value.0, []))
  {
    var r := Finish(w, archNodes, id, false);
    if r.Ok? {
      WorkersProps.NextStalls(r.value.0);
    }
  }

  /**
   * Corrected: the worker is released whether the job succeeded or failed,
   * so a balanced pool stays balanced through the job settling and the
   * `next` that follows.
   */
  lemma FinishFixedBalanced(w: State, archNodes: set<Id>, id: Id, ok: bool)
    requires Wired(w) && OrderOk(w.plans, w.plansOrder) && Balanced(w) && id in w.activeJobs
    ensures var r := FinishFixed(w, archNodes, id, ok); r.Ok? ==> Balanced(r.value.0)
  {
    CardRemove(w.activeJobs, id);
    var f := OnJobFinished(Release(w), archNodes, id, !ok);
    if f.Ok? {
      NextBalanced(f.value);
    }
  }

  /** The success path as written keeps the balance too: there the worker is released. */
  lemma FinishOkBalanced(w: State, archNodes: set<Id>, id: Id)
    requires Wired(w) && OrderOk(w.plans, w.plansOrder) && Balanced(w) && id in w.activeJobs
    ensures var r := Finish(w, archNodes, id, true); r.Ok? ==> Balanced(r.value.0)
  {
    CardRemove(w.activeJobs, id);
    var f := OnJobFinished(Release(w), archNodes, id, false);
    if f.Ok? {
      NextBalanced(f.value);
    }
  }

  /** `FinishFixed` spelled out. */
  lemma FixedUnfold(w: State, archNodes: set<Id>, id: Id, ok: bool)
    requires Wired(w) && OrderOk(w.plans, w.plansOrder)
    ensures var f := OnJobFinished(Release(w), archNodes, id, !ok);
      FinishFixed(w, archNodes, id, ok) == if f.Err? then Err(f.error) else Next(f.value)
  {
    var w' := Release(w);
    assert w'.jobPlans == w.jobPlans && w'.planJobs == w.planJobs && w'.plans == w.plans && w'.plansOrder == w.plansOrder;
  }


  /** The corrected step keeps the pool valid as well. */
  lemma FinishFixedValid(w: State, archNodes: set<Id>, id: Id, ok: bool)
    requires Valid(w) && id in w.activeJobs
    ensures var r := FinishFixed(w, archNodes, id, ok); r.Ok? ==> Valid(r.value.0)
  {
    var w' := Release(w);
    OnJobFinishedKeeps(w', archNodes, id, !ok);
    NextAfter(w', archNodes, id, !ok);
    FixedUnfold(w, archNodes, id, ok);
  }

  // ---------------------------------------------------------------------------
  // Terminating by the `for … in` key

  /** On a duplicate-free list, removing the last entry's id cuts the list short by one. */
  lemma RemoveLast(s: seq<PlanId>, x: PlanId)
    requires NoDup(s) && |s| > 0 && s[|s| - 1] == x
    ensures RemoveFirst(s, x) == s[..|s| - 1]
  {
    assert IndexOf(s, x) == |s| - 1;
    assert s[..|s| - 1] + s[|s|..] == s[..|s| - 1];
  }

  /**
   * As written, terminating plan `p` from `onJobFinished` agrees with the
   * corrected `TerminatePlan` exactly when `p` is the last entry of the
   * order; otherwise the order still names `p`, which is gone from the pool.
   */
  lemma TerminateByKeyAgrees(w: State, p: PlanId)
    requires OrderOk(w.plans, w.plansOrder) && p in w.plans
    requires forall j :: j in JobsOf(w.planJobs, p) ==> j in w.jobPlans
    ensures |w.plansOrder| > 0
    ensures TerminateByKey(w, p) == TerminatePlan(w, p) <==> w.plansOrder[|w.plansOrder| - 1] == p
    ensures OrderOk(TerminateByKey(w, p).plans, TerminateByKey(w, p).plansOrder) <==> w.plansOrder[|w.plansOrder| - 1] == p
  {
    var o := w.plansOrder;
    var n := |o|;
    assert p in o;
    var r := TerminateByKey(w, p);
    var c := TerminatePlan(w, p);
    if o[n - 1] == p {
      RemoveLast(o, p);
      assert c.plansOrder == RemoveFirst(o, p);
      assert r == c;
    } else {
      var i := IndexOf(o, p);
      assert o[..n - 1][i] == p;
      assert p in r.plansOrder && p !in r.plans;
      assert p !in c.plansOrder;
    }
  }

  /**
   * The two-plan pool `[1, 2]` in which plan 1 terminates: as written the
   * order keeps 1 and loses 2, and the cursor's next id is the unregistered
   * plan 1, whose `isOperable` the source then calls on `undefined`.
   */
  lemma TerminateByKeyTwoPlans(p1: Plan.State, p2: Plan.State)
    requires p1.id == 1 && p2.id == 2
    ensures var w := State(1, 0, {}, map[], map[], map[1 := p1, 2 := p2], [1, 2], 0);
      var r := TerminateByKey(w, 1);
      && Valid(w)
      && r.plansOrder == [1] && r.plans.Keys == {2}
      && !OrderOk(r.plans, r.plansOrder)
      && NextPlanId(r).1 == Some(1) && 1 !in r.plans
  {
    var w := State(1, 0, {}, map[], map[], map[1 := p1, 2 := p2], [1, 2], 0);
    assert [1, 2][..1] == [1];
  }
}

=== FILE: workers_props.dfy ===
/**
 * Properties of the workers' bookkeeping: the pool and its order, the
 * listener maps, dispatch under the worker cap, and what a finished job
 * leaves behind.
 */
module WorkersProps {
  import opened Util
  import opened Asserts
  import opened Workers
  import WorkersShift
  import Plan

  // ---------------------------------------------------------------------------
  // The pool

  /** Adding a plan twice is adding it once. */
  lemma AddPlanIdempotent(w: State, p: Plan.State)
    ensures AddPlan(AddPlan(w, p), p) == AddPlan(w, p)
  {
  }

  /** Removing a plan just added to a pool that did not have it gives the pool back. */
  lemma AddRemovePlan(w: State, p: Plan.State)
    requires OrderOk(w.plans, w.plansOrder) && p.id !in w.plans
    ensures RemovePlan(AddPlan(w, p), p.id) == w
  {
    var order := w.plansOrder + [p.id];
    assert order[|w.plansOrder|] == p.id;
    assert order[..|w.plansOrder|] == w.plansOrder;
    assert IndexOf(order, p.id) == |w.plansOrder|;
    assert w.plans[p.id := p] - {p.id} == w.plans;
  }

  // ---------------------------------------------------------------------------
  // The listener maps

  /** `addFinishListener` keeps the two maps inverse. */
  lemma AddListenerInverse(w: State, j: Id, p: PlanId)
    requires Inverse(w.jobPlans, w.planJobs)
    ensures var r := AddFinishListener(w, j, p);
      Inverse(r.jobPlans, r.planJobs) && p in PlansOf(r.jobPlans, j) && j in JobsOf(r.planJobs, p)
  {
  }

  /** `removeJobFinishListener` keeps the two maps inverse and drops the pair. */
  lemma RemoveJobListenerInverse(w: State, j: Id, p: PlanId)
    requires Inverse(w.jobPlans, w.planJobs) && j in w.jobPlans && p in w.planJobs
    ensures var r := RemoveJobFinishListener(w, j, p);
      Inverse(r.jobPlans, r.planJobs) && p !in PlansOf(r.jobPlans, j) && j !in JobsOf(r.planJobs, p)
  {
  }

  /**
   * `removePlanFinishListener` keeps the two maps inverse, and afterwards
   * the plan listens for no job, in either map.
   */
  lemma RemovePlanListenerInverse(w: State, p: PlanId)
    requires Inverse(w.jobPlans, w.planJobs)
    ensures forall j :: j in JobsOf(w.planJobs, p) ==> j in w.jobPlans
    ensures var r := RemovePlanFinishListener(w, p);
      && Inverse(r.jobPlans, r.planJobs)
      && JobsOf(r.planJobs, p) == {}
      && forall j :: p !in PlansOf(r.jobPlans, j)
  {
    forall j | j in JobsOf(w.planJobs, p)
      ensures j in w.jobPlans
    {
      assert p in PlansOf(w.jobPlans, j);
    }
    var r := RemovePlanFinishListener(w, p);
    forall j, q
      ensures q in PlansOf(r.jobPlans, j) <==> j in JobsOf(r.planJobs, q)
    {
      if q == p {
        assert JobsOf(r.planJobs, q) == {};
      } else {
        assert JobsOf(r.planJobs, q) == JobsOf(w.planJobs, q);
      }
    }
  }

  /** Adding a new listening pair and removing it again leaves the relation as it was. */
  lemma ListenerRoundTrip(w: State, j: Id, p: PlanId)
    requires p !in PlansOf(w.jobPlans, j) && j !in JobsOf(w.planJobs, p)
    ensures var r := RemoveJobFinishListener(AddFinishListener(w, j, p), j, p);
      && (forall j': Id, p': PlanId :: p' in PlansOf(r.jobPlans, j') <==> p' in PlansOf(w.jobPlans, j'))
      && (forall j': Id, p': PlanId :: j' in JobsOf(r.planJobs, p') <==> j' in JobsOf(w.planJobs, p'))
  {
  }

  // ---------------------------------------------------------------------------
  // Dispatch

  /**
   * `next` dispatches ids that were not in flight, each once, and they are
   * exactly what joins the in-flight set.
   */
  lemma {:induction false} NextLoopSent(w: State)
    requires OrderOk(w.plans, w.plansOrder)
    ensures var r := NextLoop(w);
      r.Ok? ==>
        && (forall x :: x in r.value.0.activeJobs <==> x in w.activeJobs || x in r.value.1)
        && NoDup(r.value.1)
        && (forall x :: x in r.value.1 ==> x !in w.activeJobs)
    decreases w.maxWorkers - w.activeWorkers
  {
    if w.activeWorkers < w.maxWorkers && NextOperablePlan(w, Some(w.activeJobs)).1.Some? {
      var (w1, p) := NextOperablePlan(w, Some(w.activeJobs));
      var h := Hand(w1, p.value);
      if h.Ok? {
        NextLoopSent(h.value.0);
        var rest := NextLoop(h.value.0);
        if rest.Ok? {
          SentCompose(w.activeJobs, h.value.0.activeJobs, rest.value.0.activeJobs, h.value.1, rest.value.1);
        }
      }
    }
  }

  /** One dispatched id in front of the ids dispatched after it: fresh, distinct, and all joining the in-flight set. */
  lemma SentCompose(a0: set<Id>, a1: set<Id>, ar: set<Id>, x: Id, rest: seq<Id>)
    requires x !in a0 && a1 == a0 + {x}
    requires forall y :: y in ar <==> y in a1 || y in rest
    requires NoDup(rest) && forall y :: y in rest ==> y !in a1
    ensures forall y :: y in ar <==> y in a0 || y in [x] + rest
    ensures NoDup([x] + rest) && forall y :: y in [x] + rest ==> y !in a0
  {
    ConsNoDup(x, rest);
  }

  /** Putting an element not in a duplicate-free list at its front keeps it duplicate-free. */
  lemma ConsNoDup<T>(x: T, s: seq<T>)
    requires NoDup(s) && x !in s
    ensures NoDup([x] + s)
  {
  }

  /** `next` dispatches ids that were not in flight, each once, and they are exactly what joins the in-flight set. */
  lemma NextSent(w: State)
    requires OrderOk(w.plans, w.plansOrder)
    ensures var r := Next(w);
      r.Ok? ==>
        && (forall x :: x in r.value.0.activeJobs <==> x in w.activeJobs || x in r.value.1)
        && NoDup(r.value.1)
        && (forall x :: x in r.value.1 ==> x !in w.activeJobs)
  {
    NextLoopSent(w);
  }

  /** With every worker busy, `next` dispatches nothing and changes nothing. */
  lemma NextStalls(w: State)
    requires OrderOk(w.plans, w.plansOrder) && w.activeWorkers >= w.maxWorkers
    ensures Next(w) == Ok((w, []))
  {
  }

  /**
   * `next` keeps the pool valid: every id is in flight at most once, the
   * in-flight jobs stay within the running workers and those within the
   * cap, and every listener waits for a job in flight that its plan has
   * active.
   */
  lemma {:induction false} NextLoopValid(w: State)
    requires Valid(w)
    ensures var r := NextLoop(w); r.Ok? ==> Valid(r.value.0)
    decreases w.maxWorkers - w.activeWorkers
  {
    if w.activeWorkers < w.maxWorkers && NextOperablePlan(w, Some(w.activeJobs)).1.Some? {
      var (w1, p) := NextOperablePlan(w, Some(w.activeJobs));
      assert Valid(w1);
      DispatchValid(w1, p.value);
      var h := Hand(w1, p.value);
      if h.Ok? {
        NextLoopValid(h.value.0);
      }
    }
  }

  /** `next` keeps the pool valid. */
  lemma NextValid(w: State)
    requires Valid(w)
    ensures var r := Next(w); r.Ok? ==> Valid(r.value.0)
  {
    NextLoopValid(w);
  }

  /** Dispatching a job and taking a worker for it keeps the pool valid. */
  lemma DispatchValid(w: State, pid: PlanId)
    requires Valid(w) && pid in w.plans && w.activeWorkers < w.maxWorkers
    requires Plan.CheckNextJob(w.plans[pid], Some(w.activeJobs), None).Some?
    ensures var r := Dispatch(w, pid).0; Valid(r.(activeWorkers := r.activeWorkers + 1))
  {
    var job := Dispatch(w, pid).1;
    var w' := w.(activeJobs := w.activeJobs + {job});
    assert Attended(w');
    ShiftedPool(w', job);
    CardAdd(w.activeJobs, job);
  }

  /** Adding an element not yet in a set grows it by one. */
  lemma CardAdd<T>(s: set<T>, x: T)
    requires x !in s
    ensures |s + {x}| == |s| + 1
  {
  }

  /** The shift for a job in flight keeps the listener maps wired and attended and the plans under their ids. */
  lemma ShiftedPool(w: State, id: Id)
    requires OrderOk(w.plans, w.plansOrder) && id in w.activeJobs
    requires Wired(w) && Attended(w) && forall k :: k in w.plans ==> w.plans[k].id == k
    ensures var r := ShiftJobFromPlans(w, id);
      && Wired(r) && Attended(r) && forall k :: k in r.plans ==> r.plans[k].id == k
  {
    var r := ShiftJobFromPlans(w, id);
    WorkersShift.ShiftExact(w, id);
    ShiftedWired(w, id, r);
    ShiftedListeners(w, id, r);
    ShiftedIds(w, id, r);
  }

  /** After the shift, the listener maps are still inverse and name registered plans. */
  lemma ShiftedWired(w: State, id: Id, r: State)
    requires Wired(w) && WorkersShift.Shifted(w, id, r)
    ensures Wired(r)
  {
    var vis := WorkersShift.Operable(w.plans);
    assert WorkersShift.Listens(w.jobPlans, w.planJobs, r.jobPlans, r.planJobs, w.plans, id, vis);
    forall j: Id, p: PlanId
      ensures p in PlansOf(r.jobPlans, j) <==> j in JobsOf(r.planJobs, p)
    {
      assert p in PlansOf(r.jobPlans, j) <==> p in PlansOf(w.jobPlans, j) || (j == id && WorkersShift.Hands(w.plans, id, vis, p));
      assert j in JobsOf(r.planJobs, p) <==> j in JobsOf(w.planJobs, p) || (j == id && WorkersShift.Hands(w.plans, id, vis, p));
    }
    forall p: PlanId, j: Id | j in JobsOf(r.planJobs, p)
      ensures p in r.plans
    {
      assert j in JobsOf(w.planJobs, p) || (j == id && WorkersShift.Hands(w.plans, id, vis, p));
    }
  }

  /** After the shift, every listener still waits for a job in flight that its plan has active. */
  lemma ShiftedListeners(w: State, id: Id, r: State)
    requires id in w.activeJobs && r.activeJobs == w.activeJobs
    requires Attended(w) && WorkersShift.Shifted(w, id, r)
    ensures Attended(r)
  {
    var vis := WorkersShift.Operable(w.plans);
    assert WorkersShift.Listens(w.jobPlans, w.planJobs, r.jobPlans, r.planJobs, w.plans, id, vis);
    forall p: PlanId, j: Id | j in JobsOf(r.planJobs, p)
      ensures j in r.activeJobs && p in r.plans && j in r.plans[p].activeJobs
    {
      assert j in JobsOf(w.planJobs, p) || (j == id && WorkersShift.Hands(w.plans, id, vis, p));
      if j in JobsOf(w.planJobs, p) {
        assert j in w.plans[p].activeJobs;
      }
    }
  }

  /** After the shift, every plan is still filed under its own id. */
  lemma ShiftedIds(w: State, id: Id, r: State)
    requires forall k :: k in w.plans ==> w.plans[k].id == k
    requires WorkersShift.Shifted(w, id, r)
    ensures forall k :: k in r.plans ==> r.plans[k].id == k
  {
  }
}

=== FILE: workers_shift.dfy ===
/**
 * `shiftJobFromPlans` takes the job out of every operable plan that has it
 * queued, and exactly those plans start listening for it. The proof follows
 * the round-robin walk: positions are counted from the first plan visited,
 * the walk only moves forward, and a plan it skips was not operable when the
 * walk began.
 */
module WorkersShift {
  import opened Util
  import opened Workers
  import Plan

  /** The plan id `j` positions on from order position `s`, going round. */
  function At(order: seq<PlanId>, s: nat, j: nat): (r: PlanId)
    requires s < |order| && j < |order|
    ensures r in order
  {
    order[Wrap(s + j, |order|)]
  }

  /** The plans operable when the walk began. */
  ghost function Operable(p0: map<PlanId, Plan.State>): (r: set<PlanId>)
    ensures forall k :: k in r <==> k in p0 && Plan.IsOperable(p0[k])
  {
    set k | k in p0 && Plan.IsOperable(p0[k])
  }

  /**
   * The walk over `order`, begun at position `s0` on the plans `p0`, has
   * reached offset `o`: every position before it was visited or held a plan
   * that was not operable, no position from it on was visited, an unvisited
   * plan is untouched, and a visited plan was operable and has been asked
   * for job `id`.
   */
  ghost predicate WalkInv(p0: map<PlanId, Plan.State>, order: seq<PlanId>, id: Id, s0: nat, o: nat,
                          visited: set<PlanId>, plans: map<PlanId, Plan.State>)
    requires OrderOk(p0, order) && s0 < |order| && o <= |order|
  {
    && plans.Keys == p0.Keys
    && Behind(p0, order, s0, o, visited)
    && Unvisited(order, s0, o, visited)
    && Kept(p0, id, visited, plans)
  }

  /** Every position before offset `o` was visited or held a plan that was not operable. */
  ghost predicate Behind(p0: map<PlanId, Plan.State>, order: seq<PlanId>, s0: nat, o: nat, visited: set<PlanId>)
    requires OrderOk(p0, order) && s0 < |order| && o <= |order|
  {
    forall j :: 0 <= j < o ==> At(order, s0, j) in visited || !Plan.IsOperable(p0[At(order, s0, j)])
  }

  /** No position from offset `o` on was visited. */
  ghost predicate Unvisited(order: seq<PlanId>, s0: nat, o: nat, visited: set<PlanId>)
    requires s0 < |order| && o <= |order|
  {
    forall j :: o <= j < |order| ==> At(order, s0, j) !in visited
  }

  /** An unvisited plan is untouched; a visited one was operable and has been asked for job `id`. */
  ghost predicate Kept(p0: map<PlanId, Plan.State>, id: Id, visited: set<PlanId>, plans: map<PlanId, Plan.State>)
    requires plans.Keys == p0.Keys
  {
    && (forall k :: k in p0 && k !in visited ==> plans[k] == p0[k])
    && (forall k :: k in visited ==> k in p0 && Plan.IsOperable(p0[k]) && plans[k] == Plan.NextJob(p0[k], Some(id)).0)
  }

  /** Whether visiting plan `k` of `p0` makes it listen for job `id`. */
  ghost predicate Hands(p0: map<PlanId, Plan.State>, id: Id, vis: set<PlanId>, k: PlanId)
  {
    k in vis && k in p0 && Plan.NextJob(p0[k], Some(id)).1.Some?
  }

  /**
   * The listener maps `jp`, `pj` are `jp0`, `pj0` plus the pairs of job `id`
   * with the plans of `vis` that handed it out.
   */
  ghost predicate Listens(jp0: map<Id, set<PlanId>>, pj0: map<PlanId, set<Id>>,
                          jp: map<Id, set<PlanId>>, pj: map<PlanId, set<Id>>,
                          p0: map<PlanId, Plan.State>, id: Id, vis: set<PlanId>)
  {
    && (forall j: Id, p: PlanId {:trigger p in PlansOf(jp, j)} {:trigger p in PlansOf(jp0, j)} :: p in PlansOf(jp, j) <==> p in PlansOf(jp0, j) || (j == id && Hands(p0, id, vis, p)))
    && (forall j: Id, p: PlanId :: j in JobsOf(pj, p) <==> j in JobsOf(pj0, p) || (j == id && Hands(p0, id, vis, p)))
  }

  /** `Listens` at one job and one plan. */
  lemma ListensAt(jp0: map<Id, set<PlanId>>, pj0: map<PlanId, set<Id>>,
                  jp: map<Id, set<PlanId>>, pj: map<PlanId, set<Id>>,
                  p0: map<PlanId, Plan.State>, id: Id, vis: set<PlanId>, j: Id, p: PlanId)
    requires Listens(jp0, pj0, jp, pj, p0, id, vis)
    ensures p in PlansOf(jp, j) <==> p in PlansOf(jp0, j) || (j == id && Hands(p0, id, vis, p))
    ensures j in JobsOf(pj, p) <==> j in JobsOf(pj0, p) || (j == id && Hands(p0, id, vis, p))
  {
  }

  /** Everything the walk promises once it is over. */
  ghost predicate Shifted(w: State, id: Id, r: State)
  {
    && r.plans.Keys == w.plans.Keys
    && (forall k :: k in w.plans ==>
          r.plans[k] == if Plan.IsOperable(w.plans[k]) then Plan.NextJob(w.plans[k], Some(id)).0 else w.plans[k])
    && Listens(w.jobPlans, w.planJobs, r.jobPlans, r.planJobs, w.plans, id, Operable(w.plans))
  }

  // ---------------------------------------------------------------------------
  // Arithmetic of the walk

  /** Counting on from the cursor after offset `o1 - 1` is counting on from `s0` past `o1`, going round. */
  lemma AtShift(order: seq<PlanId>, s0: nat, o1: nat, j: nat)
    requires s0 < |order| && o1 <= |order| && j < |order|
    ensures Wrap(s0 + o1, |order|) < |order| && Wrap(o1 + j, |order|) < |order|
    ensures At(order, Wrap(s0 + o1, |order|), j) == At(order, s0, Wrap(o1 + j, |order|))
  {
  }

  /** The cursor after offset `o` from `s0` is at offset `o + 1`, going round. */
  lemma NextAt(s0: nat, o: nat, n: nat)
    requires s0 < n && o < n
    ensures NextIndex(Wrap(s0 + o, n), n) == Wrap(s0 + o + 1, n)
  {
  }

  /** The offset of the position `o` steps on from `s0` is `o`. */
  lemma OffsetWrap(s0: nat, o: nat, n: nat)
    requires s0 < n && o < n
    ensures Offset(Wrap(s0 + o, n), s0, n) == o
  {
  }

  /** Every plan in the order is at some offset from `s0`. */
  lemma AtSome(p0: map<PlanId, Plan.State>, order: seq<PlanId>, s0: nat, k: PlanId)
    requires OrderOk(p0, order) && s0 < |order| && k in p0
    ensures Offset(IndexOf(order, k), s0, |order|) < |order|
    ensures At(order, s0, Offset(IndexOf(order, k), s0, |order|)) == k
  {
  }

  // ---------------------------------------------------------------------------
  // The steps of the walk

  /** Visiting the plan at offset `o` moves the walk to offset `o + 1`. */
  lemma VisitStep(w0: State, w: State, id: Id, s0: nat, o: nat, visited: set<PlanId>)
    requires OrderOk(w0.plans, w.plansOrder) && s0 < |w.plansOrder| && o < |w.plansOrder|
    requires WalkInv(w0.plans, w.plansOrder, id, s0, o, visited, w.plans)
    requires Plan.IsOperable(w.plans[At(w.plansOrder, s0, o)])
    requires Listens(w0.jobPlans, w0.planJobs, w.jobPlans, w.planJobs, w0.plans, id, visited)
    ensures var pid := At(w.plansOrder, s0, o);
      var w2 := ShiftVisit(w, id, pid);
      && pid !in visited
      && WalkInv(w0.plans, w.plansOrder, id, s0, o + 1, visited + {pid}, w2.plans)
      && Listens(w0.jobPlans, w0.planJobs, w2.jobPlans, w2.planJobs, w0.plans, id, visited + {pid})
  {
    var pid := At(w.plansOrder, s0, o);
    VisitWalk(w0.plans, w.plansOrder, id, s0, o, visited, w.plans);
    VisitListens(w0, w, id, pid, visited);
  }

  /** The walk part of `VisitStep`. */
  lemma VisitWalk(p0: map<PlanId, Plan.State>, order: seq<PlanId>, id: Id, s0: nat, o: nat,
                  visited: set<PlanId>, plans: map<PlanId, Plan.State>)
    requires OrderOk(p0, order) && s0 < |order| && o < |order|
    requires WalkInv(p0, order, id, s0, o, visited, plans)
    requires Plan.IsOperable(plans[At(order, s0, o)])
    ensures var pid := At(order, s0, o);
      && pid !in visited && plans[pid] == p0[pid]
      && WalkInv(p0, order, id, s0, o + 1, visited + {pid}, plans[pid := Plan.NextJob(plans[pid], Some(id)).0])
  {
    var pid := At(order, s0, o);
    AheadStep(order, s0, o, visited);
    KeptStep(p0, id, visited, plans, pid);
  }

  /** Visiting offset `o` keeps the positions after it unvisited. */
  lemma AheadStep(order: seq<PlanId>, s0: nat, o: nat, visited: set<PlanId>)
    requires NoDup(order) && s0 < |order| && o < |order| && Unvisited(order, s0, o, visited)
    ensures Unvisited(order, s0, o + 1, visited + {At(order, s0, o)})
  {
    forall j | o < j < |order|
      ensures At(order, s0, j) != At(order, s0, o)
    {
      assert Wrap(s0 + j, |order|) != Wrap(s0 + o, |order|);
    }
  }

  /** Visiting the untouched operable plan `pid` asks it for the job and keeps the rest as they were. */
  lemma KeptStep(p0: map<PlanId, Plan.State>, id: Id, visited: set<PlanId>, plans: map<PlanId, Plan.State>, pid: PlanId)
    requires plans.Keys == p0.Keys && Kept(p0, id, visited, plans)
    requires pid in p0 && pid !in visited && Plan.IsOperable(plans[pid])
    ensures plans[pid] == p0[pid]
    ensures Kept(p0, id, visited + {pid}, plans[pid := Plan.NextJob(plans[pid], Some(id)).0])
  {
  }

  /** The listener part of `VisitStep`. */
  lemma VisitListens(w0: State, w: State, id: Id, pid: PlanId, visited: set<PlanId>)
    requires pid in w.plans && pid in w0.plans && w.plans[pid] == w0.plans[pid] && pid !in visited
    requires Listens(w0.jobPlans, w0.planJobs, w.jobPlans, w.planJobs, w0.plans, id, visited)
    ensures var w2 := ShiftVisit(w, id, pid);
      Listens(w0.jobPlans, w0.planJobs, w2.jobPlans, w2.planJobs, w0.plans, id, visited + {pid})
  {
    var w2 := ShiftVisit(w, id, pid);
    var b := Plan.NextJob(w.plans[pid], Some(id)).1.Some?;
    HandsAdd(w0.plans, id, visited, pid, b);
    ListensAdd(w0.jobPlans, w0.planJobs, w.jobPlans, w.planJobs, w2.jobPlans, w2.planJobs, w0.plans, id, visited, pid, b);
  }

  /** Visiting `pid` adds it to the plans that handed the job out exactly when it hands the job out. */
  lemma HandsAdd(p0: map<PlanId, Plan.State>, id: Id, visited: set<PlanId>, pid: PlanId, b: bool)
    requires pid in p0 && b == Plan.NextJob(p0[pid], Some(id)).1.Some?
    ensures forall p :: Hands(p0, id, visited + {pid}, p) <==> Hands(p0, id, visited, p) || (p == pid && b)
  {
  }

  /** On the maps alone: adding the pair of `id` and `pid` when `b` extends the relation by that pair. */
  lemma ListensAdd(jp0: map<Id, set<PlanId>>, pj0: map<PlanId, set<Id>>,
                   jp: map<Id, set<PlanId>>, pj: map<PlanId, set<Id>>,
                   jp2: map<Id, set<PlanId>>, pj2: map<PlanId, set<Id>>,
                   p0: map<PlanId, Plan.State>, id: Id, visited: set<PlanId>, pid: PlanId, b: bool)
    requires Listens(jp0, pj0, jp, pj, p0, id, visited)
    requires forall p :: Hands(p0, id, visited + {pid}, p) <==> Hands(p0, id, visited, p) || (p == pid && b)
    requires forall j: Id, p: PlanId {:trigger p in PlansOf(jp2, j)} {:trigger p in PlansOf(jp, j)} :: p in PlansOf(jp2, j) <==> p in PlansOf(jp, j) || (j == id && p == pid && b)
    requires forall j: Id, p: PlanId :: j in JobsOf(pj2, p) <==> j in JobsOf(pj, p) || (j == id && p == pid && b)
    ensures Listens(jp0, pj0, jp2, pj2, p0, id, visited + {pid})
  {
  }

  /**
   * The plans the scan from cursor `s` passed over before position `f`
   * were not operable; from `s0` they lie at offsets `o1` on.
   */
  lemma Idle(plans: map<PlanId, Plan.State>, order: seq<PlanId>, s0: nat, o1: nat, s: nat, f: nat, m: nat)
    requires OrderOk(plans, order) && s0 < |order| && o1 <= |order| && s == Wrap(s0 + o1, |order|)
    requires f < |order| && m <= f && o1 + m <= |order|
    requires forall j :: 0 <= j < f ==> !Eligible(Ahead(plans, order, s, j), None)
    ensures forall j :: o1 <= j < o1 + m ==> !Plan.IsOperable(plans[At(order, s0, j)])
  {
    forall j | o1 <= j < o1 + m
      ensures !Plan.IsOperable(plans[At(order, s0, j)])
    {
      AtShift(order, s0, o1, j - o1);
      assert Ahead(plans, order, s, j - o1) == plans[At(order, s, j - o1)];
    }
  }

  /**
   * After the visit at offset `o1 - 1`, the next operable plan lies
   * `Offset(c, s, n)` positions on from the cursor `s`. Short of the
   * round's end it is unvisited and the walk moves to it.
   */
  lemma AdvanceOn(p0: map<PlanId, Plan.State>, order: seq<PlanId>, id: Id, s0: nat, o1: nat,
                  visited: set<PlanId>, plans: map<PlanId, Plan.State>, s: nat, c: nat)
    requires OrderOk(p0, order) && s0 < |order| && 1 <= o1 <= |order|
    requires WalkInv(p0, order, id, s0, o1, visited, plans)
    requires OrderOk(plans, order) && s == Wrap(s0 + o1, |order|)
    requires c < |order| && o1 + Offset(c, s, |order|) < |order|
    requires forall j :: 0 <= j < Offset(c, s, |order|) ==> !Eligible(Ahead(plans, order, s, j), None)
    ensures order[c] !in visited
    ensures Offset(c, s0, |order|) == o1 + Offset(c, s, |order|)
    ensures WalkInv(p0, order, id, s0, Offset(c, s0, |order|), visited, plans)
  {
    var n := |order|;
    var f := Offset(c, s, n);
    AtShift(order, s0, o1, f);
    OffsetWrap(s0, o1 + f, n);
    Idle(plans, order, s0, o1, s, f, f);
  }

  /**
   * Past the round's end, the next operable plan was visited already, and
   * then every plan operable when the walk began has been visited.
   */
  lemma AdvanceWrapped(p0: map<PlanId, Plan.State>, order: seq<PlanId>, id: Id, s0: nat, o1: nat,
                       visited: set<PlanId>, plans: map<PlanId, Plan.State>, s: nat, c: nat)
    requires OrderOk(p0, order) && s0 < |order| && 1 <= o1 <= |order|
    requires WalkInv(p0, order, id, s0, o1, visited, plans)
    requires OrderOk(plans, order) && s == Wrap(s0 + o1, |order|)
    requires c < |order| && Plan.IsOperable(plans[order[c]]) && o1 + Offset(c, s, |order|) >= |order|
    requires forall j :: 0 <= j < Offset(c, s, |order|) ==> !Eligible(Ahead(plans, order, s, j), None)
    ensures order[c] in visited && Operable(p0) <= visited
  {
    var n := |order|;
    Idle(plans, order, s0, o1, s, Offset(c, s, n), n - o1);
    AtShift(order, s0, o1, Offset(c, s, n));
    AllVisited(p0, order, id, s0, o1, visited, plans);
  }

  /** When no plan at offsets from `o1` on is operable, every plan operable when the walk began has been visited. */
  lemma AllVisited(p0: map<PlanId, Plan.State>, order: seq<PlanId>, id: Id, s0: nat, o1: nat,
                   visited: set<PlanId>, plans: map<PlanId, Plan.State>)
    requires OrderOk(p0, order) && s0 < |order| && o1 <= |order|
    requires WalkInv(p0, order, id, s0, o1, visited, plans)
    requires forall j :: o1 <= j < |order| ==> !Plan.IsOperable(plans[At(order, s0, j)])
    ensures Operable(p0) <= visited
  {
    forall k | k in Operable(p0)
      ensures k in visited
    {
      AtSome(p0, order, s0, k);
    }
  }

  /** When no plan is operable any more, every plan operable when the walk began has been visited. */
  lemma EndNone(p0: map<PlanId, Plan.State>, order: seq<PlanId>, id: Id, s0: nat, o1: nat,
                visited: set<PlanId>, plans: map<PlanId, Plan.State>)
    requires OrderOk(p0, order) && s0 < |order| && o1 <= |order|
    requires WalkInv(p0, order, id, s0, o1, visited, plans)
    requires forall k :: k in plans ==> !Eligible(plans[k], None)
    ensures Operable(p0) <= visited
  {
  }

  /** A walk that has visited every plan operable when it began has shifted the job out of all of them. */
  lemma Complete(w0: State, r: State, id: Id, s0: nat, o1: nat, visited: set<PlanId>)
    requires OrderOk(w0.plans, w0.plansOrder) && s0 < |w0.plansOrder| && o1 <= |w0.plansOrder|
    requires WalkInv(w0.plans, w0.plansOrder, id, s0, o1, visited, r.plans)
    requires Listens(w0.jobPlans, w0.planJobs, r.jobPlans, r.planJobs, w0.plans, id, visited)
    requires Operable(w0.plans) <= visited
    ensures Shifted(w0, id, r)
  {
    assert visited == Operable(w0.plans);
  }

  // ---------------------------------------------------------------------------
  // The walk

  /** A point of the walk: plan `pid` is under the cursor, operable, and the invariant holds. */
  ghost predicate Walking(w0: State, w: State, id: Id, pid: PlanId, visited: set<PlanId>, s0: nat)
  {
    && OrderOk(w.plans, w.plansOrder) && pid in w.plans && pid !in visited && visited <= w.plans.Keys
    && w.plansOrder == w0.plansOrder && OrderOk(w0.plans, w0.plansOrder) && s0 < |w.plansOrder|
    && w.lastPlanIndex < |w.plansOrder| && pid == w.plansOrder[w.lastPlanIndex]
    && WalkInv(w0.plans, w.plansOrder, id, s0, Offset(w.lastPlanIndex, s0, |w.plansOrder|), visited, w.plans)
    && Listens(w0.jobPlans, w0.planJobs, w.jobPlans, w.planJobs, w0.plans, id, visited)
    && Plan.IsOperable(w.plans[pid])
  }

  /** The plan as many steps on from `s` as position `c` lies is the one at `c`. */
  lemma AtOffset(order: seq<PlanId>, s: nat, c: nat)
    requires s < |order| && c < |order|
    ensures At(order, s, Offset(c, s, |order|)) == order[c]
  {
  }

  /** One turn of the walk, spelled out. */
  lemma ShiftLoopUnfold(w: State, id: Id, pid: PlanId, visited: set<PlanId>)
    requires OrderOk(w.plans, w.plansOrder) && pid in w.plans && pid !in visited && visited <= w.plans.Keys
    ensures var (w3, next) := NextOperablePlan(ShiftVisit(w, id, pid), None);
      && (next.None? || next.value in visited + {pid} ==> ShiftLoop(w, id, pid, visited) == w3)
      && (next.Some? && next.value !in visited + {pid} ==>
            ShiftLoop(w, id, pid, visited) == ShiftLoop(w3, id, next.value, visited + {pid}))
  {
  }

  /** After one turn the walk is either over, with the job shifted, or at its next point. */
  lemma ShiftStep(w0: State, w: State, id: Id, pid: PlanId, visited: set<PlanId>, s0: nat)
    requires Walking(w0, w, id, pid, visited, s0)
    ensures var (w3, next) := NextOperablePlan(ShiftVisit(w, id, pid), None);
      && (next.None? || next.value in visited + {pid} ==> Shifted(w0, id, w3))
      && (next.Some? && next.value !in visited + {pid} ==> Walking(w0, w3, id, next.value, visited + {pid}, s0))
  {
    var n := |w.plansOrder|;
    var o := Offset(w.lastPlanIndex, s0, n);
    AtOffset(w.plansOrder, s0, w.lastPlanIndex);
    VisitStep(w0, w, id, s0, o, visited);
    NextAt(s0, o, n);
    AfterVisit(w0, ShiftVisit(w, id, pid), id, visited + {pid}, s0, o + 1);
  }

  /** The second half of a turn: from the plan just visited, on to the next operable plan. */
  lemma AfterVisit(w0: State, w2: State, id: Id, visited: set<PlanId>, s0: nat, o1: nat)
    requires OrderOk(w0.plans, w0.plansOrder) && w2.plansOrder == w0.plansOrder && OrderOk(w2.plans, w2.plansOrder)
    requires s0 < |w2.plansOrder| && 1 <= o1 <= |w2.plansOrder|
    requires NextIndex(w2.lastPlanIndex, |w2.plansOrder|) == Wrap(s0 + o1, |w2.plansOrder|)
    requires WalkInv(w0.plans, w2.plansOrder, id, s0, o1, visited, w2.plans) && visited <= w2.plans.Keys
    requires Listens(w0.jobPlans, w0.planJobs, w2.jobPlans, w2.planJobs, w0.plans, id, visited)
    ensures var (w3, next) := NextOperablePlan(w2, None);
      && (next.None? || next.value in visited ==> Shifted(w0, id, w3))
      && (next.Some? && next.value !in visited ==> Walking(w0, w3, id, next.value, visited, s0))
  {
    var order := w2.plansOrder;
    var n := |order|;
    NextOperableFirst(w2, None);
    var (w3, next) := NextOperablePlan(w2, None);
    if next.None? {
      EndNone(w0.plans, order, id, s0, o1, visited, w2.plans);
      Complete(w0, w3, id, s0, o1, visited);
    } else {
      var s := Wrap(s0 + o1, n);
      if o1 + Offset(w3.lastPlanIndex, s, n) < n {
        AdvanceOn(w0.plans, order, id, s0, o1, visited, w2.plans, s, w3.lastPlanIndex);
      } else {
        AdvanceWrapped(w0.plans, order, id, s0, o1, visited, w2.plans, s, w3.lastPlanIndex);
        Complete(w0, w3, id, s0, o1, visited);
      }
    }
  }

  /**
   * From any point of the walk that keeps the invariant, the rest of the
   * `do … while` shifts the job out of every plan operable when the walk
   * began.
   */
  lemma {:induction false} ShiftLoopExact(w0: State, w: State, id: Id, pid: PlanId, visited: set<PlanId>, s0: nat)
    requires Walking(w0, w, id, pid, visited, s0)
    ensures Shifted(w0, id, ShiftLoop(w, id, pid, visited))
    decreases |w.plans.Keys - visited|
  {
    ShiftStep(w0, w, id, pid, visited, s0);
    ShiftLoopUnfold(w, id, pid, visited);
    var (w3, next) := NextOperablePlan(ShiftVisit(w, id, pid), None);
    if next.Some? && next.value !in visited + {pid} {
      Shrinks(w.plans.Keys, visited, pid);
      ShiftLoopExact(w0, w3, id, next.value, visited + {pid}, s0);
    }
  }

  /**
   * `shiftJobFromPlans` asks every plan that is operable for job `id` by
   * name, leaves the others alone, and makes exactly the operable plans
   * that hand the job out listen for it.
   */
  lemma ShiftExact(w: State, id: Id)
    requires OrderOk(w.plans, w.plansOrder)
    ensures Shifted(w, id, ShiftJobFromPlans(w, id))
  {
    NextOperableFirst(w, None);
    var (w1, first) := NextOperablePlan(w, None);
    if first.Some? {
      OffsetWrap(w1.lastPlanIndex, 0, |w.plansOrder|);
      assert Walking(w, w1, id, first.value, {}, w1.lastPlanIndex);
      ShiftLoopExact(w, w1, id, first.value, {}, w1.lastPlanIndex);
    }
  }
}
